=== FILE: README.md ===
# Chess analyzer core, modelled in Dafny

This project models the deterministic rules of the chess analyzer. These
rules turn engine scores into a post-game report, pick puzzles out of games,
and normalise the modes and requests around them. Each module follows one
source file or one group of closely related files:

- `Scores`, `MoveUci`, `Grading`, `Aggregate`, `ReportDetails`: the
  latest-report details route. It maps scores to centipawns, writes moves as
  UCI, and tags each ply by its centipawn loss with the two mate overrides.
  It sets the agreement and only-move flags, the phase, the symbol and the
  note. It then folds the plies into per-side and per-phase statistics.
- `ReportGenerate`: the older report-generation route. It tags each ply by
  the change in evaluation and computes its own accuracy.
- `InfoLine`, `EnginePool`: the engine pool. `InfoLine` is the `info`
  tokenizer. `EnginePool` is the scheduler, modelled as a sequential state
  machine with the UCI handshake, a FIFO queue, one job in flight, a 5-second
  dedupe table and `reset`.
- `AnalyzeRoute`: the `/api/analyze` request normaliser. It clamps the Elo,
  substitutes `startpos` and maps errors.
- `PuzzleMiner`, `PuzzleImport`, `PgnStream`, `Motifs`: the offline
  scripts:
  - the material counter and puzzle decision rules of the miner;
  - the CSV row parser, filters and duplicate check of the importer;
  - the PGN header parser, header filter and line-driven game splitter;
  - the motif classifier and token grouping.
- `GameModes`, `Policies`, `Opening`: the game-mode presets and rules, the
  policy constructors, and the opening-book lookup over a given book.
- `ReportPage`, `PuzzlePage`, `Clock`: the pure logic inside the UI files.
  This covers the eval bar and graph mapping, key-moment selection,
  navigation clamps, the puzzle progression state machine, and clock
  formatting.

`Wrappers`, `Text` and `Decimal` hold shared helpers:
- `Option`/`Result`;
- trimming, splitting and joining, and case folding of ASCII letters;
- decimal printing and parsing;
- JavaScript's `Math.round`.

The model replaces every call into the engine process, the chess-rules
library, the database and the file system with a parameter:
- an `analyze` function from request to answer;
- an `apply` or `resolve` function for moves;
- `gainOf` for the miner's two-ply material gain;
- a list of stored puzzles in place of the database;
- a list of lines in place of a decompressed file.

## Model

| member | source | states |
|---|---|---|
| Scores.ScoreToCp | src/app/api/report/latest/details/route.ts:15-19 | a cp score passes through unchanged; a mate saturates to +10000 exactly when its value is >= 0 (so mate 0 is +10000), else to -10000; an absent score gives null |
| MoveUci.MoveToUci | src/app/api/report/latest/details/route.ts:21-31 | null exactly for a non-normal move; otherwise from-square name, to-square name, plus one promotion letter exactly when the move promotes |
| MoveUci.UciRoundTrip | src/app/api/report/latest/details/route.ts:21-31 | the UCI text of a normal move (no promotion, or to knight/bishop/rook/queen) reads back as the same move |
| MoveUci.UciInjective | src/app/api/report/latest/details/route.ts:21-31 | two such moves with the same UCI text are the same move |
| MoveUci.OddPromotionWrittenAsQueen | src/app/api/report/latest/details/route.ts:26-27 | any promotion role other than knight, bishop or rook is written with the letter q |
| Grading.Cpl | src/app/api/report/latest/details/route.ts:117 | centipawn loss is never negative, is at least best - played, and is either 0 or exactly best - played |
| Grading.CplTag | src/app/api/report/latest/details/route.ts:122-130 | each tag holds exactly on its inclusive band: <=30 Best, <=70 Excellent, <=150 Good, <=300 Inaccuracy, <=600 Mistake, else Blunder |
| Grading.CplTagMonotone | src/app/api/report/latest/details/route.ts:122-130 | a larger loss never gets a less severe ladder tag |
| Grading.CplTagBoundaries | src/app/api/report/latest/details/route.ts:124-129 | the tags on each side of every boundary: 30/31, 70/71, 150/151, 300/301, 600/601 |
| Grading.TagFor | src/app/api/report/latest/details/route.ts:119-130 | a missed mate, or a played mate further away than the best mate, is a Blunder; otherwise, and always when the best line does not mate, the ladder tag of the loss |
| Grading.TagMonotoneWithoutMate | src/app/api/report/latest/details/route.ts:119-130 | with a non-mating best line, severity is monotone in the loss whatever was played |
| Grading.CountNearTwo | src/app/api/report/latest/details/route.ts:137-141 | among at most two candidate lines, exactly one is near the top score iff just one of them is near |
| Grading.OnlyMove | src/app/api/report/latest/details/route.ts:133-143 | false for no candidate lines; with one line, true iff it has a score; with two or more, true iff exactly one of the first two lies within 30 cp of the first, a missing score counting as -99999 |
| Grading.PhaseOfIndex | src/app/api/report/latest/details/route.ts:145-146 | plies 1-24 are opening, 25-80 middlegame, 81 and later endgame, each as an iff |
| Grading.NoteFor | src/app/api/report/latest/details/route.ts:149-156 | no note iff neither a missed mate nor an only move; "missed mate" alone, "only move" alone, or "missed mate; only move" for both |
| Grading.NoteAppended | src/app/api/report/latest/details/route.ts:150-156 | the note equals the route's two-step assembly: "missed mate" first, then "; only move" appended or "only move" alone |
| Grading.GradePly | src/app/api/report/latest/details/route.ts:106-158 | ply = i+1 and the phase comes from the index; the loss is best cp minus played cp (mate as +-10000, a missing best as 0, an unresolved or missing played score as the best), so 0 when the played move did not resolve; agreement iff loss <= 30; the tag is TagFor of the two scores and the loss, so a missed mate or a slower mate is Blunder with `??` and without a best mate the tag is the ladder tag; only-move iff OnlyMove of the candidate lines; both pvs carried; the note is NoteFor of the missed mate and the only-move flag |
| Grading.SymbolByTag | src/app/api/report/latest/details/route.ts:149-155 | without a missed mate: Blunder `??`, Mistake `?`, Inaccuracy `?!`, Excellent and Best `!!`, Good `!` |
| Grading.NoLinesNoOnlyMove | src/app/api/report/latest/details/route.ts:133-143 | with an empty candidate list a ply is never an only move, and its note is present exactly on a missed mate |
| Grading.SameAnswerIsBest | src/app/api/report/latest/details/route.ts:106-117 | when the played-move search answers with the best-move score, the ply has loss 0, tag Best, agreement and symbol `!!` |
| Aggregate.SidePlies | src/app/api/report/latest/details/route.ts:169-170 | keeps only plies of the chosen side (odd plies for white), drawn from the input |
| Aggregate.SidePliesCount | src/app/api/report/latest/details/route.ts:169-170 | every ply of the chosen side occurs in the result exactly as often as in the input, and no other ply occurs |
| Aggregate.SidePliesAppend | src/app/api/report/latest/details/route.ts:169-170 | the filter distributes over concatenation, so the kept plies stay in input order |
| Aggregate.Cpls | src/app/api/report/latest/details/route.ts:170 | the losses of the plies, one per ply, in order |
| Aggregate.InPhase | src/app/api/report/latest/details/route.ts:172-174 | keeps only plies of the chosen phase, drawn from the input |
| Aggregate.InPhaseCount | src/app/api/report/latest/details/route.ts:172-174 | every ply of the chosen phase occurs in the result exactly as often as in the input, and no other ply occurs |
| Aggregate.InPhaseAppend | src/app/api/report/latest/details/route.ts:172-174 | the filter distributes over concatenation, so the kept plies stay in input order |
| Aggregate.SumAbs | src/app/api/report/latest/details/route.ts:180 | the sum of absolute values is 0 iff every element is 0 |
| Aggregate.Avg | src/app/api/report/latest/details/route.ts:176 | avg of the empty list is 0; otherwise avg times the length is the sum |
| Aggregate.ClampPercent | src/app/api/report/latest/details/route.ts:181 | the result lies in [0,100] and equals the input when the input already does |
| Aggregate.Accuracy | src/app/api/report/latest/details/route.ts:179-182 | accuracy lies in [0,100] and is exactly 100 iff every loss is 0 |
| Aggregate.CountTag | src/app/api/report/latest/details/route.ts:171 | a tag's count never exceeds the number of plies |
| Aggregate.CountTagPositive | src/app/api/report/latest/details/route.ts:171 | a tag's count is positive iff some ply carries the tag |
| Aggregate.TagCounts | src/app/api/report/latest/details/route.ts:171 | the histogram has a key exactly for each tag that occurs, mapped to its count |
| Aggregate.StatsOf | src/app/api/report/latest/details/route.ts:176-195 | both accuracies lie in [0,100] and both average losses are nonnegative, 0 for a side with no plies; a side's accuracy is 100 iff every ply of that side (odd plies for white, the others for black) has loss 0; the histogram is TagCounts of the plies |
| Aggregate.WhiteMean | src/app/api/report/latest/details/route.ts:176-177 | when white has plies, white's average loss is the total loss over white's own plies divided by their number (and the mean itself satisfies mean x count == total, by Avg's contract) |
| Aggregate.BlackMean | src/app/api/report/latest/details/route.ts:176-178 | the same for black's plies |
| Aggregate.SidePerfect | src/app/api/report/latest/details/route.ts:169-182 | the losses of one side sum (in absolute value) to 0 iff every ply of that side in the whole list has loss 0 |
| Aggregate.TagCountsCount | src/app/api/report/latest/details/route.ts:171 | the histogram's count for a tag, 0 without a key, is the number of plies with that tag |
| Aggregate.PhaseHistogramsAddUp | src/app/api/report/latest/details/route.ts:171-174 | for every tag the opening, middlegame and endgame counts add up to the overall count |
| Aggregate.AggregateAll | src/app/api/report/latest/details/route.ts:160-195 | the overall accuracies are 100 iff the side lost nothing on any ply; the three phase histograms add up to the overall histogram, tag by tag |
| Aggregate.SidesPartition | src/app/api/report/latest/details/route.ts:169-175 | white and black plies partition the plies, and their loss sums add up to the total |
| Aggregate.PhasesPartition | src/app/api/report/latest/details/route.ts:169-175 | the three phase buckets partition the plies, and their tag counts add up to the overall count |
| ReportDetails.GradeAll | src/app/api/report/latest/details/route.ts:48-159 | one grade per position, in order, ply i+1 graded from its own probe, with phase from the index |
| ReportDetails.GetDetails | src/app/api/report/latest/details/route.ts:33-51 | 404 iff no report is stored; 400 iff either list is empty or their lengths differ; otherwise one entry per position with ply i+1, and the aggregates of exactly those entries |
| ReportDetails.EveryPlyBestUnderPoolKey | src/app/api/report/latest/details/route.ts:51-117 | when the engine answers by the pool's key (position, depth, Elo) and every move resolves, every ply has loss 0 and tag Best, because the played search gets the best search's answer |
| ReportDetails.PlyBestUnderPoolKey | src/app/api/report/latest/details/route.ts:106-124 | the same for one ply |
| ReportDetails.PlyRequestsDistinct | src/app/api/report/latest/details/route.ts:51-110 | a ply's best-move request and its played-move request have the same pool key (position, depth, Elo) but differ in the restricted move list |
| ReportDetails.PlayedBlunderReported | src/app/api/report/latest/details/route.ts:106-130 | with an engine that answers by the full request, a played move losing more than 600 cp against a best line without mate gets exactly that loss and tag Blunder |
| ReportDetails.PlayedAnswersGraded | src/app/api/report/latest/details/route.ts:48-158 | with an engine that answers by the full request, the route succeeds and every resolved ply's loss is computed from its own played-move search |
| ReportDetails.NoOnlyMoveWithoutLines | src/app/api/report/latest/details/route.ts:133-143 | when the answers carry no candidate lines, as the pool's never do, no ply is flagged as an only move |
| ReportGenerate.TagFromDelta | src/app/api/report/generate/route.ts:18-25 | each label band as an iff on abs(next - prev): >=300, [150,300), [50,150), below 50 for ""; a drop label iff the change is negative |
| ReportGenerate.TagFromDeltaShift | src/app/api/report/generate/route.ts:18-25 | the tag depends only on next - prev |
| ReportGenerate.TagFromDeltaReverse | src/app/api/report/generate/route.ts:18-25 | swapping the two evaluations swaps each drop label with the rise label of the same band |
| ReportGenerate.DeltaTags | src/app/api/report/generate/route.ts:44-48 | one tag per evaluation; the first is ""; each later one is the delta tag of its consecutive pair |
| ReportGenerate.SumAbsDeltas | src/app/api/report/generate/route.ts:51-52 | the summed absolute change is 0 iff all consecutive evaluations are equal |
| ReportGenerate.DeltaAccuracy | src/app/api/report/generate/route.ts:50-54 | accuracy lies in [0,100]; it is 100 for one position; for more it is the clamped 100 - (mean absolute change in pawns / 8) x 100, that is 100 - 12.5 x the mean; it is 100 iff all consecutive evaluations are equal |
| ReportGenerate.Generate | src/app/api/report/generate/route.ts:27-68 | 400 iff there are no positions or the move count differs; otherwise a 500 iff the engine rejects some position's evaluation; otherwise the stored record keeps the lists, the depth default of 12 and the Elo, has one eval per position from its own request (cp as is, mate as +-10000, none as 0), a first tag of "" and each later tag the delta tag of its pair, and an accuracy in [0,100] that is 100 iff the evaluation never changes: 100 for one position, otherwise the clamped 100 - (mean absolute change in pawns / 8) x 100 |
| InfoLine.ParseInfoLine | src/lib/enginePool.ts:18-34 | null exactly for lines not starting with "info " |
| InfoLine.ScoreOf | src/lib/enginePool.ts:27 | a score is read iff the value is numeric and the kind is cp or mate, and then carries that kind and value |
| InfoLine.ParseInfoLineOfWords | src/lib/enginePool.ts:19-22 | an info line is parsed from its whitespace-separated tokens, starting after "info" |
| InfoLine.ParseInfoTokens | src/lib/enginePool.ts:22-32 | the scan over a full report: each key takes the next token, score takes kind and value, pv takes the rest |
| InfoLine.ParseInfoRoundTrip | src/lib/enginePool.ts:18-34 | a search report printed on one line reads back field for field, the pv included |
| InfoLine.SkipUnknown | src/lib/enginePool.ts:22-32 | any run of tokens that are not keys is skipped without changing the fields read so far |
| InfoLine.LaterKeyOverwrites | src/lib/enginePool.ts:24-30 | a key read at a position overwrites its field, so what the field held before makes no difference |
| InfoLine.DepthReadTwice | src/lib/enginePool.ts:24 | a line that reports depth twice keeps the second value |
| InfoLine.ParseExtrasTokens | src/lib/enginePool.ts:22-32 | the scan over a report with unknown tokens before `time` reads every field as in the plain report |
| InfoLine.ParseInfoWithExtrasRoundTrip | src/lib/enginePool.ts:18-34 | a search report printed with unknown non-key tokens (hashfull, tbhits, wdl values) before `time` reads back field for field, the pv included |
| EnginePool.Tail | src/lib/enginePool.ts:47 | `slice(-n)`: the whole list when it has at most n elements, otherwise exactly n elements, the last n in order |
| EnginePool.PushStdout | src/lib/enginePool.ts:63 | push then shift: below 100 lines the line is appended and every older line kept; at 100 or more the oldest line is dropped and the rest kept in order, so a full buffer becomes the last 100 of buffer plus line; a buffer within 100 lines stays within 100 |
| EnginePool.GetHealth | src/lib/enginePool.ts:46-48 | reports ready, busy and whether a process is attached, with the last 10 output lines |
| EnginePool.EnsureStarted | src/lib/enginePool.ts:50-76 | afterwards a process is attached; an attached one is left alone; a fresh one starts not ready with fresh handshake flags and "uci" written; the queue, the running job and the settled results are untouched |
| EnginePool.Handshake | src/lib/enginePool.ts:59-70 | the pool becomes ready, and pumps the queue, exactly when both "uciok" and "readyok" have been seen; otherwise only the flags change; "isready" is written once, on the first "uciok"; while a job runs the queue and the running job are untouched |
| EnginePool.PrimaryInfo | src/lib/enginePool.ts:109 | an info line replaces the primary info iff it parses and has no multipv or multipv 1; any other line keeps the current one |
| EnginePool.Analyze | src/lib/enginePool.ts:84-96 | a repeat of the same key within 5000 ms returns the earlier job id and changes nothing; otherwise a fresh id is recorded under the key with the call time and its job joins the back of the queue, starting at once when the engine is ready and idle; nothing settles |
| EnginePool.Commands | src/lib/enginePool.ts:120-123 | "position fen" and "go depth" always come last; the strength-limit option is sent iff limitStrength; the Elo option iff there is also a nonzero Elo; multiPv and searchMoves are never sent |
| EnginePool.Pump | src/lib/enginePool.ts:98-123 | nothing happens unless the pool is ready, idle, has a process and has a queued job; then the head of the queue starts, busy is set, and its commands are written |
| EnginePool.JobLine | src/lib/enginePool.ts:105-118 | info lines are collected and the primary info follows PrimaryInfo; other lines that are not "bestmove " change nothing; the first "bestmove " line settles the job once, clears busy and records the second token, the primary info and the last 10 info lines |
| EnginePool.InitialValid | src/lib/enginePool.ts:38-44 | the fresh pool satisfies the invariant: busy iff a job runs, busy only when ready, ready only after the handshake, queue ids increasing and unsettled |
| EnginePool.PumpValid | src/lib/enginePool.ts:98-101 | pump keeps the invariant, so at most one job is in flight |
| EnginePool.AnalyzeValid | src/lib/enginePool.ts:84-96 | analyze keeps the invariant |
| EnginePool.HandshakeValid | src/lib/enginePool.ts:59-70 | the handshake listener keeps the invariant |
| EnginePool.LineValid | src/lib/enginePool.ts:105-112 | every received line keeps the invariant |
| EnginePool.JobLineValid | src/lib/enginePool.ts:105-118 | the job listener keeps the invariant |
| EnginePool.ResetValid | src/lib/enginePool.ts:78-82 | reset keeps the invariant |
| EnginePool.StepValid | src/lib/enginePool.ts:73-123 | every event (call, engine line, deferred pump, close) keeps the invariant |
| EnginePool.SettledStable | src/lib/enginePool.ts:113-118 | a settled job stays settled with the same outcome under every event |
| EnginePool.PumpStartsOldest | src/lib/enginePool.ts:98-101 | a pump that starts a job starts the head of the queue, which is older than every job left behind |
| EnginePool.ResetRejectsQueued | src/lib/enginePool.ts:78-82 | reset rejects every queued job with "Engine unavailable", settles nothing else, leaves the running job unsettled and keeps the dedupe table |
| EnginePool.DedupeKeyInjective | src/lib/enginePool.ts:85 | two requests have the same key iff they agree on position, depth and Elo |
| EnginePool.RepeatWithinWindowShares | src/lib/enginePool.ts:85-88 | a second call with the same position, depth and Elo within 5000 ms gets the first call's id and queues nothing, whatever limitStrength says |
| EnginePool.DifferentKeyNotShared | src/lib/enginePool.ts:84-96 | calls that differ in position, depth or Elo get different jobs |
| AnalyzeRoute.Clamp | src/app/api/analyze/route.ts:21 | the result lies in [lo,hi], equals x inside it, and is the nearest bound outside |
| AnalyzeRoute.ClampElo | src/app/api/analyze/route.ts:21 | the rating lies in [1350,2850], is the floor of the input when that already lies in range, 1350 below it and 2850 at or above the top |
| AnalyzeRoute.ClampEloIdempotent | src/app/api/analyze/route.ts:21 | clamping a clamped rating changes nothing |
| AnalyzeRoute.ClampEloMonotone | src/app/api/analyze/route.ts:21 | a higher requested rating never gives a lower clamped one |
| AnalyzeRoute.RouteParams | src/app/api/analyze/route.ts:19-28 | "Missing fen" iff there is no body or the fen is missing or empty; "startpos" becomes the standard start position; depth defaults to 12; Elo is present iff given and then equals ClampElo of the given value; limitStrength as given, else iff there is an Elo |
| AnalyzeRoute.Respond | src/app/api/analyze/route.ts:32-38 | a resolved analysis is returned as is; a rejected one becomes 503 "Engine unavailable" |
| AnalyzeRoute.Route | src/app/api/analyze/route.ts:12-39 | 400 iff the parameters are invalid; otherwise the pool's outcome for exactly those parameters |
| AnalyzeRoute.StartposAlias | src/app/api/analyze/route.ts:26-28 | "startpos" and the standard start position ask the pool the same thing |
| PuzzleMiner.MaterialScoreFromFen | scripts/puzzle_miner.ts:34-44 | the score is always a multiple of 100 |
| PuzzleMiner.MaterialReadsBoardOnly | scripts/puzzle_miner.ts:36 | only the text before the first space counts |
| PuzzleMiner.SwapCaseNegates | scripts/puzzle_miner.ts:37-43 | swapping the case of every board letter negates the score |
| PuzzleMiner.StartPositionLevel | scripts/puzzle_miner.ts:37-43 | the standard initial board scores 0 |
| PuzzleMiner.OnlyMoveDecision | scripts/puzzle_miner.ts:18-26 | fewer than two candidate lines means forced, with the primary line; otherwise forced iff abs(sc0 - sc1) > 30, missing sc0 as 0 and sc1 as -99999, with the first line's pv |
| PuzzleMiner.EqualTopLinesNotForced | scripts/puzzle_miner.ts:22-24 | two top lines with the same score never make a forced move |
| PuzzleMiner.WithWinMaterial | scripts/puzzle_miner.ts:110 | the motif list starts with the kind and contains "win-material" iff the gain is >= 200 |
| PuzzleMiner.Decide | scripts/puzzle_miner.ts:95-143 | a ply yields a puzzle iff it is a mate, a forced move with a best move, or a swing <= -300, tested in that order; a mate has motifs ["mate"] and the mate line; a forced move has the forced line and motifs "only-move" followed by "win-material" iff that line's two-ply gain is >= 200; a refutation has the pre-move best line (or none) and "blunder-refutation" followed by "win-material" iff that line's gain is >= 200; mates and forced moves take the board's side to move, refutations the `" w "` test |
| PuzzleMiner.FirstDecision | scripts/puzzle_miner.ts:89-144 | the deciding ply is the first legal ply that yields a puzzle, with every earlier ply legal and yielding none; none if an illegal move or the end comes first |
| PuzzleMiner.MineGame | scripts/puzzle_miner.ts:89-144 | a game yields at most one puzzle, the deciding ply's |
| PuzzleMiner.NoLinesFirstPlyDecides | scripts/puzzle_miner.ts:18-21 | with no candidate lines (the pool's answers) the first legal ply with a best move decides the game, as a mate or only-move puzzle |
| PuzzleMiner.MineFrom | scripts/puzzle_miner.ts:78-147 | the saved puzzles are those of the consumed games in order; the count grows by the games that parse; the stream is cut short only by a numeric limit the count has reached, never passes a limit above the starting count, and a NaN limit consumes every game |
| PuzzleMiner.MineAll | scripts/puzzle_miner.ts:73-147 | the same from a zero count with the limit `parseInt` of the argument (default "50"): at most 50 games counted by default, at most the limit when it is positive, and every game consumed when it is NaN |
| PuzzleMiner.DefaultLimit | scripts/puzzle_miner.ts:76 | without an argument the limit is the number 50 |
| PuzzleMiner.AtMostOnePerGame | scripts/puzzle_miner.ts:95-143 | never more puzzles than parsed games |
| PuzzleImport.ParseCsvFields | scripts/puzzle_import_csv.ts:20-44 | null iff fewer than 10 comma fields; otherwise the row is exactly: id and fen fields 0 and 1, moves the whitespace tokens of field 2, the four numbers `parseInt` of fields 3-6 (an empty field read as 0), opening tags the last field, game URL the second-to-last, themes the trimmed non-empty pieces of the fields in between rejoined by commas |
| PuzzleImport.ParseJoinedFields | scripts/puzzle_import_csv.ts:20-44 | ten comma-free fields joined by commas parse back into a row holding each field in its column (themes from field 7 alone) |
| PuzzleImport.SplitTailOf | scripts/puzzle_import_csv.ts:32-40 | splitting at the last two commas gives back the three parts when the last two contain no comma |
| PuzzleImport.SplitTailOfJoin | scripts/puzzle_import_csv.ts:32-40 | the tail from field 7 always has two commas and splits from the right into themes, URL and tags |
| Decimal.ParseIntRoundTrip | scripts/puzzle_import_csv.ts:27-30 | `parseInt(s, 10)` reads back any integer printed in decimal, whatever non-digit text follows |
| Decimal.NumberRoundTrip | src/lib/enginePool.ts:24-30 | `Number` of an integer's decimal text is that integer |
| PuzzleImport.TrimmedNonEmpty | scripts/puzzle_import_csv.ts:42 | dropping empty pieces never adds entries |
| PuzzleImport.TrimmedPieces | scripts/puzzle_import_csv.ts:42 | every theme kept is non-empty with no white space at either end |
| PuzzleImport.MovesAreTokens | scripts/puzzle_import_csv.ts:41 | every move is non-empty and contains no white space |
| PuzzleImport.SideToMove | scripts/puzzle_import_csv.ts:72 | the side is white or black, and black iff the FEN has no `" w "` but has `" b "` |
| PuzzleImport.KeyMoves | scripts/puzzle_import_csv.ts:74 | the first min(3, n) moves |
| PuzzleImport.Candidate | scripts/puzzle_import_csv.ts:67-70 | a row survives only if it parses, its rating is in range and (with a filter) some theme contains the filter |
| PuzzleImport.ImportLineAsWritten | scripts/puzzle_import_csv.ts:63-89 | the header and blank lines are ignored; a line whose row survives the filters is imported iff the as-written lookup finds no match, and an imported row is appended with side, full line and themes; anything else leaves the store unchanged |
| PuzzleImport.ImportLine | scripts/puzzle_import_csv.ts:63-89 | the same with the duplicate check on position plus first three moves: a surviving row is imported iff the store holds no such duplicate |
| PuzzleImport.Filter | scripts/puzzle_import_csv.ts:67-70 | a row survives exactly when it parsed, its rating is not out of range and the motif filter does not reject it |
| PuzzleImport.ImportRowAsWritten | scripts/puzzle_import_csv.ts:65-85 | a header or blank line is ignored; a row that survives the filters is imported iff it has no stored duplicate (as written), and then it is appended; nothing else changes the store; afterwards the surviving row has an as-written match or its own entry in the store |
| PuzzleImport.ImportRow | scripts/puzzle_import_csv.ts:65-85 | the same with the intended duplicate check; afterwards the surviving row has a match in the store |
| PuzzleImport.RowReimportDuplicatesAsWritten | scripts/puzzle_import_csv.ts:74-80 | as written, a classified row with more than three moves imported twice is stored twice |
| PuzzleImport.RowReimportShortSkippedAsWritten | scripts/puzzle_import_csv.ts:74-76 | as written, a classified row with at most three moves is skipped the second time |
| PuzzleImport.RowReimportSkipped | scripts/puzzle_import_csv.ts:74-76 | with the intended check a classified row imported again is skipped and the store is unchanged |
| PuzzleImport.ImportRowNoDuplicates | scripts/puzzle_import_csv.ts:74-84 | with the intended check a duplicate-free store stays duplicate-free after one row |
| PuzzleImport.ImportedPasses | scripts/puzzle_import_csv.ts:67-85 | an imported row's new entry passes both filters |
| PuzzleImport.ImportRows | scripts/puzzle_import_csv.ts:63-97 | the loop with the intended duplicate check only appends to the store, one entry per counted import; unless an import reached the limit and stopped the run, every surviving row ends with a match in the store |
| PuzzleImport.FreshRowImported | scripts/puzzle_import_csv.ts:65-89 | with the intended check, a run over one surviving row the store does not yet hold imports it and appends its new entry, whatever the limit |
| PuzzleImport.RowsSnoc | scripts/puzzle_import_csv.ts:63-89 | a run over one more row is the run so far followed by one step on that row, unless the limit stopped it: each row is imported exactly when the run is still going, the row survives, and the store built from the earlier rows has no match |
| PuzzleImport.ImportRowsAsWritten | scripts/puzzle_import_csv.ts:63-97 | the loop as written, with the as-written duplicate check, only appends to the store, one entry per counted import; unless the limit stopped it, every surviving row ends with an as-written match or its own entry in the store |
| PuzzleImport.RowsSnocAsWritten | scripts/puzzle_import_csv.ts:63-89 | the as-written run over one more row is the run so far followed by one as-written step, unless the limit stopped it |
| PuzzleImport.RowsDuplicateAsWritten | scripts/puzzle_import_csv.ts:74-84 | as written, a run over a file listing a row of more than three moves twice imports it twice and leaves a duplicate in the store |
| PuzzleImport.RowsWithinLimit | scripts/puzzle_import_csv.ts:89 | a run of the loop with the intended check started below a numeric limit (or at zero) imports at most max(limit, 1) rows in total |
| PuzzleImport.RowsPassFilters | scripts/puzzle_import_csv.ts:67-70 | every entry a run of the loop with the intended check appends passes the rating and motif filters |
| PuzzleImport.RowsNoDuplicates | scripts/puzzle_import_csv.ts:74-84 | with the intended duplicate check, a run over any rows keeps a duplicate-free store duplicate-free (false as written, see RowsDuplicateAsWritten) |
| PuzzleImport.ReimportDuplicatesAsWritten | scripts/puzzle_import_csv.ts:74-80 | as written, a row with more than three moves imported twice is stored twice |
| PuzzleImport.ReimportShortRowSkippedAsWritten | scripts/puzzle_import_csv.ts:74-76 | as written, a row with at most three moves is skipped the second time |
| PuzzleImport.ReimportSkipped | scripts/puzzle_import_csv.ts:74-76 | with the intended check, importing the same line again skips it and leaves the store unchanged |
| PuzzleImport.ImportLineNoDuplicates | scripts/puzzle_import_csv.ts:74-84 | with the intended check, a duplicate-free store stays duplicate-free |
| PuzzleImport.ImportAll | scripts/puzzle_import_csv.ts:63-97 | `main` with the intended duplicate check: the store only grows, by one entry per import; a run started below a finite limit never imports past it, and a limit below 1 still lets one import through; every new entry passes both filters; a duplicate-free store stays duplicate-free; unless an import reached the limit and stopped the run, every line whose row survives the filters ends with a match in the store |
| PuzzleImport.ImportAllSnoc | scripts/puzzle_import_csv.ts:63-89 | a run over one more line is the run so far followed by one step on that line, unless the limit stopped it |
| PgnStream.HeaderParts | src/lib/lichessStream.ts:17 | a match has a word key and a run of white space |
| PgnStream.HeaderPartsSound | src/lib/lichessStream.ts:17 | a matched line is exactly `[` key, white space, quoted value, `]` reassembled from the parts |
| PgnStream.HeaderPartsOf | src/lib/lichessStream.ts:17 | a line written as a word key, white space and a quoted value matches with exactly those parts |
| PgnStream.ParseHeaderLine | src/lib/lichessStream.ts:15-20 | a pair is returned iff the line has the header shape |
| PgnStream.ParseHeaderRoundTrip | src/lib/lichessStream.ts:15-20 | a header line written from a word key and any value parses back to that key and value |
| PgnStream.HeaderOr | src/lib/lichessStream.ts:24-30 | `h[k] \|\| d`: the header when present and non-empty, else the default |
| PgnStream.Rating | src/lib/lichessStream.ts:33-35 | a missing, empty or "?" rating is NaN |
| PgnStream.HeadersPassFilter | src/lib/lichessStream.ts:22-44 | no filter passes everything; otherwise variant (missing as "Standard"), rated (case-insensitive "rated" in Event), time control and both-ratings Elo bounds |
| PgnStream.OneRatingNeverRejected | src/lib/lichessStream.ts:33-42 | with at most one rating the Elo bounds never reject |
| PgnStream.Flush | src/lib/lichessStream.ts:56-63 | nothing for an empty buffer; otherwise the state resets and the yielded text is the trimmed, non-empty join of the buffer |
| PgnStream.StepAsWritten | src/lib/lichessStream.ts:65-97 | every yielded text is trimmed and non-empty; a rejected header block clears the buffer and keeps the game open |
| PgnStream.Step | src/lib/lichessStream.ts:65-97 | the corrected step: the same as written except that a rejected game is skipped to its end and yields nothing |
| PgnStream.RunAsWritten | src/lib/lichessStream.ts:65-100 | every yielded game text is trimmed and non-empty |
| PgnStream.Run | src/lib/lichessStream.ts:65-100 | every yielded game text is trimmed and non-empty |
| PgnStream.StepValid | src/lib/lichessStream.ts:65-97 | both steps keep the splitter's invariant (header mode only inside a game, empty buffer outside one) |
| PgnStream.LineBeforeHeaderIgnored | src/lib/lichessStream.ts:90-97 | a line outside a game that is not a header is never buffered |
| PgnStream.NoHeaderNoGames | src/lib/lichessStream.ts:65-100 | without a header line nothing is yielded |
| PgnStream.HeaderBlankDoesNotFlush | src/lib/lichessStream.ts:76-88 | the blank line that ends accepted headers is buffered without flushing |
| PgnStream.OpenGame | src/lib/lichessStream.ts:68-74 | a header line outside a game opens one in header mode with that header recorded and the line buffered, yielding nothing |
| PgnStream.MovetextBuffered | src/lib/lichessStream.ts:90-91 | a non-blank movetext line inside a game is appended to the buffer and yields nothing |
| PgnStream.MovetextBlankFlushes | src/lib/lichessStream.ts:90-96 | a blank line after movetext flushes the game |
| PgnStream.KeptGameYielded | src/lib/lichessStream.ts:65-100 | an accepted game of header, blank, movetext, blank is yielded as its trimmed text |
| PgnStream.RejectedMovetextYieldedAsWritten | src/lib/lichessStream.ts:80-96 | as written, a rejected game's movetext is yielded as a game of its own |
| PgnStream.RejectedGameExampleAsWritten | src/lib/lichessStream.ts:80-96 | as written, a Casual game under a Chess960 filter yields "1. e4 *" |
| PgnStream.RejectedGameSkipped | src/lib/lichessStream.ts:80-96 | corrected, a rejected game yields nothing |
| PgnStream.RejectedGameExample | src/lib/lichessStream.ts:80-96 | corrected, the same example yields nothing |
| Motifs.Classify | scripts/motifs_group.ts:33-46 | the empty token is uncategorized; hard only for "zugzwang" or a mateIn token; phase never for a listed theme |
| Motifs.HardSetSplit | scripts/motifs_group.ts:26-37 | a hard-set member is hard iff it is "zugzwang", otherwise meta |
| Motifs.ListedRules | scripts/motifs_group.ts:34-37 | a listed theme gets the group of the first set listing it: easy, medium, or (hard set) hard for "zugzwang" and meta otherwise |
| Motifs.LongIsMeta | scripts/motifs_group.ts:44 | "long", listed in no set, is meta |
| Motifs.UncategorizedFallback | scripts/motifs_group.ts:33-46 | a token is uncategorized iff it is empty or no rule applies: unlisted, not mateIn, not a phase name or piece endgame, not a meta name |
| Motifs.MateInListedAgree | scripts/motifs_group.ts:35-40 | the listed mateIn1/2/3 get the same group as the numeric rule would give |
| Motifs.ListedMateTokens | scripts/motifs_group.ts:7-31 | the only listed themes of the mateIn form are mateIn1 to mateIn3 |
| Motifs.MateInRule | scripts/motifs_group.ts:38-41 | every mateIn<n> token is easy for n <= 1, medium for n <= 3, hard otherwise |
| Motifs.MateInUnlisted | scripts/motifs_group.ts:7-31 | mateIn<n> for n other than 1-3 is in none of the three sets |
| Motifs.PhaseNames | scripts/motifs_group.ts:42-43 | opening, middlegame, endgame and queenRookEndgame are phases |
| Motifs.PieceEndgamePhase | scripts/motifs_group.ts:43 | a piece endgame in any letter case is a phase |
| Motifs.InsertSorted | scripts/motifs_group.ts:50-52 | insertion keeps a strictly sorted list and adds exactly the token |
| Motifs.UniqueTokens | scripts/motifs_group.ts:48-53 | strictly sorted (so no duplicates), no empty strings, exactly the set of tokens between separators |
| Motifs.GroupTokens | scripts/motifs_group.ts:62-68 | every group exists, and a token is in a group iff it is an input token of that class |
| Motifs.ExactlyOneGroup | scripts/motifs_group.ts:62-68 | each input token is in its own class's group and in no other |
| GameModes.ShouldEngineMove | src/lib/gameRules.ts:3-5 | never for a human opponent, always in engine-vs-engine, and for an engine opponent iff it is not the player's turn |
| GameModes.ClampMultiPv | src/lib/gameRules.ts:11 | the count lies in 1..10, is unchanged when it already does, 10 above and 1 below |
| GameModes.GetEngineParams | src/lib/gameRules.ts:7-13 | lines in 1..10; strength limited iff an Elo is set; depth 12, no Elo, one line without a configuration; with one, the configured Elo, the configured depth or 12, and the clamped line count or 1 |
| GameModes.IsMoveAllowed | src/lib/gameRules.ts:15-24 | every move is allowed, including deviations from the opening line |
| GameModes.PresetIds | src/types/gameModes.ts:43-86 | each preset carries its own key as its id |
| GameModes.HumanPresets | src/types/gameModes.ts:44-77 | hotseat, puzzle and opening trainer have a human opponent and no engine configuration, so the engine never moves |
| GameModes.PresetMultiPvUnclamped | src/types/gameModes.ts:50-85 | every preset's line count is already in 1..10 |
| GameModes.PresetEngineParams | src/types/gameModes.ts:50-85 | the engine preset plays at depth 12 with 2 lines at full strength; blitz plays at depth 10 limited to Elo 1800 with 5 minutes a side |
| Policies.OpponentShouldMove | src/lib/policies/opponent.ts:3-10 | always in engine-vs-engine, never for a human |
| Policies.OpponentAgreesWithRules | src/lib/policies/opponent.ts:3-10 | the opponent policy and the rules' shouldEngineMove agree for every mode, turn and colour |
| Policies.MakeTimePolicy | src/lib/policies/time.ts:3-11 | a clock iff configured; zeros without one; the times as given and increment default 0 with one |
| Policies.TimePolicyIdempotent | src/lib/policies/time.ts:3-11 | building from its own output changes nothing |
| Policies.MakeEnginePolicy | src/lib/policies/engine.ts:7-13 | lines in 1..10; depth 12, no Elo, one line without a configuration; with one, the configured depth (default 12), the Elo, and the clamped line count or 1 when none is given |
| Policies.EnginePolicyIdempotent | src/lib/policies/engine.ts:7-13 | building from its own output changes nothing |
| Policies.EnginePolicyAgreesWithRules | src/lib/policies/engine.ts:7-13 | the engine policy and getEngineParams agree on depth, Elo and line count |
| Policies.MakeAssistancePolicy | src/lib/policies/assistance.ts:7-13 | each flag is set iff it was given as true; all false without a configuration |
| Policies.AssistancePolicyIdempotent | src/lib/policies/assistance.ts:7-13 | building from its own output changes nothing |
| Policies.MakeConstraintsPolicy | src/lib/policies/constraints.ts:7-13 | the configuration as given, all absent without one |
| Policies.ConstraintsPolicyIdempotent | src/lib/policies/constraints.ts:7-13 | building from its own output changes nothing |
| Policies.ComposePolicies | src/lib/policies/index.ts:15-22 | each policy is its constructor applied to its own section; the opponent policy answers as its kind; the line count lies in 1..10 |
| Opening.FindFen | src/lib/opening.ts:23 | none iff no entry has the position; otherwise the first entry that has it |
| Opening.Divisor | src/lib/opening.ts:26 | never zero; the total when that is nonzero |
| Opening.GetBookMoves | src/lib/opening.ts:21-29 | null iff the book lacks the position; otherwise the first matching entry's code, name and moves in order, each weight its rounded percentage of the total |
| Opening.PercentInRange | src/lib/opening.ts:26-27 | with nonnegative weights every percentage lies in 0..100 |
| Opening.WeightWithinTotal | src/lib/opening.ts:26 | with nonnegative weights no weight exceeds the total |
| ReportPage.CpToY | src/app/report/latest/page.tsx:18-21 | y lies in [5,95]; 50 at 0; 5 at +800 or more, 95 at -800 or less; above the middle iff white is better |
| ReportPage.Clamp | src/app/report/latest/page.tsx:19 | the clamped score lies in [-800,800] and is unchanged when it already does |
| ReportPage.CpToWhitePercent | src/app/report/latest/page.tsx:23-27 | the share lies in [0,100]; 50 for null; 50 iff the evaluation is 0; 100 at +800 or more, 0 at -800 or less |
| ReportPage.WhitePercentMonotone | src/app/report/latest/page.tsx:23-27 | a better evaluation for white never shrinks the white share |
| ReportPage.CpToYMonotone | src/app/report/latest/page.tsx:18-21 | a better evaluation for white never moves the point down |
| ReportPage.GraphMatchesBar | src/app/report/latest/page.tsx:18-27 | the graph point is 95 - 0.9 times the bar's white share |
| ReportPage.Candidates | src/app/report/latest/page.tsx:54-59 | the candidates in increasing ply order: each has a tag or a swing of 150 or more, and every such ply is included |
| ReportPage.BeforeTransitive | src/app/report/latest/page.tsx:60-61 | the comparator order (rank, then swing size, then ply) is transitive |
| ReportPage.BeforeTotal | src/app/report/latest/page.tsx:60-61 | any two moments at different plies are ordered one way or the other |
| ReportPage.Insert | src/app/report/latest/page.tsx:61 | inserting into a sorted list keeps it sorted and adds exactly the new moment |
| ReportPage.Sort | src/app/report/latest/page.tsx:61 | the sorted list is a permutation ordered by rank, then swing size, then ply (stability) |
| ReportPage.Take | src/app/report/latest/page.tsx:61 | `slice(0, n)`: the first min(n, length) entries, unchanged |
| ReportPage.SortCandidates | src/app/report/latest/page.tsx:61 | the candidates have distinct plies, and sorting them keeps exactly the same entries |
| ReportPage.TakeKeepsBest | src/app/report/latest/page.tsx:61 | an entry dropped from the front of a sorted list comes after every kept entry |
| ReportPage.KeyMoments | src/app/report/latest/page.tsx:53-62 | at most 10 candidates, ordered by the comparator with ties in ply order; min(candidates, 10) of them; every omitted candidate comes after every listed one |
| ReportPage.MomentLabel | src/app/report/latest/page.tsx:110 | the ply's tag when it has one; otherwise "Big swing" iff the swing is at least 150 cp, else empty; so a candidate's label is never empty |
| ReportPage.StepBack | src/app/report/latest/page.tsx:96 | one back from any positive ply, and 0 at or before the first ply (the clamp's edge) |
| ReportPage.StepForward | src/app/report/latest/page.tsx:98 | one forward when there is room, and the last ply n-1 otherwise (the clamp's edge) |
| ReportPage.GraphClickPly | src/app/report/latest/page.tsx:64-69 | a click selects a ply within the moves, the rounded position for a click inside the graph |
| ReportPage.NavigationStaysInRange | src/app/report/latest/page.tsx:95-99 | from any ply inside the list both steps stay inside it |
| PuzzlePage.Load | src/app/puzzle/page.tsx:36-40 | the loaded puzzle, its position, index 0, not solved, no message |
| PuzzlePage.Play | src/app/puzzle/page.tsx:66-77 | a move applies iff the chess rules give a non-empty position, and then gives that position |
| PuzzlePage.FromTo | src/app/puzzle/page.tsx:86 | the first four characters (a prefix of the move) |
| PuzzlePage.DropOutcome | src/app/puzzle/page.tsx:80-112 | a drop is accepted iff there is a puzzle and a position, it is unsolved, the expected move exists, matches on its squares and applies; an accepted drop advances by one or two moves and clears the message; a refused one changes at most the message |
| PuzzlePage.WrongMoveRefused | src/app/puzzle/page.tsx:85-90 | a wrong move is refused with "Incorrect. Try again." and nothing else changes |
| PuzzlePage.PromotionSuffixIgnored | src/app/puzzle/page.tsx:86 | a promotion move is accepted from its two squares alone |
| PuzzlePage.DropConsistent | src/app/puzzle/page.tsx:94-107 | a drop keeps the index within the line and marks the puzzle solved exactly at its end |
| PuzzlePage.Reset | src/app/puzzle/page.tsx:114-120 | nothing without a puzzle; otherwise the puzzle's position, index 0, not solved, no message |
| PuzzlePage.ResetIsLoad | src/app/puzzle/page.tsx:114-120 | reset gives the state the load gave |
| PuzzlePage.PlayUntilFailure | src/app/puzzle/page.tsx:124-129 | the loop ends at the position the first k moves replay to, where k is the whole line or the index of the first move that cannot be played there; when the whole line applies, that is the replayed position |
| PuzzlePage.PlayAll | src/app/puzzle/page.tsx:122-133 | nothing without a puzzle; otherwise the position after the longest playable prefix of the line (as PlayUntilFailure states), index at the end, solved |
| PuzzlePage.DropStaysOnLine | src/app/puzzle/page.tsx:92-106 | from a board at the line replayed up to the index, a correct drop keeps the board at the line replayed up to the new index (the reply included when it applies) |
| PuzzlePage.SolvedBoardMatchesPlayAll | src/app/puzzle/page.tsx:122-133 | solving move by move leaves the board where playAll does |
| Clock.TotalSeconds | src/components/Clock.tsx:5-6 | 0 for a time at or below 0; otherwise the whole seconds, s*1000 <= ms < (s+1)*1000 |
| Clock.TwoDigits | src/components/Clock.tsx:9 | exactly two digits that read back as the number |
| Clock.FormatMs | src/components/Clock.tsx:4-10 | unpadded minutes (no leading zero unless the minutes are 0), a colon, and two digits of seconds below 60 |
| Clock.FormatRoundTrip | src/components/Clock.tsx:4-10 | minutes * 60 + seconds read back from the text is the whole seconds remaining |
| Clock.NoTimeLeft | src/components/Clock.tsx:5 | a time at or below 0 shows as "0:00" |

## Left out

- Process, network, database and file I/O are replaced by parameters or lists. This covers spawning and writing to the engine, `fetch`, Prisma, readline and zstd, the markdown written by the motif script, and logging.
- The chess rules are parameters: SAN parsing, legal-move generation, FEN writing, `applyMoveUci`, and the details route's brute-force fallback search for the played move.
- PuzzlePage.Drop: the board's drag gate `allowDragging: !solved && sideToMove === orientation` (src/app/puzzle/page.tsx:143) is not modelled. The model's drop handler is called for any drop. After an opponent reply that fails to apply, it would accept a drop of the opponent's expected move, which the page never lets the user make.
- EnginePool: chunk boundaries and `\r\n` splitting are not modelled; each event carries one non-empty line.
- EnginePool: a failed write to the engine's stdin (the `catch` at enginePool.ts:124-127) is not modelled.
- EnginePool: `reset` detaches the process but leaves the in-flight job's promise pending, as the source does. The model shows this but states no liveness property.
- EnginePool: the random part of the request id is left out; the job id stands in for it.
- InfoLine.ScoreOf: a score kind other than cp or mate yields no score. The source would carry the odd kind through.
- InfoLine.ScoreOf: a score value that is not a number (NaN) is dropped here. The source keeps the NaN score, which the details route would grade as a NaN loss with tag Blunder.
- Decimal: `Number` and `parseInt` are modelled for optionally signed decimal integers. Fractions, exponents and hexadecimal text give NaN here.
- ReportDetails: `multiPv` and `searchMoves` are modelled as fields that the pool ignores; their effect on a real engine is not modelled. EnginePool keeps the key and commands as written; the corrected behaviour is stated only through ReportDetails.SameFullKey and the lemmas that assume it.
- ReportDetails.GetDetails / ReportDetails.GradeAll: a rejected pool call (route.ts:51 and :110, outside any try) ends the route with an unhandled error (500). Here `analyze` always answers, so that path is not modelled.
- ReportPage.KeyMoments: requires an evaluation for every move. With fewer, the source compares NaN.
- ReportPage: the sort is modelled as the stable order it produces (ties by ply); the tag and delta of a moment are integers.
- ReportPage: the rendering (Δ formatting, colours) is not modelled.
- Clock: NaN and infinite times are not modelled; milliseconds are a real number.
- Opening: weights are finite reals. A missing weight (`|| 0` in the total) and NaN are not modelled. Loading the book file is not modelled; the book is a parameter.
- Motifs: `localeCompare` is replaced by code-unit order; the model still produces a strictly sorted list.
- Motifs.Classify: the function's own ensures covers the empty token, hard and phase. The listed, mateIn, phase, meta and fallback rules are stated by ListedRules, HardSetSplit, MateInRule, MateInListedAgree, PhaseNames, PieceEndgamePhase, LongIsMeta and UncategorizedFallback.
- PgnStream: the time-control filter is abstract, a predicate in place of the regular expression.
- PuzzleMiner: `gainOf`, the two-ply material gain, is abstract because it plays moves on a board. Games that fail to parse or set up, and exceptions inside a game, are the `None` games.
- PuzzleMiner: the final `{ seen, saved }` line is not modelled.
- PuzzleImport: the `catch` around the database calls is not modelled, nor the progress output (read and skipped counters).
- GameModes: the `label` field is named `name`, because `label` is a Dafny keyword.
- AnalyzeRoute: a body whose `fen` is not a string is modelled as a missing fen, and a non-numeric `elo` as a missing one.
- AnalyzeRoute.RouteParams: depth is an integer here. The source passes any JSON number through (a fraction or NaN depth, a NaN elo), which is not modelled.

## Findings

| source | as written | input that shows it | evidently intended | confidence | as-written member | corrected member |
|---|---|---|---|---|---|---|
| src/lib/lichessStream.ts:80-96 | when the filter rejects a game, the buffer is cleared and the game stays open, so its movetext is buffered and flushed at the next blank line | lines `[Event "Casual"]`, ``, `1. e4 *`, `` with a Chess960 variant filter yield `1. e4 *` | the rejected game is skipped to its end and nothing of it is yielded | not executed | PgnStream.RejectedMovetextYieldedAsWritten, PgnStream.RejectedGameExampleAsWritten | PgnStream.RejectedGameSkipped, PgnStream.RejectedGameExample, PgnStream.Step |
| scripts/puzzle_import_csv.ts:74-80 | the duplicate lookup compares the stored whole solution with the new row's first three moves | importing the same row with four or more moves twice stores it twice | a stored puzzle with the same position and the same first three moves is a duplicate | not executed | PuzzleImport.ReimportDuplicatesAsWritten, PuzzleImport.ImportLineAsWritten, PuzzleImport.ImportRowsAsWritten, PuzzleImport.RowsDuplicateAsWritten | PuzzleImport.ReimportSkipped, PuzzleImport.ImportLine, PuzzleImport.ImportAll, PuzzleImport.ImportAllSnoc |
| src/lib/enginePool.ts:85 | the dedupe key is position, depth and Elo, and the commands (lines 120-123) send no searchmoves, so the details route's played-move request (details/route.ts:110) gets the best search's answer | any report whose moves resolve, a 700 cp blunder included, is graded loss 0 and Best on every ply | the played move's restricted search is graded against the best line | not executed | ReportDetails.EveryPlyBestUnderPoolKey, ReportDetails.PlyBestUnderPoolKey | ReportDetails.PlyRequestsDistinct, ReportDetails.PlayedBlunderReported, ReportDetails.PlayedAnswersGraded |

=== FILE: aggregate.dfy ===
/** The aggregate folds of the latest-report details route: per-side average
    centipawn loss and accuracy, tag histograms, and the same statistics per
    game phase. */
module Aggregate {
  import opened Grading

  /** The plies of the side that moves first (odd plies) or second. */
  function SidePlies(gs: seq<PlyGrade>, white: bool): (r: seq<PlyGrade>)
    ensures |r| <= |gs|
    ensures forall k :: 0 <= k < |r| ==> r[k] in gs && (r[k].ply % 2 == 1 <==> white)
  {
    if |gs| == 0 then []
    else
      var rest := SidePlies(gs[1..], white);
      if (gs[0].ply % 2 == 1) == white then [gs[0]] + rest else rest
  }

  /** The side filter keeps every ply of its side as often as it occurs,
      and no other ply. */
  lemma {:induction false} SidePliesCount(gs: seq<PlyGrade>, white: bool, g: PlyGrade)
    ensures multiset(SidePlies(gs, white))[g] == if (g.ply % 2 == 1) == white then multiset(gs)[g] else 0
  {
    if |gs| > 0 {
      assert gs == [gs[0]] + gs[1..];
      SidePliesCount(gs[1..], white, g);
    }
  }

  /** The side filter distributes over concatenation, so it keeps the plies
      of its side in their original order. */
  lemma {:induction false} SidePliesAppend(a: seq<PlyGrade>, b: seq<PlyGrade>, white: bool)
    ensures SidePlies(a + b, white) == SidePlies(a, white) + SidePlies(b, white)
  {
    if |a| == 0 {
      assert a + b == b;
    } else {
      assert (a + b)[1..] == a[1..] + b;
      SidePliesAppend(a[1..], b, white);
    }
  }

  function Cpls(gs: seq<PlyGrade>): (r: seq<int>)
    ensures |r| == |gs|
    ensures forall k :: 0 <= k < |gs| ==> r[k] == gs[k].cpl
  {
    if |gs| == 0 then [] else [gs[0].cpl] + Cpls(gs[1..])
  }

  /** The plies of one phase bucket, in order. */
  function InPhase(gs: seq<PlyGrade>, ph: Phase): (r: seq<PlyGrade>)
    ensures |r| <= |gs|
    ensures forall k :: 0 <= k < |r| ==> r[k] in gs && r[k].phase == ph
  {
    if |gs| == 0 then []
    else
      var rest := InPhase(gs[1..], ph);
      if gs[0].phase == ph then [gs[0]] + rest else rest
  }

  /** The phase filter keeps every ply of its phase as often as it occurs,
      and no other ply. */
  lemma {:induction false} InPhaseCount(gs: seq<PlyGrade>, ph: Phase, g: PlyGrade)
    ensures multiset(InPhase(gs, ph))[g] == if g.phase == ph then multiset(gs)[g] else 0
  {
    if |gs| > 0 {
      assert gs == [gs[0]] + gs[1..];
      InPhaseCount(gs[1..], ph, g);
    }
  }

  /** The phase filter distributes over concatenation, so it keeps the plies
      of its phase in their original order. */
  lemma {:induction false} InPhaseAppend(a: seq<PlyGrade>, b: seq<PlyGrade>, ph: Phase)
    ensures InPhase(a + b, ph) == InPhase(a, ph) + InPhase(b, ph)
  {
    if |a| == 0 {
      assert a + b == b;
    } else {
      assert (a + b)[1..] == a[1..] + b;
      InPhaseAppend(a[1..], b, ph);
    }
  }

  function Sum(xs: seq<int>): int {
    if |xs| == 0 then 0 else xs[0] + Sum(xs[1..])
  }

  function SumAbs(xs: seq<int>): (r: nat)
    ensures r == 0 <==> forall k :: 0 <= k < |xs| ==> xs[k] == 0
  {
    if |xs| == 0 then 0 else Abs(xs[0]) + SumAbs(xs[1..])
  }

  /** `avg`: the arithmetic mean, 0 for an empty list. */
  function Avg(xs: seq<int>): (r: real)
    ensures |xs| == 0 ==> r == 0.0
    ensures |xs| > 0 ==> r * |xs| as real == Sum(xs) as real
  {
    if |xs| == 0 then 0.0 else Sum(xs) as real / |xs| as real
  }

  function ClampPercent(x: real): (r: real)
    ensures 0.0 <= r <= 100.0
    ensures 0.0 <= x <= 100.0 ==> r == x
  {
    if x < 0.0 then 0.0 else if x > 100.0 then 100.0 else x
  }

  /** Accuracy from an average loss in pawns: 100 minus the loss scaled by a
      divisor of 8 pawns, clamped to [0, 100]. */
  function AccuracyFromAvgPawns(avgPawns: real): real {
    ClampPercent(100.0 - (avgPawns / 8.0) * 100.0)
  }

  /** `accuracyFromCpl`: the mean of |cpl| / 100 fed to the accuracy scale;
      perfect exactly when every loss is zero. */
  function Accuracy(xs: seq<int>): (r: real)
    ensures 0.0 <= r <= 100.0
    ensures r == 100.0 <==> SumAbs(xs) == 0
  {
    var avgPawns := if |xs| == 0 then 0.0 else (SumAbs(xs) as real / 100.0) / |xs| as real;
    AccuracyFromAvgPawns(avgPawns)
  }

  function CountTag(gs: seq<PlyGrade>, t: Tag): (n: nat)
    ensures n <= |gs|
  {
    if |gs| == 0 then 0 else (if gs[0].tag == t then 1 else 0) + CountTag(gs[1..], t)
  }

  lemma {:induction false} CountTagPositive(gs: seq<PlyGrade>, t: Tag)
    ensures CountTag(gs, t) > 0 <==> exists k :: 0 <= k < |gs| && gs[k].tag == t
  {
    if |gs| > 0 {
      CountTagPositive(gs[1..], t);
      if gs[0].tag != t && CountTag(gs, t) == 0 {
        forall k | 0 <= k < |gs| ensures gs[k].tag != t {
          if k > 0 { assert gs[k] == gs[1..][k - 1]; }
        }
      }
      if CountTag(gs[1..], t) > 0 {
        var k :| 0 <= k < |gs[1..]| && gs[1..][k].tag == t;
        assert gs[k + 1].tag == t;
      }
    }
  }

  /** The tag histogram: a key for every tag that occurs, with its count. */
  function TagCounts(gs: seq<PlyGrade>): (m: map<Tag, nat>)
    ensures forall t :: t in m <==> exists k :: 0 <= k < |gs| && gs[k].tag == t
    ensures forall t :: t in m ==> m[t] == CountTag(gs, t)
  {
    var present := set k | 0 <= k < |gs| :: gs[k].tag;
    forall t ensures t in present <==> exists k :: 0 <= k < |gs| && gs[k].tag == t {
    }
    map t | t in present :: CountTag(gs, t)
  }

  datatype Stats = Stats(
    acplWhite: real,
    acplBlack: real,
    accuracyWhite: real,
    accuracyBlack: real,
    tagCounts: map<Tag, nat>)

  /** The losses of one side's plies, in order. */
  function SideCpls(gs: seq<PlyGrade>, white: bool): seq<int> {
    Cpls(SidePlies(gs, white))
  }

  /** The statistics block computed both overall and per phase: each side's
      mean loss over its own plies, its accuracy (perfect exactly when none
      of its plies lost anything) and the tag histogram of all the plies. */
  function StatsOf(gs: seq<PlyGrade>): (s: Stats)
    ensures 0.0 <= s.accuracyWhite <= 100.0 && 0.0 <= s.accuracyBlack <= 100.0
    ensures s.acplWhite >= 0.0 && s.acplBlack >= 0.0
    ensures |SideCpls(gs, true)| == 0 ==> s.acplWhite == 0.0
    ensures |SideCpls(gs, false)| == 0 ==> s.acplBlack == 0.0
    ensures s.accuracyWhite == 100.0 <==> forall k :: 0 <= k < |gs| && gs[k].ply % 2 == 1 ==> gs[k].cpl == 0
    ensures s.accuracyBlack == 100.0 <==> forall k :: 0 <= k < |gs| && gs[k].ply % 2 != 1 ==> gs[k].cpl == 0
    ensures s.tagCounts == TagCounts(gs)
  {
    MeanNonNegative(SideCpls(gs, true));
    MeanNonNegative(SideCpls(gs, false));
    SidePerfect(gs, true);
    SidePerfect(gs, false);
    Stats(Avg(SideCpls(gs, true)), Avg(SideCpls(gs, false)),
          Accuracy(SideCpls(gs, true)), Accuracy(SideCpls(gs, false)), TagCounts(gs))
  }

  /** White's average loss is its total loss divided by its number of plies. */
  lemma WhiteMean(gs: seq<PlyGrade>)
    ensures |SideCpls(gs, true)| > 0 ==> StatsOf(gs).acplWhite == Sum(SideCpls(gs, true)) as real / |SideCpls(gs, true)| as real
  {
  }

  /** The same for black. */
  lemma BlackMean(gs: seq<PlyGrade>)
    ensures |SideCpls(gs, false)| > 0 ==> StatsOf(gs).acplBlack == Sum(SideCpls(gs, false)) as real / |SideCpls(gs, false)| as real
  {
  }

  /** The mean of losses that are never negative is never negative. */
  lemma MeanNonNegative(xs: seq<int>)
    requires forall k :: 0 <= k < |xs| ==> xs[k] >= 0
    ensures Avg(xs) >= 0.0
  {
    NatSumNonNegative(xs);
  }

  /** A side lost nothing over its own plies exactly when every ply of that
      side in the whole list has loss 0. */
  lemma SidePerfect(gs: seq<PlyGrade>, white: bool)
    ensures SumAbs(Cpls(SidePlies(gs, white))) == 0 <==>
      forall k :: 0 <= k < |gs| && (gs[k].ply % 2 == 1) == white ==> gs[k].cpl == 0
  {
    var r := SidePlies(gs, white);
    if SumAbs(Cpls(r)) == 0 {
      forall k | 0 <= k < |gs| && (gs[k].ply % 2 == 1) == white ensures gs[k].cpl == 0 {
        SidePliesCount(gs, white, gs[k]);
        assert gs[k] in multiset(gs);
        assert gs[k] in r;
        var j :| 0 <= j < |r| && r[j] == gs[k];
        assert Cpls(r)[j] == 0;
      }
    }
  }

  /** The count a histogram gives a tag, 0 when the tag has no key. */
  function CountIn(m: map<Tag, nat>, t: Tag): nat {
    if t in m then m[t] else 0
  }

  /** The histogram counts every tag, present or not. */
  lemma TagCountsCount(gs: seq<PlyGrade>, t: Tag)
    ensures CountIn(TagCounts(gs), t) == CountTag(gs, t)
  {
    CountTagPositive(gs, t);
  }

  lemma {:induction false} NatSumNonNegative(xs: seq<int>)
    requires forall k :: 0 <= k < |xs| ==> xs[k] >= 0
    ensures Sum(xs) >= 0
  {
    if |xs| > 0 { NatSumNonNegative(xs[1..]); }
  }

  datatype Aggregates = Aggregates(overall: Stats, opening: Stats, middlegame: Stats, endgame: Stats)

  /** The overall block and one block per phase. The overall accuracies are
      perfect exactly when the side lost nothing, and the three phase
      histograms add up to the overall one, tag by tag. */
  function AggregateAll(gs: seq<PlyGrade>): (a: Aggregates)
    ensures a.overall.accuracyWhite == 100.0 <==> forall k :: 0 <= k < |gs| && gs[k].ply % 2 == 1 ==> gs[k].cpl == 0
    ensures a.overall.accuracyBlack == 100.0 <==> forall k :: 0 <= k < |gs| && gs[k].ply % 2 != 1 ==> gs[k].cpl == 0
    ensures forall t: Tag :: CountIn(a.opening.tagCounts, t) + CountIn(a.middlegame.tagCounts, t) + CountIn(a.endgame.tagCounts, t) == CountIn(a.overall.tagCounts, t)
  {
    PhaseHistogramsAddUp(gs);
    Aggregates(
      StatsOf(gs),
      StatsOf(InPhase(gs, Opening)),
      StatsOf(InPhase(gs, Middlegame)),
      StatsOf(InPhase(gs, Endgame)))
  }

  /** Every ply belongs to exactly one side. */
  lemma {:induction false} SidesPartition(gs: seq<PlyGrade>)
    ensures |SidePlies(gs, true)| + |SidePlies(gs, false)| == |gs|
    ensures Sum(Cpls(SidePlies(gs, true))) + Sum(Cpls(SidePlies(gs, false))) == Sum(Cpls(gs))
  {
    if |gs| > 0 {
      SidesPartition(gs[1..]);
    }
  }

  /** The phase histograms add up to the overall histogram for every tag. */
  lemma PhaseHistogramsAddUp(gs: seq<PlyGrade>)
    ensures forall t: Tag :: CountIn(TagCounts(InPhase(gs, Opening)), t) + CountIn(TagCounts(InPhase(gs, Middlegame)), t) + CountIn(TagCounts(InPhase(gs, Endgame)), t) == CountIn(TagCounts(gs), t)
  {
    forall t: Tag
      ensures CountIn(TagCounts(InPhase(gs, Opening)), t) + CountIn(TagCounts(InPhase(gs, Middlegame)), t) + CountIn(TagCounts(InPhase(gs, Endgame)), t) == CountIn(TagCounts(gs), t)
    {
      PhasesPartition(gs, t);
      TagCountsCount(gs, t);
      TagCountsCount(InPhase(gs, Opening), t);
      TagCountsCount(InPhase(gs, Middlegame), t);
      TagCountsCount(InPhase(gs, Endgame), t);
    }
  }

  /** The three phase buckets split the plies, and their histograms add up to
      the overall one, tag by tag. */
  lemma {:induction false} PhasesPartition(gs: seq<PlyGrade>, t: Tag)
    ensures |InPhase(gs, Opening)| + |InPhase(gs, Middlegame)| + |InPhase(gs, Endgame)| == |gs|
    ensures CountTag(InPhase(gs, Opening), t) + CountTag(InPhase(gs, Middlegame), t)
      + CountTag(InPhase(gs, Endgame), t) == CountTag(gs, t)
  {
    if |gs| > 0 {
      PhasesPartition(gs[1..], t);
    }
  }
}

=== FILE: analyze_route.dfy ===
/** The analysis route (`POST /api/analyze`): request validation, the
    rating clamp, and the mapping of the pool's outcome to a response. */
module AnalyzeRoute {
  import opened Wrappers
  import opened EnginePool

  const StartFen: string := "rnbqkbnr/pppppppp/8/8/8/8/PPPPPPPP/RNBQKBNR w KQkq - 0 1"
  const DefaultDepth: int := 12
  const MinElo: int := 1350
  const MaxElo: int := 2850

  /** The parsed body; a field that is absent or of another type is None.
      A body that is not JSON is None as a whole. */
  datatype AnalyzeBody = AnalyzeBody(fen: Option<string>, depth: Option<int>, elo: Option<real>, limitStrength: Option<bool>)

  datatype Response =
    | Ok(result: AnalyzeResult)
    | BadRequest(error: string)
    | ServiceUnavailable(error: string)

  function Clamp(lo: int, hi: int, x: int): (r: int)
    requires lo <= hi
    ensures lo <= r <= hi
    ensures lo <= x <= hi ==> r == x
    ensures x < lo ==> r == lo
    ensures x > hi ==> r == hi
  {
    if x < lo then lo else if x > hi then hi else x
  }

  /** A numeric rating rounded down and clamped to [1350, 2850]. */
  function ClampElo(elo: real): (r: int)
    ensures MinElo <= r <= MaxElo
    ensures MinElo as real <= elo < (MaxElo + 1) as real ==> r == elo.Floor
    ensures elo < MinElo as real ==> r == MinElo
    ensures elo >= MaxElo as real ==> r == MaxElo
  {
    Clamp(MinElo, MaxElo, elo.Floor)
  }

  /** A rating that is already a whole number in range passes unchanged, and
      clamping a clamped rating changes nothing. */
  lemma ClampEloIdempotent(elo: real)
    ensures ClampElo(ClampElo(elo) as real) == ClampElo(elo)
  {
  }

  lemma ClampEloMonotone(a: real, b: real)
    requires a <= b
    ensures ClampElo(a) <= ClampElo(b)
  {
  }

  /** The pool parameters the route derives from the body, or the 400 for a
      missing or empty position. */
  function RouteParams(body: Option<AnalyzeBody>): (r: Result<Params, string>)
    ensures r.Failure? <==> body.None? || body.value.fen.None? || body.value.fen.value == ""
    ensures r.Failure? ==> r.error == "Missing fen"
    ensures r.Success? ==> r.value.fen == (if body.value.fen.value == "startpos" then StartFen else body.value.fen.value)
    ensures r.Success? ==> r.value.depth == body.value.depth.GetOr(DefaultDepth)
    ensures r.Success? ==> (r.value.elo.Some? <==> body.value.elo.Some?)
    ensures r.Success? && r.value.elo.Some? ==> MinElo <= r.value.elo.value <= MaxElo
    ensures r.Success? && body.value.elo.Some? ==> r.value.elo == Some(ClampElo(body.value.elo.value))
    ensures r.Success? && body.value.limitStrength.None? ==> r.value.limitStrength == r.value.elo.Some?
    ensures r.Success? && body.value.limitStrength.Some? ==> r.value.limitStrength == body.value.limitStrength.value
  {
    if body.None? || body.value.fen.None? || body.value.fen.value == "" then Failure("Missing fen")
    else
      var b := body.value;
      var depth := b.depth.GetOr(DefaultDepth);
      var elo := if b.elo.Some? then Some(ClampElo(b.elo.value)) else None;
      var limit := b.limitStrength.GetOr(elo.Some?);
      var fen := if b.fen.value == "startpos" then StartFen else b.fen.value;
      Success(Params(fen, depth, elo, limit))
  }

  /** The response once the pool's promise settles: the result as is, or 503
      "Engine unavailable" on any rejection. */
  function Respond(o: Outcome): (r: Response)
    ensures o.Resolved? <==> r.Ok?
    ensures r.Ok? ==> r.result == o.result
    ensures o.Rejected? ==> r == ServiceUnavailable(Unavailable)
  {
    match o
    case Resolved(res) => Ok(res)
    case Rejected(_) => ServiceUnavailable(Unavailable)
  }

  /** The whole route for a pool that settles each request as `settle` says. */
  function Route(body: Option<AnalyzeBody>, settle: Params -> Outcome): (r: Response)
    ensures r.BadRequest? <==> RouteParams(body).Failure?
    ensures RouteParams(body).Success? ==> r == Respond(settle(RouteParams(body).value))
  {
    var p := RouteParams(body);
    if p.Failure? then BadRequest(p.error) else Respond(settle(p.value))
  }

  /** "startpos" and the standard start position ask the pool the same
      question. */
  lemma StartposAlias(depth: Option<int>, elo: Option<real>, ls: Option<bool>)
    ensures RouteParams(Some(AnalyzeBody(Some("startpos"), depth, elo, ls)))
         == RouteParams(Some(AnalyzeBody(Some(StartFen), depth, elo, ls)))
  {
  }
}

=== FILE: clock.dfy ===
/** Clock formatting (src/components/Clock.tsx): remaining milliseconds as
    minutes and two-digit seconds. */
module Clock {
  import opened Decimal

  /** The whole seconds shown for a remaining time: negative times count as
      zero and fractions are dropped. */
  function TotalSeconds(ms: real): (s: nat)
    ensures ms <= 0.0 ==> s == 0
    ensures ms >= 0.0 ==> (s * 1000) as real <= ms < ((s + 1) * 1000) as real
  {
    var clamped := if ms.Floor > 0 then ms.Floor else 0;
    clamped / 1000
  }

  /** `padStart(2, '0')` of a number below 60. */
  function TwoDigits(n: nat): (r: string)
    requires n < 60
    ensures |r| == 2 && AllDigits(r) && DigitsToNat(r) == n
  {
    var r := [DigitChar(n / 10), DigitChar(n % 10)];
    assert r[..1] == [DigitChar(n / 10)] && r[..1][..0] == [];
    assert DigitsToNat(r[..1]) == n / 10;
    r
  }

  /** `formatMs`: unpadded minutes, a colon, two-digit seconds. */
  function FormatMs(ms: real): (r: string)
    ensures |r| >= 4 && r[|r| - 3] == ':'
    ensures AllDigits(r[..|r| - 3]) && AllDigits(r[|r| - 2..])
    ensures DigitsToNat(r[|r| - 2..]) < 60
    ensures |r| > 4 ==> r[0] != '0'
  {
    var total := TotalSeconds(ms);
    var text := NatToString(total / 60) + ":" + TwoDigits(total % 60);
    assert text[..|text| - 3] == NatToString(total / 60);
    assert text[|text| - 2..] == TwoDigits(total % 60);
    text
  }

  /** The seconds a clock text stands for. */
  function ReadClock(t: string): nat
    requires |t| >= 4 && AllDigits(t[..|t| - 3]) && AllDigits(t[|t| - 2..])
  {
    DigitsToNat(t[..|t| - 3]) * 60 + DigitsToNat(t[|t| - 2..])
  }

  /** Reading the text back gives the whole seconds remaining: minutes times
      sixty plus seconds is the floor of the clamped time over 1000. */
  lemma FormatRoundTrip(ms: real)
    ensures ReadClock(FormatMs(ms)) == TotalSeconds(ms)
  {
    var total := TotalSeconds(ms);
    var text := FormatMs(ms);
    assert text[..|text| - 3] == NatToString(total / 60);
    assert text[|text| - 2..] == TwoDigits(total % 60);
    NatToStringRoundTrip(total / 60);
  }

  /** No time left (or less than nothing) shows as "0:00". */
  lemma NoTimeLeft(ms: real)
    requires ms <= 0.0
    ensures FormatMs(ms) == "0:00"
  {
  }
}

=== FILE: decimal.dfy ===
/** Decimal text and JavaScript numbers: rendering integers as the source's
    template strings do, `parseInt(s, 10)`, and `Number(token)` restricted to
    integer literals. */
module Decimal {
  import opened Text

  /** A JavaScript number as far as the model tracks it: an integer, or NaN. */
  datatype Num = Finite(v: int) | NaN

  /** `Math.round` on a finite value: the nearest integer, halves upward. */
  function Round(x: real): (n: int)
    ensures x - 0.5 < n as real <= x + 0.5
  {
    (x + 0.5).Floor
  }

  predicate IsDigit(c: char) {
    '0' <= c <= '9'
  }

  predicate NotDigit(c: char) {
    !IsDigit(c)
  }

  predicate AllDigits(s: string) {
    forall i :: 0 <= i < |s| ==> IsDigit(s[i])
  }

  function DigitChar(d: nat): (c: char)
    requires d < 10
    ensures IsDigit(c)
  {
    (48 + d) as char
  }

  function DigitVal(c: char): (d: nat)
    requires IsDigit(c)
    ensures d < 10
  {
    c as int - 48
  }

  /** Decimal rendering of a natural number, as `${n}` prints it. */
  function NatToString(n: nat): (r: string)
    ensures |r| > 0 && AllDigits(r)
    ensures |r| > 1 ==> r[0] != '0'
    ensures n < 10 <==> |r| == 1
  {
    if n < 10 then [DigitChar(n)] else NatToString(n / 10) + [DigitChar(n % 10)]
  }

  /** The value of a string of decimal digits. */
  function DigitsToNat(s: string): nat
    requires AllDigits(s)
  {
    if |s| == 0 then 0 else 10 * DigitsToNat(s[..|s| - 1]) + DigitVal(s[|s| - 1])
  }

  lemma {:induction false} NatToStringRoundTrip(n: nat)
    ensures DigitsToNat(NatToString(n)) == n
  {
    if n >= 10 {
      var x := NatToString(n / 10);
      var r := x + [DigitChar(n % 10)];
      assert r[..|r| - 1] == x;
      NatToStringRoundTrip(n / 10);
    }
  }

  /** Decimal rendering of an integer, as `${i}` prints it. */
  function IntToString(i: int): (r: string)
    ensures |r| > 0
    ensures i < 0 <==> r[0] == '-'
  {
    if i < 0 then "-" + NatToString(-i) else NatToString(i)
  }

  /** `parseInt(s, 10)`: leading white space, an optional sign, then the
      longest run of digits; NaN when that run is empty. */
  function ParseInt(s: string): (r: Num)
  {
    ParseSigned(TrimStart(s))
  }

  /** `parseInt` after the leading white space. */
  function ParseSigned(t: string): Num {
    if |t| > 0 && t[0] == '-' then Negate(ParseDigitRun(t[1..]))
    else if |t| > 0 && t[0] == '+' then ParseDigitRun(t[1..])
    else ParseDigitRun(t)
  }

  function Negate(x: Num): Num {
    if x.NaN? then NaN else Finite(-x.v)
  }

  /** The value of the longest run of digits at the front, NaN when there
      is none. */
  function ParseDigitRun(u: string): Num {
    var n := Span(u, NotDigit);
    if n == 0 then NaN else Finite(DigitsToNat(u[..n]))
  }

  /** The digits of `u` up to the first non-digit, when they are `d`. */
  lemma DigitPrefix(d: string, rest: string)
    requires |d| > 0 && AllDigits(d)
    requires |rest| == 0 || NotDigit(rest[0])
    ensures Span(d + rest, NotDigit) == |d|
    ensures (d + rest)[..|d|] == d
  {
    SpanWord(d, rest, NotDigit);
  }

  /** A run of digits followed by a non-digit reads as its value. */
  lemma DigitRun(d: string, rest: string)
    requires |d| > 0 && AllDigits(d)
    requires |rest| == 0 || NotDigit(rest[0])
    ensures ParseDigitRun(d + rest) == Finite(DigitsToNat(d))
  {
    DigitPrefix(d, rest);
  }

  /** `parseInt` reads back exactly what `${i}` printed, whatever follows when
      the next character is not a digit. */
  lemma ParseIntRoundTrip(i: int, rest: string)
    requires |rest| == 0 || NotDigit(rest[0])
    ensures ParseInt(IntToString(i) + rest) == Finite(i)
  {
    if i < 0 {
      ParseNegativeRoundTrip(-i, rest);
    } else {
      ParseNaturalRoundTrip(i, rest);
    }
  }

  lemma ParseNaturalRoundTrip(m: nat, rest: string)
    requires |rest| == 0 || NotDigit(rest[0])
    ensures ParseInt(NatToString(m) + rest) == Finite(m)
  {
    var d := NatToString(m);
    NatToStringRoundTrip(m);
    DigitRun(d, rest);
    TrimStartNoSpace(d + rest);
    SignedUnsigned(d + rest);
  }

  lemma ParseNegativeRoundTrip(m: nat, rest: string)
    requires m > 0
    requires |rest| == 0 || NotDigit(rest[0])
    ensures ParseInt("-" + NatToString(m) + rest) == Finite(-(m as int))
  {
    var d := NatToString(m);
    NatToStringRoundTrip(m);
    DigitRun(d, rest);
    TrimStartNoSpace("-" + d + rest);
    SignedNegative(d, rest);
  }

  lemma SignedNegative(d: string, rest: string)
    ensures ParseSigned("-" + d + rest) == Negate(ParseDigitRun(d + rest))
  {
    assert ("-" + d + rest)[1..] == d + rest;
  }

  lemma SignedUnsigned(u: string)
    requires |u| > 0 && IsDigit(u[0])
    ensures ParseSigned(u) == ParseDigitRun(u)
  {
  }

  lemma TrimStartNoSpace(s: string)
    requires |s| > 0 && (s[0] == '-' || IsDigit(s[0]))
    ensures TrimStart(s) == s
  {
    assert !IsSpace(s[0]);
  }

  lemma TrimEndNoSpace(s: string)
    requires |s| > 0 && IsDigit(s[|s| - 1])
    ensures TrimEnd(s) == s
  {
  }

  /** `Number(token)` for the tokens the model tracks: surrounding white space
      is ignored, the empty string is 0, an optional sign followed by digits
      is that integer, and everything else is NaN. */
  function Number(tok: string): Num
  {
    var t := Trim(tok);
    if t == "" then Finite(0)
    else
      var neg := t[0] == '-';
      var u := if t[0] == '-' || t[0] == '+' then t[1..] else t;
      if |u| > 0 && AllDigits(u) then
        var m: int := DigitsToNat(u);
        Finite(if neg then -m else m)
      else NaN
  }

  lemma NumberRoundTrip(i: int)
    ensures Number(IntToString(i)) == Finite(i)
  {
    var s := IntToString(i);
    TrimStartNoSpace(s);
    assert IsDigit(s[|s| - 1]);
    TrimEndNoSpace(s);
    NatToStringRoundTrip(if i < 0 then -i else i);
    if i < 0 {
      assert s[1..] == NatToString(-i);
    }
  }
}

=== FILE: engine_pool.dfy ===
/** The engine pool (src/lib/enginePool.ts) as a sequential state machine:
    one engine process, its UCI handshake, a FIFO queue of analysis jobs with
    at most one in flight, a dedupe table of recent requests, and the settled
    outcome of every job. Process I/O is replaced by events: a line read from
    the engine, the engine closing, the deferred pump, and an analysis call
    at a given clock reading. Promises are job ids; `settled` records how each
    one ended. */
module EnginePool {
  import opened Wrappers
  import opened Text
  import opened Decimal
  import opened InfoLine

  /** `AnalyzeParams`; an absent `limitStrength` is false. */
  datatype Params = Params(fen: string, depth: int, elo: Option<int>, limitStrength: bool)

  /** `AnalyzeResult`, with the job id in place of the request id. */
  datatype AnalyzeResult = AnalyzeResult(bestmove: Option<string>, info: Option<Info>, raw: seq<string>, reqId: nat)

  datatype Outcome = Resolved(result: AnalyzeResult) | Rejected(message: string)

  datatype Job = Job(id: nat, params: Params)

  /** The job in flight and what its stdout listener has gathered. */
  datatype Running = Running(job: Job, bestInfo: Option<Info>, infoLines: seq<string>)

  datatype DedupeEntry = DedupeEntry(id: nat, ts: int)

  /** The pool. `engine` says whether a process is attached; the three
      handshake flags belong to the current process. */
  datatype Pool = Pool(
    engine: bool,
    ready: bool,
    busy: bool,
    sawUciOk: bool,
    sawReadyOk: bool,
    sentIsReady: bool,
    queue: seq<Job>,
    dedupe: map<string, DedupeEntry>,
    running: Option<Running>,
    settled: map<nat, Outcome>,
    nextId: nat,
    stdin: seq<string>,
    lastStdout: seq<string>)

  const Initial: Pool := Pool(false, false, false, false, false, false, [], map[], None, map[], 0, [], [])

  /** A repeated request within this many milliseconds shares the earlier
      promise. */
  const DedupeWindowMs: int := 5000
  /** Engine output lines kept for the health report. */
  const StdoutCap: nat := 100
  /** Lines returned by the health report and as a job's raw output. */
  const TailLines: nat := 10
  const Unavailable: string := "Engine unavailable"

  /** The last `n` elements, `xs.slice(-n)`. */
  function Tail<T>(xs: seq<T>, n: nat): (r: seq<T>)
    ensures |r| <= n && |r| <= |xs|
    ensures |r| == if |xs| <= n then |xs| else n
    ensures |xs| <= n ==> r == xs
    ensures forall k :: 0 <= k < |r| ==> r[k] == xs[|xs| - |r| + k]
  {
    if |xs| <= n then xs else xs[|xs| - n..]
  }

  function EloText(elo: Option<int>): string {
    if elo.Some? then IntToString(elo.value) else "-"
  }

  /** The dedupe key `${fen}|d${depth}|e${elo ?? "-"}`. */
  function DedupeKey(p: Params): string {
    p.fen + "|d" + IntToString(p.depth) + "|e" + EloText(p.elo)
  }

  predicate SameKey(a: Params, b: Params) {
    a.fen == b.fen && a.depth == b.depth && a.elo == b.elo
  }

  /** The UCI commands that start a job: the strength limit when asked for
      (with the rating when it is non-zero), the position and the search. */
  function Commands(p: Params): (r: seq<string>)
    ensures 2 <= |r| <= 4
    ensures r[|r| - 2] == "position fen " + p.fen
    ensures r[|r| - 1] == "go depth " + IntToString(p.depth)
    ensures p.limitStrength <==> |r| >= 3
    ensures |r| == 4 <==> p.limitStrength && p.elo.Some? && p.elo.value != 0
    ensures |r| >= 3 ==> r[0] == "setoption name UCI_LimitStrength value true"
    ensures |r| == 4 ==> r[1] == "setoption name UCI_Elo value " + IntToString(p.elo.value)
  {
    var strength :=
      if p.limitStrength then
        ["setoption name UCI_LimitStrength value true"]
        + (if p.elo.Some? && p.elo.value != 0 then ["setoption name UCI_Elo value " + IntToString(p.elo.value)] else [])
      else [];
    strength + ["position fen " + p.fen, "go depth " + IntToString(p.depth)]
  }

  /** `pump`: when the engine is ready and idle and a job waits, the oldest
      job starts and its commands are written. */
  function Pump(s: Pool): (r: Pool)
    ensures !s.ready || s.busy || !s.engine || |s.queue| == 0 ==> r == s
    ensures s.ready && !s.busy && s.engine && |s.queue| > 0 ==>
      && r.busy && r.running == Some(Running(s.queue[0], None, []))
      && r.queue == s.queue[1..]
      && r.stdin == s.stdin + Commands(s.queue[0].params)
      && r == s.(busy := true, running := r.running, queue := r.queue, stdin := r.stdin)
  {
    if !s.ready || s.busy || !s.engine || |s.queue| == 0 then s
    else
      var job := s.queue[0];
      s.(busy := true,
         running := Some(Running(job, None, [])),
         queue := s.queue[1..],
         stdin := s.stdin + Commands(job.params))
  }

  /** `ensureStarted`: spawn a process with fresh handshake flags and send
      "uci", unless one is attached. */
  function EnsureStarted(s: Pool): (r: Pool)
    ensures r.engine
    ensures s.engine ==> r == s
    ensures !s.engine ==> !r.ready && !r.sawUciOk && !r.sawReadyOk && !r.sentIsReady && r.stdin == s.stdin + ["uci"]
    ensures r.queue == s.queue && r.running == s.running && r.busy == s.busy && r.settled == s.settled
  {
    if s.engine then s
    else s.(engine := true, ready := false, sawUciOk := false, sawReadyOk := false, sentIsReady := false,
            stdin := s.stdin + ["uci"])
  }

  /** Whether a call with these parameters at time `now` shares an earlier
      promise. */
  predicate DedupeHit(s: Pool, p: Params, now: int) {
    var key := DedupeKey(p);
    key in s.dedupe && now - s.dedupe[key].ts < DedupeWindowMs
  }

  /** `analyze`: the earlier promise for the same key within the window, or
      a new job queued behind the others and the queue pumped. */
  function Analyze(s: Pool, p: Params, now: int): (r: (Pool, nat))
    ensures DedupeHit(s, p, now) ==> r.0 == s && r.1 == s.dedupe[DedupeKey(p)].id
    ensures !DedupeHit(s, p, now) ==>
      && r.1 == s.nextId && r.0.nextId == s.nextId + 1
      && r.0.dedupe == s.dedupe[DedupeKey(p) := DedupeEntry(r.1, now)]
      && r.0.settled == s.settled
      && r.0.engine
    ensures !DedupeHit(s, p, now) ==>
      var q := s.queue + [Job(r.1, p)];
      if s.engine && s.ready && !s.busy then r.0.running == Some(Running(q[0], None, [])) && r.0.queue == q[1..]
      else r.0.queue == q && r.0.running == s.running
  {
    if DedupeHit(s, p, now) then (s, s.dedupe[DedupeKey(p)].id)
    else
      var s1 := EnsureStarted(s);
      var id := s1.nextId;
      var s2 := Pump(s1.(queue := s1.queue + [Job(id, p)], nextId := id + 1));
      (s2.(dedupe := s2.dedupe[DedupeKey(p) := DedupeEntry(id, now)]), id)
  }

  /** The health report's recent output: push, then drop the oldest line
      beyond the cap. */
  function PushStdout(buf: seq<string>, line: string): (r: seq<string>)
    ensures |buf| <= StdoutCap ==> |r| <= StdoutCap
    ensures |r| > 0 && r[|r| - 1] == line
    ensures |buf| < StdoutCap ==> r == buf + [line]
    ensures |buf| >= StdoutCap ==> r == buf[1..] + [line]
    ensures |buf| == StdoutCap ==> r == Tail(buf + [line], StdoutCap)
  {
    var b := buf + [line];
    if |b| > StdoutCap then b[1..] else b
  }

  /** What the handshake listener records before deciding readiness: the
      line in the output buffer, the two flags it announces, and "isready"
      written on the first "uciok". */
  function Heard(s: Pool, line: string): (r: Pool)
    ensures r == s.(lastStdout := r.lastStdout, sawUciOk := r.sawUciOk, sawReadyOk := r.sawReadyOk,
                    sentIsReady := r.sentIsReady, stdin := r.stdin)
    ensures r.sawUciOk == (s.sawUciOk || line == "uciok")
    ensures r.sawReadyOk == (s.sawReadyOk || line == "readyok")
    ensures r.sentIsReady == (s.sentIsReady || line == "uciok")
    ensures r.stdin == if !s.sentIsReady && line == "uciok" then s.stdin + ["isready"] else s.stdin
    ensures r.lastStdout == PushStdout(s.lastStdout, line)
  {
    var s1 := s.(lastStdout := PushStdout(s.lastStdout, line));
    var s2 :=
      if line == "uciok" then
        if !s1.sentIsReady then s1.(sawUciOk := true, sentIsReady := true, stdin := s1.stdin + ["isready"])
        else s1.(sawUciOk := true)
      else s1;
    if line == "readyok" then s2.(sawReadyOk := true) else s2
  }

  /** The handshake listener: record the line; on "uciok" send "isready"
      once; on "readyok" note it; once both are seen the pool becomes ready
      and pumps. */
  function Handshake(s: Pool, line: string): (r: Pool)
    ensures !s.ready && r.ready ==> r.sawUciOk && r.sawReadyOk
    ensures !s.ready && r.ready ==> s.sawUciOk || line == "uciok"
    ensures !s.ready && r.ready ==> s.sawReadyOk || line == "readyok"
    ensures r.engine == s.engine && r.settled == s.settled && r.nextId == s.nextId
    ensures s.busy ==> r.busy && r.running == s.running && r.queue == s.queue
    ensures !s.sentIsReady && line == "uciok" ==>
      r.sentIsReady && |r.stdin| > |s.stdin| && r.stdin[|s.stdin|] == "isready"
    ensures s.sentIsReady ==> r.sentIsReady && |r.stdin| >= |s.stdin| && r.stdin[..|s.stdin|] == s.stdin
    ensures !s.ready && r.sawUciOk && r.sawReadyOk ==> r.ready
    ensures !s.ready && (s.sawUciOk || line == "uciok") && (s.sawReadyOk || line == "readyok") ==>
      r == Pump(Heard(s, line).(ready := true))
    ensures s.ready || !(s.sawUciOk || line == "uciok") || !(s.sawReadyOk || line == "readyok") ==>
      r == Heard(s, line)
  {
    var h := Heard(s, line);
    if h.sawUciOk && h.sawReadyOk && !h.ready then
      Pump(h.(ready := true))
    else h
  }

  /** An `info` line that replaces the primary info: parsed, and either
      without `multipv` or with `multipv 1`. */
  function PrimaryInfo(line: string, current: Option<Info>): (r: Option<Info>)
    ensures r == current || (r == ParseInfoLine(line) && r.Some?)
    ensures r != current ==> StartsWith(line, "info ")
    ensures ParseInfoLine(line).Some? && ParseInfoLine(line).value.multipv.None? ==> r == ParseInfoLine(line)
    ensures ParseInfoLine(line).Some? && ParseInfoLine(line).value.multipv == Some(Finite(1)) ==> r == ParseInfoLine(line)
    ensures var p := ParseInfoLine(line);
      p.Some? && p.value.multipv.Some? && p.value.multipv != Some(Finite(1)) ==> r == current
  {
    var parsed := ParseInfoLine(line);
    if parsed.Some? && (parsed.value.multipv.None? || parsed.value.multipv == Some(Finite(1))) then parsed
    else current
  }

  /** `line.split(" ")[1]` of a `bestmove` line. */
  function BestMoveOf(line: string): string
    requires StartsWith(line, "bestmove ")
  {
    assert line[8] == ' ';
    SplitOnTwo(line, ' ');
    SplitOn(line, ' ')[1]
  }

  /** The job listener: collect `info` lines, and on `bestmove` resolve the
      job with the move, the primary info and the last ten info lines, and
      mark the pool idle. */
  function JobLine(s: Pool, run: Running, line: string): (r: Pool)
    ensures !StartsWith(line, "bestmove ") ==> r.settled == s.settled && r.running.Some? && r.busy == s.busy
    ensures !StartsWith(line, "bestmove ") ==> r.running.value.job == run.job
    ensures StartsWith(line, "info ") ==> r.running.Some? && r.running.value.infoLines == run.infoLines + [line]
    ensures StartsWith(line, "info ") ==> r.running.value.bestInfo == PrimaryInfo(line, run.bestInfo)
    ensures !StartsWith(line, "info ") && !StartsWith(line, "bestmove ") ==> r.running == Some(run)
    ensures StartsWith(line, "bestmove ") ==> !r.busy && r.running.None? && run.job.id in r.settled
    ensures StartsWith(line, "bestmove ") ==> r.settled == s.settled[run.job.id := r.settled[run.job.id]]
    ensures StartsWith(line, "bestmove ") ==>
      (var o := r.settled[run.job.id];
       && o.Resolved?
       && o.result.bestmove == Some(BestMoveOf(line))
       && o.result.reqId == run.job.id
       && o.result.info == run.bestInfo
       && o.result.raw == Tail(run.infoLines, TailLines))
  {
    var run1 :=
      if StartsWith(line, "info ") then
        run.(infoLines := run.infoLines + [line], bestInfo := PrimaryInfo(line, run.bestInfo))
      else run;
    if StartsWith(line, "bestmove ") then
      var result := AnalyzeResult(Some(BestMoveOf(line)), run1.bestInfo, Tail(run1.infoLines, TailLines), run1.job.id);
      s.(busy := false, running := None, settled := s.settled[run1.job.id := Resolved(result)])
    else s.(running := Some(run1))
  }

  /** A line from the engine: nothing without a process or for an empty
      line; otherwise the handshake listener, then the listener of the job
      that was in flight when the line arrived. */
  function LineReceived(s: Pool, line: string): Pool {
    if !s.engine || line == "" then s
    else
      var s1 := Handshake(s, line);
      if s.running.Some? then JobLine(s1, s.running.value, line) else s1
  }

  function QueuedIds(q: seq<Job>): set<nat> {
    set k | 0 <= k < |q| :: q[k].id
  }

  /** `reset`, on the process's `error` or `close`: detach the process, mark
      the pool not ready and idle, and reject every queued job. */
  function Reset(s: Pool): Pool {
    var rejected := map id | id in QueuedIds(s.queue) :: Rejected(Unavailable);
    s.(engine := false, ready := false, busy := false, running := None, queue := [],
       settled := s.settled + rejected)
  }

  datatype Health = Health(ready: bool, busy: bool, hasProcess: bool, lastStdout: seq<string>)

  /** `getHealth`. */
  function GetHealth(s: Pool): (h: Health)
    ensures |h.lastStdout| <= TailLines
    ensures h.lastStdout == Tail(s.lastStdout, TailLines)
    ensures h.ready == s.ready && h.busy == s.busy && h.hasProcess == s.engine
  {
    Health(s.ready, s.busy, s.engine, Tail(s.lastStdout, TailLines))
  }

  datatype Event =
    | Call(params: Params, now: int)
    | EngineLine(line: string)
    | DeferredPump
    | EngineClosed

  function Step(s: Pool, e: Event): Pool {
    match e
    case Call(p, now) => Analyze(s, p, now).0
    case EngineLine(line) => LineReceived(s, line)
    case DeferredPump => Pump(s)
    case EngineClosed => Reset(s)
  }

  /** The pool's invariant: busy exactly when a job is in flight, busy only
      when ready, ready only with a process that finished the handshake;
      queued ids strictly increasing, issued, unsettled and above the id in
      flight; the output buffer within its cap. */
  ghost predicate Valid(s: Pool) {
    && (s.busy <==> s.running.Some?)
    && (s.busy ==> s.ready)
    && (s.ready ==> s.engine && s.sawUciOk && s.sawReadyOk)
    && (s.sawUciOk ==> s.sentIsReady)
    && (forall k :: 0 <= k < |s.queue| ==> s.queue[k].id < s.nextId && s.queue[k].id !in s.settled)
    && (forall i, j :: 0 <= i < j < |s.queue| ==> s.queue[i].id < s.queue[j].id)
    && (s.running.Some? ==>
          && s.running.value.job.id < s.nextId
          && s.running.value.job.id !in s.settled
          && forall k :: 0 <= k < |s.queue| ==> s.running.value.job.id < s.queue[k].id)
    && (forall id :: id in s.settled ==> id < s.nextId)
    && (forall key :: key in s.dedupe ==> s.dedupe[key].id < s.nextId)
    && |s.lastStdout| <= StdoutCap
  }

  lemma InitialValid()
    ensures Valid(Initial)
  {
  }

  lemma PumpValid(s: Pool)
    requires Valid(s)
    ensures Valid(Pump(s))
  {
  }

  lemma AnalyzeValid(s: Pool, p: Params, now: int)
    requires Valid(s)
    ensures Valid(Analyze(s, p, now).0)
  {
    if !DedupeHit(s, p, now) {
      var s1 := EnsureStarted(s);
      var id := s1.nextId;
      var s1' := s1.(queue := s1.queue + [Job(id, p)], nextId := id + 1);
      EnqueueValid(s, p);
      PumpValid(s1');
      var s2 := Pump(s1');
      DedupeEntryValid(s2, DedupeKey(p), id, now);
      assert Analyze(s, p, now).0 == s2.(dedupe := s2.dedupe[DedupeKey(p) := DedupeEntry(id, now)]);
    }
  }

  /** Starting the engine and queueing a job under the next id keeps the
      invariant. */
  lemma EnqueueValid(s: Pool, p: Params)
    requires Valid(s)
    ensures var s1 := EnsureStarted(s);
      Valid(s1.(queue := s1.queue + [Job(s1.nextId, p)], nextId := s1.nextId + 1))
  {
    var s1 := EnsureStarted(s);
    assert Valid(s1);
    var q := s1.queue + [Job(s1.nextId, p)];
    assert forall k :: 0 <= k < |s1.queue| ==> q[k] == s1.queue[k];
  }

  /** Recording an issued id under a dedupe key keeps the invariant. */
  lemma DedupeEntryValid(s: Pool, key: string, id: nat, now: int)
    requires Valid(s) && id < s.nextId
    ensures Valid(s.(dedupe := s.dedupe[key := DedupeEntry(id, now)]))
  {
  }

  lemma HandshakeValid(s: Pool, line: string)
    requires Valid(s) && s.engine
    ensures Valid(Handshake(s, line))
  {
    var s3 := Heard(s, line);
    assert Valid(s3);
    if s3.sawUciOk && s3.sawReadyOk && !s3.ready {
      assert !s3.busy;
      PumpValid(s3.(ready := true));
    }
  }

  lemma LineValid(s: Pool, line: string)
    requires Valid(s)
    ensures Valid(LineReceived(s, line))
  {
    if s.engine && line != "" {
      HandshakeValid(s, line);
      if s.running.Some? {
        JobLineValid(Handshake(s, line), s.running.value, line);
      }
    }
  }

  lemma JobLineValid(s: Pool, run: Running, line: string)
    requires Valid(s) && s.running == Some(run)
    ensures Valid(JobLine(s, run, line))
  {
  }

  lemma ResetValid(s: Pool)
    requires Valid(s)
    ensures Valid(Reset(s))
  {
  }

  /** Every event keeps the invariant. */
  lemma StepValid(s: Pool, e: Event)
    requires Valid(s)
    ensures Valid(Step(s, e))
  {
    match e
    case Call(p, now) => AnalyzeValid(s, p, now);
    case EngineLine(line) => LineValid(s, line);
    case DeferredPump => PumpValid(s);
    case EngineClosed => ResetValid(s);
  }

  /** A promise settles at most once: no event changes or removes a settled
      outcome. */
  lemma SettledStable(s: Pool, e: Event)
    requires Valid(s)
    ensures forall id :: id in s.settled ==> id in Step(s, e).settled && Step(s, e).settled[id] == s.settled[id]
  {
    match e
    case Call(p, now) =>
    case EngineLine(line) =>
    case DeferredPump =>
    case EngineClosed =>
  }

  /** Jobs start in the order they were submitted: the job a pump starts is
      the oldest queued one, and it precedes every job still waiting. */
  lemma PumpStartsOldest(s: Pool)
    requires Valid(s)
    requires Pump(s).running != s.running
    ensures Pump(s).running.value.job == s.queue[0]
    ensures forall k :: 0 <= k < |Pump(s).queue| ==> s.queue[0].id < Pump(s).queue[k].id
  {
  }

  /** `reset` rejects exactly the queued jobs with "Engine unavailable" and
      leaves the job in flight unsettled, its promise pending. */
  lemma ResetRejectsQueued(s: Pool)
    requires Valid(s)
    ensures forall k :: 0 <= k < |s.queue| ==> Reset(s).settled[s.queue[k].id] == Rejected(Unavailable)
    ensures s.running.Some? ==> s.running.value.job.id !in Reset(s).settled
    ensures forall id :: id in Reset(s).settled && id !in s.settled ==> id in QueuedIds(s.queue)
    ensures Reset(s).dedupe == s.dedupe
  {
    forall k | 0 <= k < |s.queue| ensures Reset(s).settled[s.queue[k].id] == Rejected(Unavailable) {
      assert s.queue[k].id in QueuedIds(s.queue);
    }
  }

  lemma IntToStringNoBar(i: int)
    ensures '|' !in IntToString(i)
  {
    var m: nat := if i < 0 then -i else i;
    assert AllDigits(NatToString(m));
    if i < 0 {
      assert IntToString(i) == "-" + NatToString(m);
      assert forall j :: 1 <= j < |IntToString(i)| ==> IntToString(i)[j] == NatToString(m)[j - 1];
    }
  }

  lemma IntToStringInjective(a: int, b: int)
    requires IntToString(a) == IntToString(b)
    ensures a == b
  {
    NumberRoundTrip(a);
    NumberRoundTrip(b);
  }

  /** The dedupe key tells requests apart exactly by position, depth and
      rating: ratings and depths print without '|', so the key reads back
      from its right end whatever the position text holds. */
  lemma DedupeKeyInjective(a: Params, b: Params)
    ensures DedupeKey(a) == DedupeKey(b) <==> SameKey(a, b)
  {
    if DedupeKey(a) == DedupeKey(b) {
      KeyTail(a, b);
      KeyHead(a, b);
      IntToStringInjective(a.depth, b.depth);
      EloTextInjective(a.elo, b.elo);
    }
  }

  /** The text after the last bar of a dedupe key is "e" and the rating. */
  lemma KeyTail(a: Params, b: Params)
    requires DedupeKey(a) == DedupeKey(b)
    ensures a.fen + "|d" + IntToString(a.depth) == b.fen + "|d" + IntToString(b.depth)
    ensures EloText(a.elo) == EloText(b.elo)
  {
    var ea := EloText(a.elo);
    var eb := EloText(b.elo);
    var ha := a.fen + "|d" + IntToString(a.depth);
    var hb := b.fen + "|d" + IntToString(b.depth);
    EloTextNoBar(a.elo);
    EloTextNoBar(b.elo);
    assert DedupeKey(a) == ha + ['|'] + ("e" + ea);
    assert DedupeKey(b) == hb + ['|'] + ("e" + eb);
    SplitAtLast(ha, "e" + ea, hb, "e" + eb, '|');
    assert ea == ("e" + ea)[1..] && eb == ("e" + eb)[1..];
  }

  /** Before that, the position and "d" with the depth. */
  lemma KeyHead(a: Params, b: Params)
    requires a.fen + "|d" + IntToString(a.depth) == b.fen + "|d" + IntToString(b.depth)
    ensures a.fen == b.fen && IntToString(a.depth) == IntToString(b.depth)
  {
    var da := IntToString(a.depth);
    var db := IntToString(b.depth);
    IntToStringNoBar(a.depth);
    IntToStringNoBar(b.depth);
    assert '|' !in "d" + da && '|' !in "d" + db;
    assert a.fen + "|d" + da == a.fen + ['|'] + ("d" + da);
    assert b.fen + "|d" + db == b.fen + ['|'] + ("d" + db);
    SplitAtLast(a.fen, "d" + da, b.fen, "d" + db, '|');
    assert da == ("d" + da)[1..] && db == ("d" + db)[1..];
  }

  lemma EloTextNoBar(e: Option<int>)
    ensures '|' !in "e" + EloText(e)
  {
    if e.Some? {
      IntToStringNoBar(e.value);
    }
  }

  lemma EloTextInjective(a: Option<int>, b: Option<int>)
    requires EloText(a) == EloText(b)
    ensures a == b
  {
    IntToStringNotDash(a);
    IntToStringNotDash(b);
    if a.Some? && b.Some? {
      IntToStringInjective(a.value, b.value);
    }
  }

  /** A printed rating is never the placeholder "-". */
  lemma IntToStringNotDash(a: Option<int>)
    ensures a.Some? ==> EloText(a) != "-"
  {
    if a.Some? {
      var v := a.value;
      var m: nat := if v < 0 then -v else v;
      assert |NatToString(m)| > 0;
      if v >= 0 {
        assert IsDigit(NatToString(m)[0]);
      }
    }
  }

  /** A second call for the same position, depth and rating less than five
      seconds after a call that queued a job gets that job's promise and
      changes nothing. */
  lemma RepeatWithinWindowShares(s: Pool, p: Params, q: Params, t1: int, t2: int)
    requires !DedupeHit(s, p, t1)
    requires SameKey(p, q)
    requires t1 <= t2 < t1 + DedupeWindowMs
    ensures var (s1, id1) := Analyze(s, p, t1);
      Analyze(s1, q, t2) == (s1, id1)
  {
    DedupeKeyInjective(p, q);
  }

  /** Calls that differ in position, depth or rating never share a promise
      through a fresh entry: the later call for a different key queues a new
      job unless its own key was already recent. */
  lemma DifferentKeyNotShared(s: Pool, p: Params, q: Params, t1: int, t2: int)
    requires !DedupeHit(s, p, t1) && !DedupeHit(s, q, t2)
    requires !SameKey(p, q)
    ensures var (s1, id1) := Analyze(s, p, t1);
      Analyze(s1, q, t2).1 == id1 + 1
  {
    DedupeKeyInjective(p, q);
  }
}

=== FILE: game_modes.dfy ===
/** Game modes (src/types/gameModes.ts) and the rules derived from them
    (src/lib/gameRules.ts): who moves, the engine parameters of a mode, the
    move filter, and the six presets. */
module GameModes {
  import opened Wrappers

  datatype Side = White | Black

  datatype Opponent = Human | Engine | EngineVsEngine

  datatype ModeId = Hotseat | EngineMode | EngineVsEngineMode | PuzzleMode | OpeningTrainer | TimedBlitz

  datatype Assistance = Assistance(hints: bool, blunderWarn: bool, onlyMoveTag: bool)

  datatype TimeControl = TimeControl(whiteMs: int, blackMs: int, incrementMs: Option<int>)

  /** An engine configuration; an absent and a null field are both None. */
  datatype EngineConfig = EngineConfig(depth: Option<int>, elo: Option<int>, multiPv: Option<int>)

  datatype Constraints = Constraints(openingLine: Option<seq<string>>, puzzleFen: Option<string>, puzzleSolutionPv: Option<seq<string>>)

  datatype GameRules = GameRules(
    id: ModeId,
    name: string,
    opponent: Opponent,
    assistance: Assistance,
    time: Option<TimeControl>,
    engine: Option<EngineConfig>,
    constraints: Option<Constraints>)

  /** `shouldEngineMove`: the engine plays both sides in engine-versus-engine
      mode and the side the player does not hold in engine mode. */
  function ShouldEngineMove(rules: GameRules, turn: Side, player: Side): (r: bool)
    ensures rules.opponent == Human ==> !r
    ensures rules.opponent == EngineVsEngine ==> r
    ensures rules.opponent == Engine ==> (r <==> turn != player)
  {
    (rules.opponent == Engine && turn != player) || rules.opponent == EngineVsEngine
  }

  const DefaultDepth: int := 12
  const MinMultiPv: int := 1
  const MaxMultiPv: int := 10

  /** `Math.max(1, Math.min(10, n))`. */
  function ClampMultiPv(n: int): (r: int)
    ensures MinMultiPv <= r <= MaxMultiPv
    ensures MinMultiPv <= n <= MaxMultiPv ==> r == n
    ensures n > MaxMultiPv ==> r == MaxMultiPv
    ensures n < MinMultiPv ==> r == MinMultiPv
  {
    var low := if MaxMultiPv < n then MaxMultiPv else n;
    if MinMultiPv > low then MinMultiPv else low
  }

  datatype EngineParams = EngineParams(depth: int, elo: Option<int>, limitStrength: bool, multiPv: int)

  /** `getEngineParams`: depth 12 and one line unless configured, the line
      count clamped to 1..10, the strength limited exactly when an Elo is
      set. */
  function GetEngineParams(rules: GameRules): (p: EngineParams)
    ensures MinMultiPv <= p.multiPv <= MaxMultiPv
    ensures p.limitStrength <==> p.elo.Some?
    ensures rules.engine.None? ==> p == EngineParams(DefaultDepth, None, false, 1)
    ensures rules.engine.Some? ==> p.elo == rules.engine.value.elo
    ensures rules.engine.Some? && rules.engine.value.depth.Some? ==> p.depth == rules.engine.value.depth.value
    ensures rules.engine.Some? && rules.engine.value.depth.None? ==> p.depth == DefaultDepth
    ensures rules.engine.Some? && rules.engine.value.multiPv.None? ==> p.multiPv == 1
    ensures rules.engine.Some? && rules.engine.value.multiPv.Some? ==> p.multiPv == ClampMultiPv(rules.engine.value.multiPv.value)
  {
    var e := rules.engine;
    var depth := if e.Some? && e.value.depth.Some? then e.value.depth.value else DefaultDepth;
    var elo := if e.Some? then e.value.elo else None;
    var multiPv := ClampMultiPv(if e.Some? && e.value.multiPv.Some? then e.value.multiPv.value else 1);
    EngineParams(depth, elo, elo.Some?, multiPv)
  }

  /** `isMoveAllowed`: every move is allowed, including one that leaves the
      opening line the mode trains. */
  function IsMoveAllowed(rules: GameRules, san: string, idx: nat): (r: bool)
    ensures r
  {
    if rules.constraints.Some? && rules.constraints.value.openingLine.Some? then
      var line := rules.constraints.value.openingLine.value;
      if idx < |line| && line[idx] != "" && line[idx] != san then true else true
    else true
  }

  const NoAssistance: Assistance := Assistance(false, false, false)
  const FullAssistance: Assistance := Assistance(true, true, true)
  const NoConstraints: Constraints := Constraints(None, None, None)

  /** `GAME_MODES_PRESETS`, keyed by mode. */
  function Preset(id: ModeId): GameRules {
    match id
    case Hotseat => GameRules(Hotseat, "Hotseat", Human, NoAssistance, None, None, None)
    case EngineMode =>
      GameRules(EngineMode, "Vs Engine", Engine, Assistance(false, true, true), None,
        Some(EngineConfig(Some(12), None, Some(2))), None)
    case EngineVsEngineMode =>
      GameRules(EngineVsEngineMode, "Engine vs Engine", EngineVsEngine, NoAssistance, None,
        Some(EngineConfig(Some(12), None, Some(1))), None)
    case PuzzleMode => GameRules(PuzzleMode, "Puzzle", Human, FullAssistance, None, None, Some(NoConstraints))
    case OpeningTrainer => GameRules(OpeningTrainer, "Opening Trainer", Human, FullAssistance, None, None, Some(NoConstraints))
    case TimedBlitz =>
      GameRules(TimedBlitz, "Blitz 5+0", Engine, NoAssistance, Some(TimeControl(300000, 300000, None)),
        Some(EngineConfig(Some(10), Some(1800), Some(1))), None)
  }

  /** Every preset carries its own key as its id. */
  lemma PresetIds(id: ModeId)
    ensures Preset(id).id == id
  {
  }

  /** The human-opponent presets have no engine configuration, and the
      engine never moves in them. */
  lemma HumanPresets(id: ModeId, turn: Side, player: Side)
    requires id == Hotseat || id == PuzzleMode || id == OpeningTrainer
    ensures Preset(id).opponent == Human && Preset(id).engine.None?
    ensures !ShouldEngineMove(Preset(id), turn, player)
  {
  }

  /** Every preset's line count is already within 1..10, so the clamp leaves
      it as written. */
  lemma PresetMultiPvUnclamped(id: ModeId)
    requires Preset(id).engine.Some?
    ensures GetEngineParams(Preset(id)).multiPv == Preset(id).engine.value.multiPv.value
  {
  }

  /** The engine preset plays at full strength; the blitz preset gives each
      side five minutes and plays at depth 10 limited to Elo 1800. */
  lemma PresetEngineParams()
    ensures GetEngineParams(Preset(EngineMode)) == EngineParams(12, None, false, 2)
    ensures GetEngineParams(Preset(TimedBlitz)) == EngineParams(10, Some(1800), true, 1)
    ensures Preset(TimedBlitz).time == Some(TimeControl(300000, 300000, None))
  {
  }
}

=== FILE: grading.dfy ===
/** Per-ply grading of the latest-report details route
    (src/app/api/report/latest/details/route.ts): centipawn loss, the
    mate-aware tag ladder, agreement and only-move flags, the phase of a ply,
    and the annotation symbol and note. */
module Grading {
  import opened Wrappers
  import opened Scores

  datatype Tag = Best | Excellent | Good | Inaccuracy | Mistake | Blunder

  datatype Phase = Opening | Middlegame | Endgame

  datatype Symbol = DoubleQuestion | Question | Dubious | DoubleExclam | Exclam

  function SymbolText(s: Symbol): string {
    match s
    case DoubleQuestion => "??"
    case Question => "?"
    case Dubious => "?!"
    case DoubleExclam => "!!"
    case Exclam => "!"
  }

  /** How bad a tag is, from 0 for Best to 5 for Blunder. */
  function Severity(t: Tag): nat {
    match t
    case Best => 0
    case Excellent => 1
    case Good => 2
    case Inaccuracy => 3
    case Mistake => 4
    case Blunder => 5
  }

  /** Loss at or below which a move agrees with the engine. */
  const AgreementWindow: int := 30
  /** Distance from the top line within which a candidate counts as good. */
  const OnlyMoveWindow: int := 30
  /** Stand-in score for a candidate line that carries no score. */
  const MissingLineCp: int := -99999
  /** Number of candidate lines the route requests and inspects. */
  const DetailsMultiPv: nat := 2

  /** Centipawn loss `max(0, best - played)`. */
  function Cpl(bestCp: int, playedCp: int): (r: nat)
    ensures r >= bestCp - playedCp
    ensures r == 0 || r == bestCp - playedCp
  {
    if bestCp - playedCp > 0 then bestCp - playedCp else 0
  }

  /** The centipawn part of the tag ladder; bounds are inclusive. */
  function CplTag(cpl: int): (r: Tag)
    ensures r == Best <==> cpl <= 30
    ensures r == Excellent <==> 30 < cpl <= 70
    ensures r == Good <==> 70 < cpl <= 150
    ensures r == Inaccuracy <==> 150 < cpl <= 300
    ensures r == Mistake <==> 300 < cpl <= 600
    ensures r == Blunder <==> 600 < cpl
  {
    if cpl <= 30 then Best
    else if cpl <= 70 then Excellent
    else if cpl <= 150 then Good
    else if cpl <= 300 then Inaccuracy
    else if cpl <= 600 then Mistake
    else Blunder
  }

  /** A larger loss never earns a better tag. */
  lemma CplTagMonotone(a: int, b: int)
    requires a <= b
    ensures Severity(CplTag(a)) <= Severity(CplTag(b))
  {
  }

  lemma CplTagBoundaries()
    ensures CplTag(30) == Best && CplTag(31) == Excellent
    ensures CplTag(70) == Excellent && CplTag(71) == Good
    ensures CplTag(150) == Good && CplTag(151) == Inaccuracy
    ensures CplTag(300) == Inaccuracy && CplTag(301) == Mistake
    ensures CplTag(600) == Mistake && CplTag(601) == Blunder
  {
  }

  /** The best line mates but the played move does not. */
  predicate MissedMate(best: Option<Score>, played: Option<Score>) {
    IsMate(best) && !IsMate(played)
  }

  /** Both mate, but the played mate is further away in absolute distance. */
  predicate SlowerMate(best: Option<Score>, played: Option<Score>) {
    IsMate(best) && IsMate(played) && Abs(MateValue(played)) > Abs(MateValue(best))
  }

  function Abs(x: int): nat {
    if x < 0 then -x else x
  }

  /** The mate-aware tag: the two mate overrides win, else the ladder. */
  function TagFor(best: Option<Score>, played: Option<Score>, cpl: nat): (r: Tag)
    ensures MissedMate(best, played) || SlowerMate(best, played) ==> r == Blunder
    ensures !MissedMate(best, played) && !SlowerMate(best, played) ==> r == CplTag(cpl)
    ensures !IsMate(best) ==> r == CplTag(cpl)
  {
    if MissedMate(best, played) then Blunder
    else if SlowerMate(best, played) then Blunder
    else CplTag(cpl)
  }

  /** Two plies with the same non-mating best line: the larger loss never
      gets the better tag. */
  lemma TagMonotoneWithoutMate(best: Option<Score>, p1: Option<Score>, p2: Option<Score>, c1: nat, c2: nat)
    requires !IsMate(best)
    requires c1 <= c2
    ensures Severity(TagFor(best, p1, c1)) <= Severity(TagFor(best, p2, c2))
  {
    CplTagMonotone(c1, c2);
  }

  /** Whether a candidate line scores within the window of the top score; a
      line without a score counts as -99999. */
  predicate Near(line: Option<Score>, top: int) {
    Abs(ScoreToCp(line).GetOr(MissingLineCp) - top) <= OnlyMoveWindow
  }

  function CountNear(lines: seq<Option<Score>>, top: int): (n: nat)
    ensures n <= |lines|
  {
    if |lines| == 0 then 0
    else (if Near(lines[0], top) then 1 else 0) + CountNear(lines[1..], top)
  }

  lemma CountNearTwo(xs: seq<Option<Score>>, top: int)
    requires |xs| <= 2
    ensures |xs| == 0 ==> CountNear(xs, top) == 0
    ensures |xs| == 1 ==> (CountNear(xs, top) == 1 <==> Near(xs[0], top))
    ensures |xs| == 2 ==> (CountNear(xs, top) == 1 <==> Near(xs[0], top) != Near(xs[1], top))
  {
    if |xs| == 2 {
      assert xs[1..][1..] == [];
    } else if |xs| == 1 {
      assert xs[1..] == [];
    }
  }

  function Min(a: int, b: int): int {
    if a <= b then a else b
  }

  /** Only-move: among the first two candidate lines, exactly one lies within
      30 cp of the first line's score (0 when the first line has none). */
  function OnlyMove(lines: seq<Option<Score>>): (r: bool)
    ensures |lines| == 0 ==> !r
    ensures |lines| == 1 ==> (r <==> lines[0].Some?)
    ensures |lines| >= 2 ==>
      (r <==> Near(lines[0], ScoreToCp(lines[0]).GetOr(0)) != Near(lines[1], ScoreToCp(lines[0]).GetOr(0)))
  {
    var infos := lines[..Min(DetailsMultiPv, |lines|)];
    var top := if |infos| == 0 then 0 else ScoreToCp(infos[0]).GetOr(0);
    CountNearTwo(infos, top);
    CountNear(infos, top) == 1
  }

  /** The phase of the ply at zero-based index `i`, from the move number
      `floor(i / 2) + 1`: up to 12 opening, up to 40 middlegame. */
  function PhaseOfIndex(i: nat): (r: Phase)
    ensures r == Opening <==> i + 1 <= 24
    ensures r == Middlegame <==> 25 <= i + 1 <= 80
    ensures r == Endgame <==> i + 1 >= 81
  {
    var moveNumber := i / 2 + 1;
    if moveNumber <= 12 then Opening
    else if moveNumber <= 40 then Middlegame
    else Endgame
  }

  /** The annotation symbol of a graded move. */
  function SymbolFor(missedMate: bool, tag: Tag, cpl: nat, agreement: bool): Symbol {
    if missedMate then DoubleQuestion
    else if tag == Blunder then DoubleQuestion
    else if tag == Mistake then Question
    else if tag == Inaccuracy then Dubious
    else if tag == Excellent then DoubleExclam
    else if cpl <= 30 && agreement then DoubleExclam
    else Exclam
  }

  /** The note: "missed mate", "only move", or both joined by "; ". */
  function NoteFor(missedMate: bool, onlyMove: bool): (r: Option<string>)
    ensures r.None? <==> !missedMate && !onlyMove
    ensures missedMate && !onlyMove ==> r == Some("missed mate")
    ensures !missedMate && onlyMove ==> r == Some("only move")
    ensures missedMate && onlyMove ==> r == Some("missed mate; only move")
  {
    if missedMate && onlyMove then Some("missed mate; only move")
    else if missedMate then Some("missed mate")
    else if onlyMove then Some("only move")
    else None
  }

  /** The note as the route assembles it: "missed mate" first, then
      "only move" appended after "; " or standing alone. */
  lemma NoteAppended(missedMate: bool, onlyMove: bool)
    ensures var first: Option<string> := if missedMate then Some("missed mate") else None;
      NoteFor(missedMate, onlyMove) ==
        if !onlyMove then first
        else if first.Some? then Some(first.value + "; only move")
        else Some("only move")
  {
    assert "missed mate" + "; only move" == "missed mate; only move";
  }

  /** What the engine answered for the played move, when its UCI form was
      resolved. */
  datatype PlayedProbe = PlayedProbe(score: Option<Score>, pv: Option<seq<string>>)

  /** The engine answers for one ply: the primary score and line of the
      best-move search, its candidate lines, and the restricted search for the
      played move (None when the move could not be resolved). */
  datatype PlyProbe = PlyProbe(
    best: Option<Score>,
    bestPv: Option<seq<string>>,
    bestLines: seq<Option<Score>>,
    played: Option<PlayedProbe>)

  datatype PlyGrade = PlyGrade(
    ply: nat,
    cpl: nat,
    tag: Tag,
    agreement: bool,
    onlyMove: bool,
    bestPv: Option<seq<string>>,
    playedPv: Option<seq<string>>,
    phase: Phase,
    symbol: Symbol,
    note: Option<string>)

  /** The played score that matters: none when the move was not resolved. */
  function PlayedScore(p: PlyProbe): Option<Score> {
    if p.played.Some? then p.played.value.score else None
  }

  /** Grades the ply at zero-based index `i`. */
  function GradePly(i: nat, p: PlyProbe): (g: PlyGrade)
    ensures g.ply == i + 1
    ensures g.phase == PhaseOfIndex(i)
    ensures p.played.None? ==> g.cpl == 0
    ensures g.cpl == Cpl(ScoreToCp(p.best).GetOr(0), ScoreToCp(PlayedScore(p)).GetOr(ScoreToCp(p.best).GetOr(0)))
    ensures g.agreement <==> g.cpl <= AgreementWindow
    ensures g.tag == TagFor(p.best, PlayedScore(p), g.cpl)
    ensures MissedMate(p.best, PlayedScore(p)) ==> g.tag == Blunder && g.symbol == DoubleQuestion
    ensures SlowerMate(p.best, PlayedScore(p)) ==> g.tag == Blunder && g.symbol == DoubleQuestion
    ensures !IsMate(p.best) ==> g.tag == CplTag(g.cpl)
    ensures g.onlyMove <==> OnlyMove(p.bestLines)
    ensures g.onlyMove ==> |p.bestLines| > 0
    ensures g.bestPv == p.bestPv && g.playedPv == (if p.played.Some? then p.played.value.pv else None)
    ensures g.note.Some? <==> MissedMate(p.best, PlayedScore(p)) || g.onlyMove
    ensures g.note == NoteFor(MissedMate(p.best, PlayedScore(p)), g.onlyMove)
  {
    var bestCp := ScoreToCp(p.best).GetOr(0);
    var played := PlayedScore(p);
    var playedCp := if p.played.Some? then ScoreToCp(played).GetOr(bestCp) else bestCp;
    var cpl := Cpl(bestCp, playedCp);
    var tag := TagFor(p.best, played, cpl);
    var only := OnlyMove(p.bestLines);
    var agreement := cpl <= AgreementWindow;
    var missed := MissedMate(p.best, played);
    PlyGrade(
      i + 1, cpl, tag, agreement, only,
      p.bestPv,
      if p.played.Some? then p.played.value.pv else None,
      PhaseOfIndex(i),
      SymbolFor(missed, tag, cpl, agreement),
      NoteFor(missed, only))
  }

  /** Without the missed-mate override the symbol depends on the tag alone:
      Best always gets "!!" and Good always "!". */
  lemma SymbolByTag(i: nat, p: PlyProbe)
    requires !MissedMate(p.best, PlayedScore(p))
    ensures var g := GradePly(i, p);
      && (g.tag == Blunder ==> g.symbol == DoubleQuestion)
      && (g.tag == Mistake ==> g.symbol == Question)
      && (g.tag == Inaccuracy ==> g.symbol == Dubious)
      && (g.tag == Excellent ==> g.symbol == DoubleExclam)
      && (g.tag == Best ==> g.symbol == DoubleExclam)
      && (g.tag == Good ==> g.symbol == Exclam)
  {
  }

  /** The engine pool returns no candidate lines, so in practice no ply is
      ever flagged as an only move. */
  lemma NoLinesNoOnlyMove(i: nat, p: PlyProbe)
    requires p.bestLines == []
    ensures !GradePly(i, p).onlyMove
    ensures GradePly(i, p).note.Some? <==> MissedMate(p.best, PlayedScore(p))
  {
  }

  /** When the played-move request is answered with the best-move result (as
      the pool's dedupe does, its key ignoring the move restriction), every
      ply has zero loss, agrees with the engine and is tagged Best "!!". */
  lemma SameAnswerIsBest(i: nat, p: PlyProbe)
    requires p.played.Some? && p.played.value.score == p.best
    ensures GradePly(i, p).cpl == 0
    ensures GradePly(i, p).tag == Best
    ensures GradePly(i, p).agreement
    ensures GradePly(i, p).symbol == DoubleExclam
  {
  }
}

=== FILE: info_line.dfy ===
/** `parseInfoLine` of the engine pool (src/lib/enginePool.ts): the fields of
    a UCI `info` line, read token by token. */
module InfoLine {
  import opened Wrappers
  import opened Text
  import opened Decimal
  import opened Scores

  /** The `score` field: the token after `score` (absent past the end of the
      line) and the number after it. */
  datatype InfoScore = InfoScore(kind: Option<string>, value: Num)

  /** `AnalyzeInfo`: every field is absent until its key is read. */
  datatype Info = Info(
    depth: Option<Num>,
    seldepth: Option<Num>,
    multipv: Option<Num>,
    score: Option<InfoScore>,
    nodes: Option<Num>,
    nps: Option<Num>,
    timeMs: Option<Num>,
    pv: Option<seq<string>>)

  const NoInfo: Info := Info(None, None, None, None, None, None, None, None)

  /** `Number(parts[j])`, where reading past the end gives `undefined` and so
      NaN. */
  function NumAt(parts: seq<string>, j: nat): Num {
    if j < |parts| then Number(parts[j]) else NaN
  }

  function TokenAt(parts: seq<string>, j: nat): Option<string> {
    if j < |parts| then Some(parts[j]) else None
  }

  /** The loop from index `i`: a numeric key consumes the next token, `score`
      the next two, `pv` the rest of the line, any other token is skipped. */
  function ParseFrom(parts: seq<string>, i: nat, info: Info): Info
    decreases |parts| - i
  {
    if i >= |parts| then info
    else
      var key := parts[i];
      if key == "depth" then ParseFrom(parts, i + 2, info.(depth := Some(NumAt(parts, i + 1))))
      else if key == "seldepth" then ParseFrom(parts, i + 2, info.(seldepth := Some(NumAt(parts, i + 1))))
      else if key == "multipv" then ParseFrom(parts, i + 2, info.(multipv := Some(NumAt(parts, i + 1))))
      else if key == "score" then
        ParseFrom(parts, i + 3, info.(score := Some(InfoScore(TokenAt(parts, i + 1), NumAt(parts, i + 2)))))
      else if key == "nodes" then ParseFrom(parts, i + 2, info.(nodes := Some(NumAt(parts, i + 1))))
      else if key == "nps" then ParseFrom(parts, i + 2, info.(nps := Some(NumAt(parts, i + 1))))
      else if key == "time" then ParseFrom(parts, i + 2, info.(timeMs := Some(NumAt(parts, i + 1))))
      else if key == "pv" then info.(pv := Some(parts[i + 1..]))
      else ParseFrom(parts, i + 1, info)
  }

  /** `parseInfoLine`: null unless the line starts with "info ", otherwise the
      fields read from its white-space separated tokens after the first. */
  function ParseInfoLine(line: string): (r: Option<Info>)
    ensures r.None? <==> !StartsWith(line, "info ")
  {
    if !StartsWith(line, "info ") then None
    else Some(ParseFrom(Words(Trim(line)), 1, NoInfo))
  }

  /** The score the grading reads from a parsed `score` field; a kind other
      than "cp" or "mate", or a value that is not a number, gives none. */
  function ScoreOf(s: Option<InfoScore>): (r: Option<Score>)
    ensures r.Some? ==> s.Some? && s.value.value.Finite?
    ensures r.Some? && r.value.Cp? ==> s.value.kind == Some("cp") && r.value.cp == s.value.value.v
    ensures r.Some? && r.value.Mate? ==> s.value.kind == Some("mate") && r.value.moves == s.value.value.v
    ensures s.Some? && s.value.value.Finite? && s.value.kind == Some("cp") ==> r == Some(Cp(s.value.value.v))
    ensures s.Some? && s.value.value.Finite? && s.value.kind == Some("mate") ==> r == Some(Mate(s.value.value.v))
  {
    if s.None? || s.value.value.NaN? then None
    else if s.value.kind == Some("cp") then Some(Cp(s.value.value.v))
    else if s.value.kind == Some("mate") then Some(Mate(s.value.value.v))
    else None
  }

  function ScoreKind(s: Score): string {
    if s.Cp? then "cp" else "mate"
  }

  function ScoreValue(s: Score): int {
    if s.Cp? then s.cp else s.moves
  }

  /** The tokens of a full search report as the engine prints it. */
  function InfoTokens(depth: int, seldepth: int, multipv: int, score: Score,
                      nodes: int, nps: int, time: int, pv: seq<string>): seq<string>
  {
    InfoHead(depth, seldepth, multipv, score, nodes, nps, time) + pv
  }

  /** Everything before the principal variation. */
  function InfoHead(depth: int, seldepth: int, multipv: int, score: Score,
                    nodes: int, nps: int, time: int): seq<string>
  {
    HeadOf(IntToString(depth), IntToString(seldepth), IntToString(multipv), ScoreKind(score),
           IntToString(ScoreValue(score)), IntToString(nodes), IntToString(nps), IntToString(time))
  }

  /** The head with its values already printed. */
  function HeadOf(depth: string, seldepth: string, multipv: string, kind: string,
                  value: string, nodes: string, nps: string, time: string): seq<string>
  {
    ["info", "depth", depth, "seldepth", seldepth, "multipv", multipv, "score", kind, value,
     "nodes", nodes, "nps", nps, "time", time, "pv"]
  }

  lemma IntToStringNoSpace(i: int)
    ensures forall j :: 0 <= j < |IntToString(i)| ==> !IsSpace(IntToString(i)[j])
  {
    var m: nat := if i < 0 then -i else i;
    assert AllDigits(NatToString(m));
    if i < 0 {
      assert IntToString(i) == "-" + NatToString(m);
      assert forall j :: 1 <= j < |IntToString(i)| ==> IntToString(i)[j] == NatToString(m)[j - 1];
    }
  }

  predicate IsMove(m: string) {
    |m| > 0 && forall j :: 0 <= j < |m| ==> !IsSpace(m[j])
  }

  /** A search report printed on one line is read back field for field:
      every number, the score with its kind, and the whole principal
      variation. */
  lemma ParseInfoRoundTrip(depth: int, seldepth: int, multipv: int, score: Score,
                           nodes: int, nps: int, time: int, pv: seq<string>)
    requires forall k :: 0 <= k < |pv| ==> IsMove(pv[k])
    ensures var r := ParseInfoLine(Unwords(InfoTokens(depth, seldepth, multipv, score, nodes, nps, time, pv)));
      && r.Some?
      && r.value.depth == Some(Finite(depth))
      && r.value.seldepth == Some(Finite(seldepth))
      && r.value.multipv == Some(Finite(multipv))
      && ScoreOf(r.value.score) == Some(score)
      && r.value.nodes == Some(Finite(nodes))
      && r.value.nps == Some(Finite(nps))
      && r.value.timeMs == Some(Finite(time))
      && r.value.pv == Some(pv)
  {
    var kind := ScoreKind(score);
    NumberIsMove(depth);
    NumberIsMove(seldepth);
    NumberIsMove(multipv);
    NumberIsMove(ScoreValue(score));
    NumberIsMove(nodes);
    NumberIsMove(nps);
    NumberIsMove(time);
    KeysAreMoves();
    ParseHeadLine(IntToString(depth), IntToString(seldepth), IntToString(multipv), kind,
                  IntToString(ScoreValue(score)), IntToString(nodes), IntToString(nps), IntToString(time), pv);
    ReadBackFields(depth, seldepth, multipv, score, nodes, nps, time, pv,
      ParseInfoLine(Unwords(InfoTokens(depth, seldepth, multipv, score, nodes, nps, time, pv))).value);
  }

  /** A line printed from a head of words and a variation of words is read
      back as the numbers of its value tokens, the score kind, and the
      variation. */
  lemma ParseHeadLine(depth: string, seldepth: string, multipv: string, kind: string,
                      value: string, nodes: string, nps: string, time: string, pv: seq<string>)
    requires IsMove(depth) && IsMove(seldepth) && IsMove(multipv) && IsMove(kind)
    requires IsMove(value) && IsMove(nodes) && IsMove(nps) && IsMove(time)
    requires forall k :: 0 <= k < |pv| ==> IsMove(pv[k])
    ensures ParseInfoLine(Unwords(HeadOf(depth, seldepth, multipv, kind, value, nodes, nps, time) + pv))
      == Some(Info(Some(Number(depth)), Some(Number(seldepth)), Some(Number(multipv)),
                   Some(InfoScore(Some(kind), Number(value))),
                   Some(Number(nodes)), Some(Number(nps)), Some(Number(time)), Some(pv)))
  {
    var h := HeadOf(depth, seldepth, multipv, kind, value, nodes, nps, time);
    var ts := h + pv;
    HeadOfMoves(depth, seldepth, multipv, kind, value, nodes, nps, time);
    HeadThenTail(h, pv);
    forall k | 0 <= k < |ts| ensures IsMove(ts[k]) {
      if k >= 17 { assert ts[k] == pv[k - 17]; }
    }
    LineWords(ts);
    HeadOfAt(depth, seldepth, multipv, kind, value, nodes, nps, time, pv);
    ParseInfoTokens(ts);
    ParseInfoLineOfWords(Unwords(ts), ts);
  }

  lemma ParseInfoLineOfWords(line: string, ts: seq<string>)
    requires StartsWith(line, "info ") && Words(Trim(line)) == ts
    ensures ParseInfoLine(line) == Some(ParseFrom(ts, 1, NoInfo))
  {
  }

  lemma HeadOfAt(depth: string, seldepth: string, multipv: string, kind: string,
                 value: string, nodes: string, nps: string, time: string, pv: seq<string>)
    ensures var ts := HeadOf(depth, seldepth, multipv, kind, value, nodes, nps, time) + pv;
      && |ts| == 17 + |pv|
      && ts[1] == "depth" && ts[3] == "seldepth" && ts[5] == "multipv" && ts[7] == "score"
      && ts[10] == "nodes" && ts[12] == "nps" && ts[14] == "time" && ts[16] == "pv"
      && ts[2] == depth && ts[4] == seldepth && ts[6] == multipv
      && ts[8] == kind && ts[9] == value
      && ts[11] == nodes && ts[13] == nps && ts[15] == time
      && ts[17..] == pv
  {
    HeadThenTail(HeadOf(depth, seldepth, multipv, kind, value, nodes, nps, time), pv);
  }

  /** The first elements of `h + t` are those of `h`, the rest is `t`. */
  lemma HeadThenTail(h: seq<string>, t: seq<string>)
    ensures |h + t| == |h| + |t|
    ensures forall k :: 0 <= k < |h| ==> (h + t)[k] == h[k]
    ensures (h + t)[|h|..] == t
  {
  }

  lemma HeadOfMoves(depth: string, seldepth: string, multipv: string, kind: string,
                    value: string, nodes: string, nps: string, time: string)
    requires IsMove(depth) && IsMove(seldepth) && IsMove(multipv) && IsMove(kind)
    requires IsMove(value) && IsMove(nodes) && IsMove(nps) && IsMove(time)
    ensures var h := HeadOf(depth, seldepth, multipv, kind, value, nodes, nps, time);
      |h| == 17 && h[0] == "info" && forall k :: 0 <= k < |h| ==> IsMove(h[k])
  {
    KeysAreMoves();
  }

  /** The keys of a search report are words. */
  lemma KeysAreMoves()
    ensures IsMove("info") && IsMove("depth") && IsMove("seldepth") && IsMove("multipv")
    ensures IsMove("score") && IsMove("cp") && IsMove("mate")
    ensures IsMove("nodes") && IsMove("nps") && IsMove("time") && IsMove("pv")
  {
    PlainIsMove("info");
    PlainIsMove("depth");
    PlainIsMove("seldepth");
    PlainIsMove("multipv");
    PlainIsMove("score");
    PlainIsMove("cp");
    PlainIsMove("mate");
    PlainIsMove("nodes");
    PlainIsMove("nps");
    PlainIsMove("time");
    PlainIsMove("pv");
  }

  /** Lower-case ASCII letters. */
  predicate Plain(s: string) {
    forall j :: 0 <= j < |s| ==> 'a' <= s[j] <= 'z'
  }

  lemma PlainIsMove(s: string)
    requires |s| > 0 && Plain(s)
    ensures IsMove(s)
  {
  }

  lemma NumberIsMove(i: int)
    ensures IsMove(IntToString(i))
  {
    IntToStringNoSpace(i);
  }

  /** A line of words led by "info" starts with "info " and splits back into
      its words. */
  lemma LineWords(ts: seq<string>)
    requires |ts| >= 2 && ts[0] == "info"
    requires forall k :: 0 <= k < |ts| ==> IsMove(ts[k])
    ensures StartsWith(Unwords(ts), "info ") && Words(Trim(Unwords(ts))) == ts
  {
    WordsUnwords(ts);
    var line := Unwords(ts);
    JoinLast(ts, ' ');
    assert line == "info" + [' '] + Join(ts[1..], ' ');
    assert line[..5] == "info ";
    TrimNoSpace(line);
  }

  /** The loop over the first six fields of a search report, up to `time`. */
  lemma ParseHeadTokens(ts: seq<string>)
    requires |ts| >= 14
    requires ts[1] == "depth" && ts[3] == "seldepth" && ts[5] == "multipv" && ts[7] == "score"
    requires ts[10] == "nodes" && ts[12] == "nps"
    ensures ParseFrom(ts, 1, NoInfo) == ParseFrom(ts, 14, Info(
      Some(Number(ts[2])), Some(Number(ts[4])), Some(Number(ts[6])),
      Some(InfoScore(Some(ts[8]), Number(ts[9]))),
      Some(Number(ts[11])), Some(Number(ts[13])), None, None))
  {
    var i1 := NoInfo.(depth := Some(Number(ts[2])));
    var i2 := i1.(seldepth := Some(Number(ts[4])));
    var i3 := i2.(multipv := Some(Number(ts[6])));
    var i4 := i3.(score := Some(InfoScore(Some(ts[8]), Number(ts[9]))));
    var i5 := i4.(nodes := Some(Number(ts[11])));
    var i6 := i5.(nps := Some(Number(ts[13])));
    assert ParseFrom(ts, 12, i5) == ParseFrom(ts, 14, i6);
    assert ParseFrom(ts, 10, i4) == ParseFrom(ts, 12, i5);
    assert ParseFrom(ts, 7, i3) == ParseFrom(ts, 10, i4);
    assert ParseFrom(ts, 5, i2) == ParseFrom(ts, 7, i3);
    assert ParseFrom(ts, 3, i1) == ParseFrom(ts, 5, i2);
    assert ParseFrom(ts, 1, NoInfo) == ParseFrom(ts, 3, i1);
  }

  /** `time` and then `pv` at the end of a report: the time is read and the
      rest of the line is the principal variation. */
  lemma ParseTimePvTokens(ts: seq<string>, j: nat, info: Info)
    requires j + 3 <= |ts|
    requires ts[j] == "time" && ts[j + 2] == "pv"
    ensures ParseFrom(ts, j, info) == info.(timeMs := Some(Number(ts[j + 1])), pv := Some(ts[j + 3..]))
  {
    var i7 := info.(timeMs := Some(Number(ts[j + 1])));
    assert ParseFrom(ts, j + 2, i7) == i7.(pv := Some(ts[j + 3..]));
    assert ParseFrom(ts, j, info) == ParseFrom(ts, j + 2, i7);
  }

  /** The loop over the tokens of a full search report. */
  lemma ParseInfoTokens(ts: seq<string>)
    requires |ts| >= 17
    requires ts[1] == "depth" && ts[3] == "seldepth" && ts[5] == "multipv" && ts[7] == "score"
    requires ts[10] == "nodes" && ts[12] == "nps" && ts[14] == "time" && ts[16] == "pv"
    ensures ParseFrom(ts, 1, NoInfo) == Info(
      Some(Number(ts[2])), Some(Number(ts[4])), Some(Number(ts[6])),
      Some(InfoScore(Some(ts[8]), Number(ts[9]))),
      Some(Number(ts[11])), Some(Number(ts[13])), Some(Number(ts[15])), Some(ts[17..]))
  {
    ParseHeadTokens(ts);
    ParseTimePvTokens(ts, 14, Info(
      Some(Number(ts[2])), Some(Number(ts[4])), Some(Number(ts[6])),
      Some(InfoScore(Some(ts[8]), Number(ts[9]))),
      Some(Number(ts[11])), Some(Number(ts[13])), None, None));
  }

  /** The tokens the loop reads as keys; every other token is skipped. */
  predicate IsKey(t: string) {
    t == "depth" || t == "seldepth" || t == "multipv" || t == "score"
    || t == "nodes" || t == "nps" || t == "time" || t == "pv"
  }

  /** No token in `parts[i..j]` is a key. */
  predicate NoKeys(parts: seq<string>, i: nat, j: nat)
    requires i <= j <= |parts|
  {
    forall k :: i <= k < j ==> !IsKey(parts[k])
  }

  /** A run of tokens that are not keys (`hashfull`, `tbhits`,
      `upperbound`, `wdl` and their values) is skipped, leaving the fields
      read so far as they are. */
  lemma {:induction false} SkipUnknown(parts: seq<string>, i: nat, j: nat, info: Info)
    requires i <= j <= |parts| && NoKeys(parts, i, j)
    ensures ParseFrom(parts, i, info) == ParseFrom(parts, j, info)
    decreases j - i
  {
    if i < j {
      assert ParseFrom(parts, i, info) == ParseFrom(parts, i + 1, info);
      SkipUnknown(parts, i + 1, j, info);
    }
  }

  /** A key read at `i` overwrites its field: what the field held before
      makes no difference to the result. */
  lemma LaterKeyOverwrites(parts: seq<string>, i: nat, info: Info, n: Option<Num>, sc: Option<InfoScore>)
    requires i < |parts|
    ensures parts[i] == "depth" ==> ParseFrom(parts, i, info.(depth := n)) == ParseFrom(parts, i, info)
    ensures parts[i] == "seldepth" ==> ParseFrom(parts, i, info.(seldepth := n)) == ParseFrom(parts, i, info)
    ensures parts[i] == "multipv" ==> ParseFrom(parts, i, info.(multipv := n)) == ParseFrom(parts, i, info)
    ensures parts[i] == "score" ==> ParseFrom(parts, i, info.(score := sc)) == ParseFrom(parts, i, info)
    ensures parts[i] == "nodes" ==> ParseFrom(parts, i, info.(nodes := n)) == ParseFrom(parts, i, info)
    ensures parts[i] == "nps" ==> ParseFrom(parts, i, info.(nps := n)) == ParseFrom(parts, i, info)
    ensures parts[i] == "time" ==> ParseFrom(parts, i, info.(timeMs := n)) == ParseFrom(parts, i, info)
  {
    if parts[i] == "depth" {
      assert info.(depth := n).(depth := Some(NumAt(parts, i + 1))) == info.(depth := Some(NumAt(parts, i + 1)));
    } else if parts[i] == "seldepth" {
      assert info.(seldepth := n).(seldepth := Some(NumAt(parts, i + 1))) == info.(seldepth := Some(NumAt(parts, i + 1)));
    } else if parts[i] == "multipv" {
      assert info.(multipv := n).(multipv := Some(NumAt(parts, i + 1))) == info.(multipv := Some(NumAt(parts, i + 1)));
    } else if parts[i] == "score" {
      var v := Some(InfoScore(TokenAt(parts, i + 1), NumAt(parts, i + 2)));
      assert info.(score := sc).(score := v) == info.(score := v);
    } else if parts[i] == "nodes" {
      assert info.(nodes := n).(nodes := Some(NumAt(parts, i + 1))) == info.(nodes := Some(NumAt(parts, i + 1)));
    } else if parts[i] == "nps" {
      assert info.(nps := n).(nps := Some(NumAt(parts, i + 1))) == info.(nps := Some(NumAt(parts, i + 1)));
    } else if parts[i] == "time" {
      assert info.(timeMs := n).(timeMs := Some(NumAt(parts, i + 1))) == info.(timeMs := Some(NumAt(parts, i + 1)));
    }
  }

  /** A line that reports `depth` twice keeps the second value. */
  lemma DepthReadTwice(a: string, b: string)
    ensures ParseFrom(["info", "depth", a, "depth", b], 1, NoInfo) == NoInfo.(depth := Some(Number(b)))
  {
    var ts := ["info", "depth", a, "depth", b];
    var i1 := NoInfo.(depth := Some(Number(a)));
    assert ParseFrom(ts, 3, i1) == ParseFrom(ts, 5, i1.(depth := Some(Number(b))));
    assert i1.(depth := Some(Number(b))) == NoInfo.(depth := Some(Number(b)));
  }

  /** A search report with extra tokens the loop does not know between the
      `nps` value and `time`, as engines print `hashfull` and `tbhits`. */
  function ReportWithExtras(depth: int, seldepth: int, multipv: int, score: Score,
                            nodes: int, nps: int, time: int, extra: seq<string>, pv: seq<string>): seq<string>
  {
    var h := InfoHead(depth, seldepth, multipv, score, nodes, nps, time);
    h[..14] + extra + h[14..] + pv
  }

  /** Where the fields of a report with extra tokens lie. */
  lemma ExtrasLayout(h: seq<string>, extra: seq<string>, pv: seq<string>)
    requires |h| == 17
    ensures var ts := h[..14] + extra + h[14..] + pv;
      && |ts| == 17 + |extra| + |pv|
      && (forall k :: 0 <= k < 14 ==> ts[k] == h[k])
      && (forall k :: 0 <= k < |extra| ==> ts[14 + k] == extra[k])
      && ts[14 + |extra|] == h[14] && ts[15 + |extra|] == h[15] && ts[16 + |extra|] == h[16]
      && ts[17 + |extra|..] == pv
  {
    var e := |extra|;
    var ts := h[..14] + extra + h[14..] + pv;
    assert ts == (h[..14] + extra + h[14..]) + pv;
    assert ts[17 + e..] == pv;
  }

  /** A line printed from a head of words with extra words before `time`
      is read back as the numbers of the head's value tokens, its score
      kind, and the variation. */
  lemma ParseExtrasLine(h: seq<string>, extra: seq<string>, pv: seq<string>)
    requires |h| == 17 && h[0] == "info"
    requires h[1] == "depth" && h[3] == "seldepth" && h[5] == "multipv" && h[7] == "score"
    requires h[10] == "nodes" && h[12] == "nps" && h[14] == "time" && h[16] == "pv"
    requires forall k :: 0 <= k < |h| ==> IsMove(h[k])
    requires forall k :: 0 <= k < |extra| ==> IsMove(extra[k]) && !IsKey(extra[k])
    requires forall k :: 0 <= k < |pv| ==> IsMove(pv[k])
    ensures ParseInfoLine(Unwords(h[..14] + extra + h[14..] + pv))
      == Some(Info(Some(Number(h[2])), Some(Number(h[4])), Some(Number(h[6])),
                   Some(InfoScore(Some(h[8]), Number(h[9]))),
                   Some(Number(h[11])), Some(Number(h[13])), Some(Number(h[15])), Some(pv)))
  {
    var ts := h[..14] + extra + h[14..] + pv;
    var e := |extra|;
    ExtrasLayout(h, extra, pv);
    ExtrasAreWords(h, extra, pv);
    LineWords(ts);
    ParseInfoLineOfWords(Unwords(ts), ts);
    ParseExtrasTokens(ts, e);
  }

  /** A report of words with extra words inserted is all words. */
  lemma ExtrasAreWords(h: seq<string>, extra: seq<string>, pv: seq<string>)
    requires |h| == 17
    requires forall k :: 0 <= k < |h| ==> IsMove(h[k])
    requires forall k :: 0 <= k < |extra| ==> IsMove(extra[k])
    requires forall k :: 0 <= k < |pv| ==> IsMove(pv[k])
    ensures var ts := h[..14] + extra + h[14..] + pv;
      forall k :: 0 <= k < |ts| ==> IsMove(ts[k])
  {
    var e := |extra|;
    var ts := h[..14] + extra + h[14..] + pv;
    ExtrasLayout(h, extra, pv);
    forall k | 0 <= k < |ts| ensures IsMove(ts[k]) {
      if k < 14 {
      } else if k < 14 + e {
        assert ts[k] == extra[k - 14];
      } else if k < 17 + e {
        assert ts[k] == h[k - e];
      } else {
        assert ts[k] == ts[17 + e..][k - 17 - e] == pv[k - 17 - e];
      }
    }
  }

  /** The loop over a report with `e` unknown tokens before `time`. */
  lemma ParseExtrasTokens(ts: seq<string>, e: nat)
    requires |ts| >= 17 + e
    requires ts[1] == "depth" && ts[3] == "seldepth" && ts[5] == "multipv" && ts[7] == "score"
    requires ts[10] == "nodes" && ts[12] == "nps"
    requires NoKeys(ts, 14, 14 + e)
    requires ts[14 + e] == "time" && ts[16 + e] == "pv"
    ensures ParseFrom(ts, 1, NoInfo) == Info(
      Some(Number(ts[2])), Some(Number(ts[4])), Some(Number(ts[6])),
      Some(InfoScore(Some(ts[8]), Number(ts[9]))),
      Some(Number(ts[11])), Some(Number(ts[13])), Some(Number(ts[15 + e])), Some(ts[17 + e..]))
  {
    ParseHeadTokens(ts);
    ParseSkipTail(ts, 14, e, Info(
      Some(Number(ts[2])), Some(Number(ts[4])), Some(Number(ts[6])),
      Some(InfoScore(Some(ts[8]), Number(ts[9]))),
      Some(Number(ts[11])), Some(Number(ts[13])), None, None));
  }

  /** Unknown tokens from `i`, then `time` and `pv`. */
  lemma ParseSkipTail(ts: seq<string>, i: nat, e: nat, info: Info)
    requires i + e + 3 <= |ts|
    requires NoKeys(ts, i, i + e)
    requires ts[i + e] == "time" && ts[i + e + 2] == "pv"
    ensures ParseFrom(ts, i, info) == info.(timeMs := Some(Number(ts[i + e + 1])), pv := Some(ts[i + e + 3..]))
  {
    SkipUnknown(ts, i, i + e, info);
    ParseTimePvTokens(ts, i + e, info);
  }

  /** A search report printed with unknown tokens before `time` reads back
      the same fields as the plain report: the extra tokens are skipped. */
  lemma ParseInfoWithExtrasRoundTrip(depth: int, seldepth: int, multipv: int, score: Score,
                                     nodes: int, nps: int, time: int, extra: seq<string>, pv: seq<string>)
    requires forall k :: 0 <= k < |extra| ==> IsMove(extra[k]) && !IsKey(extra[k])
    requires forall k :: 0 <= k < |pv| ==> IsMove(pv[k])
    ensures var r := ParseInfoLine(Unwords(ReportWithExtras(depth, seldepth, multipv, score, nodes, nps, time, extra, pv)));
      && r.Some?
      && r.value.depth == Some(Finite(depth))
      && r.value.seldepth == Some(Finite(seldepth))
      && r.value.multipv == Some(Finite(multipv))
      && ScoreOf(r.value.score) == Some(score)
      && r.value.nodes == Some(Finite(nodes))
      && r.value.nps == Some(Finite(nps))
      && r.value.timeMs == Some(Finite(time))
      && r.value.pv == Some(pv)
  {
    var h := InfoHead(depth, seldepth, multipv, score, nodes, nps, time);
    InfoHeadShape(depth, seldepth, multipv, score, nodes, nps, time);
    ParseExtrasLine(h, extra, pv);
    ReadBackFields(depth, seldepth, multipv, score, nodes, nps, time, pv,
      ParseInfoLine(Unwords(ReportWithExtras(depth, seldepth, multipv, score, nodes, nps, time, extra, pv))).value);
  }

  /** The printed head of a report: its layout, and every token a word. */
  lemma InfoHeadShape(depth: int, seldepth: int, multipv: int, score: Score, nodes: int, nps: int, time: int)
    ensures var h := InfoHead(depth, seldepth, multipv, score, nodes, nps, time);
      && |h| == 17 && h[0] == "info" && (forall k :: 0 <= k < |h| ==> IsMove(h[k]))
      && h[1] == "depth" && h[3] == "seldepth" && h[5] == "multipv" && h[7] == "score"
      && h[10] == "nodes" && h[12] == "nps" && h[14] == "time" && h[16] == "pv"
      && h[2] == IntToString(depth) && h[4] == IntToString(seldepth) && h[6] == IntToString(multipv)
      && h[8] == ScoreKind(score) && h[9] == IntToString(ScoreValue(score))
      && h[11] == IntToString(nodes) && h[13] == IntToString(nps) && h[15] == IntToString(time)
  {
    var h := InfoHead(depth, seldepth, multipv, score, nodes, nps, time);
    NumberIsMove(depth);
    NumberIsMove(seldepth);
    NumberIsMove(multipv);
    NumberIsMove(ScoreValue(score));
    NumberIsMove(nodes);
    NumberIsMove(nps);
    NumberIsMove(time);
    KeysAreMoves();
    HeadOfMoves(IntToString(depth), IntToString(seldepth), IntToString(multipv), ScoreKind(score),
                IntToString(ScoreValue(score)), IntToString(nodes), IntToString(nps), IntToString(time));
    HeadOfAt(IntToString(depth), IntToString(seldepth), IntToString(multipv), ScoreKind(score),
             IntToString(ScoreValue(score)), IntToString(nodes), IntToString(nps), IntToString(time), []);
    assert h + [] == h;
  }

  /** Fields read from printed numbers give the numbers back. */
  lemma ReadBackFields(depth: int, seldepth: int, multipv: int, score: Score,
                       nodes: int, nps: int, time: int, pv: seq<string>, r: Info)
    requires r == Info(Some(Number(IntToString(depth))), Some(Number(IntToString(seldepth))),
      Some(Number(IntToString(multipv))), Some(InfoScore(Some(ScoreKind(score)), Number(IntToString(ScoreValue(score))))),
      Some(Number(IntToString(nodes))), Some(Number(IntToString(nps))), Some(Number(IntToString(time))), Some(pv))
    ensures r.depth == Some(Finite(depth)) && r.seldepth == Some(Finite(seldepth))
    ensures r.multipv == Some(Finite(multipv)) && ScoreOf(r.score) == Some(score)
    ensures r.nodes == Some(Finite(nodes)) && r.nps == Some(Finite(nps))
    ensures r.timeMs == Some(Finite(time)) && r.pv == Some(pv)
  {
    NumberRoundTrip(depth);
    NumberRoundTrip(seldepth);
    NumberRoundTrip(multipv);
    NumberRoundTrip(ScoreValue(score));
    NumberRoundTrip(nodes);
    NumberRoundTrip(nps);
    NumberRoundTrip(time);
  }

}

=== FILE: motifs.dfy ===
/** The motif grouping script (scripts/motifs_group.ts): the three theme
    sets, the classifier, the token list read from the motif file, and the
    grouping of that list. Reading the file and writing the markdown report
    are not modelled. */
module Motifs {
  import opened Text
  import opened Decimal

  datatype Group = Easy | Medium | Hard | Meta | Phase | Uncategorized

  const EasySet: set<string> := {
    "mateIn1", "oneMove",
    "hangingPiece", "trappedPiece",
    "fork", "pin", "skewer",
    "backRankMate", "arabianMate", "bodenMate", "hookMate", "doubleBishopMate",
    "attackingF2F7",
    "advantage", "equality"
  }

  const MediumSet: set<string> := {
    "mateIn2", "mateIn3",
    "discoveredAttack", "deflection", "attraction", "clearance",
    "intermezzo", "interference", "xRayAttack", "doubleCheck",
    "capturingDefender",
    "promotion", "advancedPawn",
    "exposedKing", "kingsideAttack", "queensideAttack"
  }

  const HardSet: set<string> := {
    "zugzwang", "quietMove", "defensiveMove",
    "crushing", "veryLong", "master", "masterVsMaster", "superGM"
  }

  /** `^mateIn(\d+)$`. */
  predicate IsMateInToken(t: string) {
    |t| > 6 && t[..6] == "mateIn" && AllDigits(t[6..])
  }

  /** The number after `mateIn`, as `parseInt` reads a run of digits. */
  function MateInValue(t: string): nat
    requires IsMateInToken(t)
  {
    DigitsToNat(t[6..])
  }

  /** The difficulty the `mateIn<n>` rule gives. */
  function MateDifficulty(n: nat): Group {
    if n <= 1 then Easy else if n <= 3 then Medium else Hard
  }

  /** `^(queen|rook|bishop|knight|pawn)Endgame$` with the `i` flag. */
  predicate IsPieceEndgame(t: string) {
    var l := Lower(t);
    l == "queenendgame" || l == "rookendgame" || l == "bishopendgame" || l == "knightendgame" || l == "pawnendgame"
  }

  /** `classify`: the first rule that applies, in source order. */
  function Classify(token: string): (g: Group)
    ensures token == "" ==> g == Uncategorized
    ensures g == Hard ==> token == "zugzwang" || IsMateInToken(token)
    ensures g == Phase ==> token !in EasySet && token !in MediumSet && token !in HardSet
  {
    if token == "" then Uncategorized
    else if token in EasySet then Easy
    else if token in MediumSet then Medium
    else if token in HardSet then (if token == "zugzwang" then Hard else Meta)
    else if IsMateInToken(token) then MateDifficulty(MateInValue(token))
    else if token == "opening" || token == "middlegame" || token == "endgame" then Phase
    else if IsPieceEndgame(token) || token == "queenRookEndgame" then Phase
    else if token == "long" || token == "veryLong" || token == "master" || token == "masterVsMaster" || token == "superGM" then Meta
    else Uncategorized
  }

  /** The listed themes are classified by the first set that lists them. */
  lemma ListedRules(t: string)
    requires t != ""
    ensures t in EasySet ==> Classify(t) == Easy
    ensures t !in EasySet && t in MediumSet ==> Classify(t) == Medium
    ensures t !in EasySet && t !in MediumSet && t in HardSet ==> Classify(t) == (if t == "zugzwang" then Hard else Meta)
  {
  }

  /** "long" is a meta theme though no set lists it. */
  lemma LongIsMeta(t: string)
    requires t == "long"
    ensures Classify(t) == Meta
  {
    assert t !in EasySet && t !in MediumSet && t !in HardSet;
  }

  /** A token falls through to Uncategorized exactly when it is empty or no
      rule applies: not listed, not `mateIn<n>`, not a phase name or piece
      endgame, and not one of the meta names. */
  lemma UncategorizedFallback(t: string)
    ensures Classify(t) == Uncategorized <==>
      t == "" ||
      (&& t !in EasySet && t !in MediumSet && t !in HardSet
       && !IsMateInToken(t)
       && t != "opening" && t != "middlegame" && t != "endgame"
       && !IsPieceEndgame(t) && t != "queenRookEndgame"
       && t != "long" && t != "veryLong" && t != "master" && t != "masterVsMaster" && t != "superGM")
  {
    if IsMateInToken(t) && t !in EasySet && t !in MediumSet && t !in HardSet {
      assert MateDifficulty(MateInValue(t)) != Uncategorized;
    }
  }

  /** The `mateIn` tokens the sets list agree with the numeric rule, so
      every `mateIn<n>` gets the difficulty of its number. */
  lemma MateInListedAgree()
    ensures Classify("mateIn1") == MateDifficulty(1)
    ensures Classify("mateIn2") == MateDifficulty(2)
    ensures Classify("mateIn3") == MateDifficulty(3)
  {
    assert "mateIn1" in EasySet;
    assert "mateIn2" !in EasySet && "mateIn2" in MediumSet;
    assert "mateIn3" !in EasySet && "mateIn3" in MediumSet;
  }

  /** The only listed themes of the `mateIn<digits>` form are mateIn1 to
      mateIn3. */
  lemma ListedMateTokens(t: string)
    requires t in EasySet || t in MediumSet || t in HardSet
    requires IsMateInToken(t)
    ensures t == "mateIn1" || t == "mateIn2" || t == "mateIn3"
  {
    MatePrefix(t);
    if t in EasySet {
      EasyMate(t);
    } else if t in MediumSet {
      MediumMate(t);
    } else {
      HardMate(t);
    }
  }

  lemma MatePrefix(t: string)
    requires IsMateInToken(t)
    ensures t[0] == 'm' && t[2] == 't'
  {
    assert t[..6] == "mateIn";
  }

  lemma EasyMate(t: string)
    requires t in EasySet && t[0] == 'm' && t[2] == 't'
    ensures t == "mateIn1"
  {
  }

  lemma MediumMate(t: string)
    requires t in MediumSet && t[0] == 'm' && t[2] == 't'
    ensures t == "mateIn2" || t == "mateIn3"
  {
  }

  lemma HardMate(t: string)
    requires t in HardSet
    ensures t[0] != 'm' || t[2] != 't'
  {
  }

  /** Every `mateIn<n>` token, listed or not, gets the difficulty of its
      number: easy up to 1, medium up to 3, hard beyond. */
  lemma MateInRule(n: nat)
    ensures IsMateInToken("mateIn" + NatToString(n))
    ensures Classify("mateIn" + NatToString(n)) == MateDifficulty(n)
  {
    MateInOf(n);
    if n == 1 || n == 2 || n == 3 {
      MateInListedAgree();
    } else {
      MateInUnlisted(n);
    }
  }

  /** "mateIn" and a printed number is a mateIn token of that number; for
      1 to 3 it is the listed theme. */
  lemma MateInOf(n: nat)
    ensures IsMateInToken("mateIn" + NatToString(n))
    ensures MateInValue("mateIn" + NatToString(n)) == n
    ensures n == 1 ==> "mateIn" + NatToString(n) == "mateIn1"
    ensures n == 2 ==> "mateIn" + NatToString(n) == "mateIn2"
    ensures n == 3 ==> "mateIn" + NatToString(n) == "mateIn3"
  {
    var d := NatToString(n);
    var t := "mateIn" + d;
    assert t[..6] == "mateIn";
    assert t[6..] == d;
    NatToStringRoundTrip(n);
    if n == 1 || n == 2 || n == 3 {
      assert d == [DigitChar(n)];
    }
  }

  /** No listed theme is `mateIn<n>` for n other than 1, 2 and 3. */
  lemma MateInUnlisted(n: nat)
    requires n != 1 && n != 2 && n != 3
    ensures "mateIn" + NatToString(n) !in EasySet
    ensures "mateIn" + NatToString(n) !in MediumSet
    ensures "mateIn" + NatToString(n) !in HardSet
  {
    var d := NatToString(n);
    var t := "mateIn" + d;
    assert t[..6] == "mateIn" && t[6..] == d;
    NatToStringRoundTrip(n);
    if t in EasySet || t in MediumSet || t in HardSet {
      ListedMateTokens(t);
    }
  }

  /** Every member of the hard set other than "zugzwang" is a meta
      amplifier. */
  lemma HardSetSplit(t: string)
    requires t in HardSet
    ensures Classify(t) == (if t == "zugzwang" then Hard else Meta)
  {
    assert t !in EasySet && t !in MediumSet;
  }

  /** The theme names of the game phases. */
  lemma PhaseNames()
    ensures Classify("opening") == Phase
    ensures Classify("middlegame") == Phase
    ensures Classify("endgame") == Phase
    ensures Classify("queenRookEndgame") == Phase
  {
    PhaseUnlisted("opening");
    PhaseUnlisted("middlegame");
    PhaseUnlisted("endgame");
    PhaseUnlisted("queenRookEndgame");
  }

  /** A theme ending in "ning" or "game" is in none of the three sets. */
  lemma PhaseUnlisted(t: string)
    requires PhaseEnding(t)
    ensures t !in EasySet && t !in MediumSet && t !in HardSet
  {
    UnlistedEasy(t);
    UnlistedMedium(t);
    UnlistedHard(t);
  }

  /** The word ends in "ning" or in "game". */
  predicate PhaseEnding(t: string) {
    |t| >= 4
    && ((t[|t| - 4] == 'n' && t[|t| - 3] == 'i' && t[|t| - 2] == 'n' && t[|t| - 1] == 'g')
        || (t[|t| - 4] == 'g' && t[|t| - 3] == 'a' && t[|t| - 2] == 'm' && t[|t| - 1] == 'e'))
  }

  lemma UnlistedEasy(t: string)
    requires PhaseEnding(t)
    ensures t !in EasySet
  {
  }

  lemma UnlistedMedium(t: string)
    requires PhaseEnding(t)
    ensures t !in MediumSet
  {
  }

  lemma UnlistedHard(t: string)
    requires PhaseEnding(t)
    ensures t !in HardSet
  {
  }

  /** The piece endgames, in any letter case, are phases. */
  lemma PieceEndgamePhase(t: string)
    requires IsPieceEndgame(t)
    ensures Classify(t) == Phase
  {
    var l := Lower(t);
    assert |t| >= 11;
    assert l[|l| - 4] == 'g' && l[|l| - 5] == 'd' && l[|l| - 6] == 'n';
    assert LowerAscii(t[|t| - 4]) == 'g' && LowerAscii(t[|t| - 5]) == 'd' && LowerAscii(t[|t| - 6]) == 'n';
    NdgEasy(t);
    NdgMedium(t);
    NdgHard(t);
  }

  /** "nd" before the last four letters, in any case. */
  predicate NdEnding(t: string) {
    |t| >= 6 && LowerAscii(t[|t| - 6]) == 'n' && LowerAscii(t[|t| - 5]) == 'd'
  }

  lemma NdgEasy(t: string)
    requires NdEnding(t)
    ensures t !in EasySet
  {
  }

  lemma NdgMedium(t: string)
    requires NdEnding(t)
    ensures t !in MediumSet
  {
  }

  lemma NdgHard(t: string)
    requires NdEnding(t)
    ensures t !in HardSet
  {
  }

  /** The separators of the motif file: commas and white space. */
  predicate IsTokenSep(c: char) {
    c == ',' || IsSpace(c)
  }

  /** Inserts a token into a strictly sorted list unless it is already
      there. */
  function InsertSorted(xs: seq<string>, t: string): (r: seq<string>)
    requires StrictlySorted(xs)
    ensures StrictlySorted(r)
    ensures Elems(r) == Elems(xs) + {t}
    decreases |xs|
  {
    if |xs| == 0 then [t]
    else if t == xs[0] then xs
    else if Less(t, xs[0]) then
      LessBelowAll(t, xs);
      [t] + xs
    else
      LessTotal(t, xs[0]);
      var rest := InsertSorted(xs[1..], t);
      assert Elems(xs) == {xs[0]} + Elems(xs[1..]) by {
        assert xs == [xs[0]] + xs[1..];
      }
      HeadBelowAll(xs, t, rest);
      assert Elems([xs[0]] + rest) == {xs[0]} + Elems(rest);
      [xs[0]] + rest
  }

  /** The head of a sorted list stays below everything of its tail with
      a larger token added. */
  lemma HeadBelowAll(xs: seq<string>, t: string, rest: seq<string>)
    requires StrictlySorted(xs) && |xs| > 0 && Less(xs[0], t)
    requires Elems(rest) == Elems(xs[1..]) + {t}
    ensures StrictlySorted([xs[0]] + rest) <== StrictlySorted(rest)
  {
    forall k | 0 <= k < |rest| ensures Less(xs[0], rest[k]) {
      assert rest[k] in Elems(rest);
      if rest[k] != t {
        var j :| 0 <= j < |xs[1..]| && xs[1..][j] == rest[k];
        assert xs[j + 1] == rest[k];
      }
    }
  }

  /** A token below the head of a sorted list is below all of it. */
  lemma LessBelowAll(t: string, xs: seq<string>)
    requires StrictlySorted(xs) && |xs| > 0 && Less(t, xs[0])
    ensures StrictlySorted([t] + xs)
  {
    forall k | 0 < k < |xs| ensures Less(t, xs[k]) {
      LessTransitive(t, xs[0], xs[k]);
    }
  }

  /** `uniqueTokensFromFile`: the tokens between separator runs, each kept
      once, in increasing order. */
  method UniqueTokens(text: string) returns (r: seq<string>)
    ensures StrictlySorted(r)
    ensures Elems(r) == Elems(Tokens(text, IsTokenSep))
    ensures forall i :: 0 <= i < |r| ==> |r[i]| > 0
  {
    var raw := Tokens(text, IsTokenSep);
    r := [];
    var i := 0;
    while i < |raw|
      invariant 0 <= i <= |raw|
      invariant StrictlySorted(r)
      invariant Elems(r) == Elems(raw[..i])
    {
      assert Elems(raw[..i + 1]) == Elems(raw[..i]) + {raw[i]} by {
        assert raw[..i + 1] == raw[..i] + [raw[i]];
      }
      r := InsertSorted(r, raw[i]);
      i := i + 1;
    }
    assert raw[..|raw|] == raw;
    forall k | 0 <= k < |r| ensures |r[k]| > 0 {
      assert r[k] in Elems(raw);
    }
  }

  /** Each group holds exactly the tokens of `tokens` whose class under
      `cls` it is. */
  ghost predicate GroupedBy(groups: map<Group, set<string>>, tokens: seq<string>, cls: string -> Group) {
    && (forall g :: g in groups)
    && forall g, t :: g in groups ==> (t in groups[g] <==> t in tokens && cls(t) == g)
  }

  /** The grouping loop of `run`: each token goes to the group its class
      names. */
  method GroupTokens(tokens: seq<string>) returns (groups: map<Group, set<string>>)
    ensures forall g :: g in groups
    ensures forall g, t :: g in groups ==> (t in groups[g] <==> t in tokens && Classify(t) == g)
  {
    groups := map[Easy := {}, Medium := {}, Hard := {}, Meta := {}, Phase := {}, Uncategorized := {}];
    EmptyGrouped(groups, Classify);
    var i := 0;
    while i < |tokens|
      invariant 0 <= i <= |tokens|
      invariant GroupedBy(groups, tokens[..i], Classify)
    {
      var t := tokens[i];
      var g := Classify(t);
      assert tokens[..i + 1] == tokens[..i] + [t];
      AddToGroup(groups, tokens[..i], t, Classify);
      groups := groups[g := groups[g] + {t}];
      i := i + 1;
    }
    assert tokens[..|tokens|] == tokens;
  }

  /** Six empty groups group the empty list. */
  lemma EmptyGrouped(groups: map<Group, set<string>>, cls: string -> Group)
    requires groups == map[Easy := {}, Medium := {}, Hard := {}, Meta := {}, Phase := {}, Uncategorized := {}]
    ensures GroupedBy(groups, [], cls)
  {
    forall g ensures g in groups {
      match g
      case Easy =>
      case Medium =>
      case Hard =>
      case Meta =>
      case Phase =>
      case Uncategorized =>
    }
  }

  /** Adding a token to its class's group extends the grouping by it. */
  lemma AddToGroup(groups: map<Group, set<string>>, prefix: seq<string>, t: string, cls: string -> Group)
    requires GroupedBy(groups, prefix, cls)
    ensures GroupedBy(groups[cls(t) := groups[cls(t)] + {t}], prefix + [t], cls)
  {
    var g := cls(t);
    var groups' := groups[g := groups[g] + {t}];
    forall h, u | h in groups'
      ensures u in groups'[h] <==> u in prefix + [t] && cls(u) == h
    {
      assert u in prefix + [t] <==> u in prefix || u == t;
    }
  }

  /** Every token lands in exactly one group. */
  lemma ExactlyOneGroup(tokens: seq<string>, groups: map<Group, set<string>>, t: string)
    requires forall g :: g in groups
    requires forall g, u :: g in groups ==> (u in groups[g] <==> u in tokens && Classify(u) == g)
    requires t in tokens
    ensures t in groups[Classify(t)]
    ensures forall g :: g != Classify(t) ==> t !in groups[g]
  {
  }
}

=== FILE: move_uci.dfy ===
/** `moveToUci` of the latest-report details route
    (src/app/api/report/latest/details/route.ts): a board move written as
    from-square, to-square and an optional promotion letter. Squares are
    numbered 0..63 from a1, file-major within a rank, as the chess library
    numbers them. */
module MoveUci {
  import opened Wrappers

  type Square = x: int | 0 <= x < 64

  datatype Role = Pawn | Knight | Bishop | Rook | Queen | King

  /** A normal move, or a piece drop (which has no UCI form here). */
  datatype Move = Normal(from: Square, to: Square, promotion: Option<Role>) | DropMove(role: Role, at: Square)

  const FileNames: string := "abcdefgh"
  const RankNames: string := "12345678"

  /** `squareFile`, `squareRank` and the two name tables. */
  function SquareName(s: Square): (r: string)
    ensures |r| == 2 && 'a' <= r[0] <= 'h' && '1' <= r[1] <= '8'
  {
    [FileNames[s % 8], RankNames[s / 8]]
  }

  /** The promotion letter: knight, bishop and rook by their letters, any
      other role as a queen. */
  function PromoLetter(r: Role): (c: char)
    ensures c in "nbrq"
    ensures r !in {Knight, Bishop, Rook} ==> c == 'q'
  {
    if r == Knight then 'n' else if r == Bishop then 'b' else if r == Rook then 'r' else 'q'
  }

  /** `moveToUci`: null for a drop; otherwise the two square names and,
      for a promotion, its letter. */
  function MoveToUci(m: Move): (r: Option<string>)
    ensures r.None? <==> m.DropMove?
    ensures r.Some? ==> |r.value| == (if m.promotion.Some? then 5 else 4)
    ensures r.Some? ==> r.value[..2] == SquareName(m.from) && r.value[2..4] == SquareName(m.to)
  {
    if m.DropMove? then None
    else
      var base := SquareName(m.from) + SquareName(m.to);
      if m.promotion.Some? then Some(base + [PromoLetter(m.promotion.value)]) else Some(base)
  }

  /** The square a two-letter name stands for. */
  function ParseSquare(s: string): Option<Square>
    requires |s| == 2
  {
    if 'a' <= s[0] <= 'h' && '1' <= s[1] <= '8' then
      Some((s[1] as int - '1' as int) * 8 + (s[0] as int - 'a' as int))
    else None
  }

  function ParsePromo(c: char): Option<Role> {
    if c == 'n' then Some(Knight) else if c == 'b' then Some(Bishop)
    else if c == 'r' then Some(Rook) else if c == 'q' then Some(Queen) else None
  }

  /** Reads a UCI move text back into a normal move. */
  function ParseUci(u: string): Option<Move> {
    if |u| != 4 && |u| != 5 then None
    else
      var from := ParseSquare(u[..2]);
      var to := ParseSquare(u[2..4]);
      if from.None? || to.None? then None
      else if |u| == 4 then Some(Normal(from.value, to.value, None))
      else
        var p := ParsePromo(u[4]);
        if p.None? then None else Some(Normal(from.value, to.value, p))
  }

  lemma SquareRoundTrip(s: Square)
    ensures ParseSquare(SquareName(s)) == Some(s)
  {
    var n := SquareName(s);
    assert n[0] as int - 'a' as int == s % 8 by {
      assert FileNames[s % 8] as int == 'a' as int + s % 8;
    }
    assert n[1] as int - '1' as int == s / 8 by {
      assert RankNames[s / 8] as int == '1' as int + s / 8;
    }
  }

  /** A move that promotes to a knight, bishop, rook or queen, or not at
      all. */
  predicate StandardPromotion(m: Move) {
    m.Normal? && (m.promotion.None? || m.promotion.value in {Knight, Bishop, Rook, Queen})
  }

  /** The UCI text of a normal move reads back as the same move. */
  lemma UciRoundTrip(m: Move)
    requires StandardPromotion(m)
    ensures ParseUci(MoveToUci(m).value) == Some(m)
  {
    SquareRoundTrip(m.from);
    SquareRoundTrip(m.to);
  }

  /** Different normal moves never share a UCI text, so the played-move
      search is restricted to exactly the move that was played. */
  lemma UciInjective(a: Move, b: Move)
    requires StandardPromotion(a) && StandardPromotion(b)
    requires MoveToUci(a) == MoveToUci(b)
    ensures a == b
  {
    UciRoundTrip(a);
    UciRoundTrip(b);
  }

  /** A promotion to a king or pawn, which the library can represent, is
      written as a queen promotion. */
  lemma OddPromotionWrittenAsQueen(from: Square, to: Square, r: Role)
    requires r == King || r == Pawn
    ensures MoveToUci(Normal(from, to, Some(r))) == MoveToUci(Normal(from, to, Some(Queen)))
  {
  }
}

=== FILE: opening.dfy ===
/** Opening-book lookup (src/lib/opening.ts, `getBookMoves`) over a given
    book: the first entry for the exact position, with its move weights
    turned into rounded percentages of their total. Loading the book file
    is not modelled; the book is a parameter. */
module Opening {
  import opened Wrappers
  import opened Decimal

  datatype BookMove = BookMove(uci: string, weight: real)

  datatype BookEntry = BookEntry(eco: string, name: string, plies: int, fen: string, moves: seq<BookMove>)

  datatype BookMoves = BookMoves(eco: string, name: string, moves: seq<BookMove>)

  /** `book.find(e => e.fen === fen)`: the index of the first entry for the
      position. */
  function FindFen(book: seq<BookEntry>, fen: string): (r: Option<nat>)
    ensures r.None? <==> forall i :: 0 <= i < |book| ==> book[i].fen != fen
    ensures r.Some? ==> r.value < |book| && book[r.value].fen == fen
    ensures r.Some? ==> forall j :: 0 <= j < r.value ==> book[j].fen != fen
  {
    if |book| == 0 then None
    else if book[0].fen == fen then Some(0)
    else
      var rest := FindFen(book[1..], fen);
      assert forall i :: 1 <= i < |book| ==> book[i] == book[1..][i - 1];
      if rest.None? then None else Some(rest.value + 1)
  }

  /** The sum of the weights. */
  function TotalWeight(ms: seq<BookMove>): real {
    if |ms| == 0 then 0.0 else TotalWeight(ms[..|ms| - 1]) + ms[|ms| - 1].weight
  }

  /** A total of zero becomes 1, so the division is always defined. */
  function Divisor(ms: seq<BookMove>): (d: real)
    ensures d != 0.0
    ensures TotalWeight(ms) != 0.0 ==> d == TotalWeight(ms)
  {
    var t := TotalWeight(ms);
    if t == 0.0 then 1.0 else t
  }

  /** One weight as a rounded percentage of the total. */
  function Percent(w: real, total: real): int
    requires total != 0.0
  {
    Round((w / total) * 100.0)
  }

  /** Entry `i` is the first for the position. */
  predicate FirstFor(book: seq<BookEntry>, fen: string, i: nat) {
    i < |book| && book[i].fen == fen && forall j :: 0 <= j < i ==> book[j].fen != fen
  }

  /** The answer carries the entry's code and name and its moves in order,
      each weight the rounded percentage of the total. */
  predicate NormalizedFrom(r: BookMoves, e: BookEntry) {
    r.eco == e.eco && r.name == e.name && |r.moves| == |e.moves|
    && forall k :: 0 <= k < |r.moves| ==>
      r.moves[k].uci == e.moves[k].uci && r.moves[k].weight == Percent(e.moves[k].weight, Divisor(e.moves)) as real
  }

  /** `getBookMoves`: None when no entry has the position; otherwise the
      first such entry's opening code and name, and its moves in order with
      percentage weights. */
  function GetBookMoves(book: seq<BookEntry>, fen: string): (r: Option<BookMoves>)
    ensures r.None? <==> forall i :: 0 <= i < |book| ==> book[i].fen != fen
    ensures r.Some? ==> exists i: nat :: FirstFor(book, fen, i) && NormalizedFrom(r.value, book[i])
  {
    var found := FindFen(book, fen);
    if found.None? then None
    else
      var e := book[found.value];
      var total := Divisor(e.moves);
      var moves := seq(|e.moves|, k requires 0 <= k < |e.moves| =>
        BookMove(e.moves[k].uci, Percent(e.moves[k].weight, total) as real));
      Some(BookMoves(e.eco, e.name, moves))
  }

  /** With no negative weights, no weight exceeds the total. */
  lemma {:induction false} WeightWithinTotal(ms: seq<BookMove>, k: nat)
    requires forall i :: 0 <= i < |ms| ==> ms[i].weight >= 0.0
    requires k < |ms|
    ensures 0.0 <= ms[k].weight <= TotalWeight(ms)
    decreases |ms|
  {
    var init := ms[..|ms| - 1];
    if k < |ms| - 1 {
      WeightWithinTotal(init, k);
      TotalNonNegative(init);
    } else {
      TotalNonNegative(init);
    }
  }

  lemma {:induction false} TotalNonNegative(ms: seq<BookMove>)
    requires forall i :: 0 <= i < |ms| ==> ms[i].weight >= 0.0
    ensures TotalWeight(ms) >= 0.0
    decreases |ms|
  {
    if |ms| > 0 {
      TotalNonNegative(ms[..|ms| - 1]);
    }
  }

  /** With no negative weights, every percentage lies between 0 and 100. */
  lemma PercentInRange(ms: seq<BookMove>, k: nat)
    requires forall i :: 0 <= i < |ms| ==> ms[i].weight >= 0.0
    requires k < |ms|
    ensures 0 <= Percent(ms[k].weight, Divisor(ms)) <= 100
  {
    WeightWithinTotal(ms, k);
    var w := ms[k].weight;
    var t := Divisor(ms);
    if TotalWeight(ms) == 0.0 {
      assert w == 0.0;
    } else {
      FractionAtMostOne(w, t);
    }
  }

  lemma FractionAtMostOne(w: real, t: real)
    requires 0.0 <= w <= t && t > 0.0
    ensures 0.0 <= w / t <= 1.0
  {
    var q := w / t;
    assert q * t == w;
  }
}

=== FILE: pgn_stream.dfy ===
/** The PGN game splitter of src/lib/lichessStream.ts: the header-line
    parser, the header filter, and the line-driven buffer that cuts a stream
    of PGN lines into game texts, taken as a pure function from the lines to
    the yielded games. Decompression and line reading are not modelled. */
module PgnStream {
  import opened Wrappers
  import opened Text
  import opened Decimal

  /** `\w`: ASCII letters, digits and the underscore. */
  predicate IsWordChar(c: char) {
    ('a' <= c <= 'z') || ('A' <= c <= 'Z') || ('0' <= c <= '9') || c == '_'
  }

  /** Length of the run of word characters at the front. */
  function WordRun(s: string): (n: nat)
    ensures n <= |s|
    ensures forall i :: 0 <= i < n ==> IsWordChar(s[i])
    ensures n < |s| ==> !IsWordChar(s[n])
  {
    if |s| == 0 || !IsWordChar(s[0]) then 0 else 1 + WordRun(s[1..])
  }

  /** Length of the run of white space at the front. */
  function SpaceRun(s: string): (n: nat)
    ensures n <= |s|
    ensures forall i :: 0 <= i < n ==> IsSpace(s[i])
    ensures n < |s| ==> !IsSpace(s[n])
  {
    if |s| == 0 || !IsSpace(s[0]) then 0 else 1 + SpaceRun(s[1..])
  }

  lemma {:induction false} WordRunOf(key: string, t: string)
    requires forall i :: 0 <= i < |key| ==> IsWordChar(key[i])
    requires |t| == 0 || !IsWordChar(t[0])
    ensures WordRun(key + t) == |key|
  {
    if |key| > 0 {
      assert (key + t)[1..] == key[1..] + t;
      WordRunOf(key[1..], t);
    }
  }

  lemma {:induction false} SpaceRunOf(ws: string, t: string)
    requires forall i :: 0 <= i < |ws| ==> IsSpace(ws[i])
    requires |t| == 0 || !IsSpace(t[0])
    ensures SpaceRun(ws + t) == |ws|
  {
    if |ws| > 0 {
      assert (ws + t)[1..] == ws[1..] + t;
      SpaceRunOf(ws[1..], t);
    }
  }

  predicate IsWord(k: string) {
    |k| > 0 && forall i :: 0 <= i < |k| ==> IsWordChar(k[i])
  }

  predicate IsSpaces(w: string) {
    |w| > 0 && forall i :: 0 <= i < |w| ==> IsSpace(w[i])
  }

  /** The header line `[key<ws>"value"]`. */
  function HeaderText(key: string, ws: string, value: string): string {
    "[" + key + ws + "\"" + value + "\"]"
  }

  /** The match of `^\[(\w+)\s+"([\s\S]*?)"\]$`: the key, the white space
      after it and the value, which runs from the first quote to the final
      `"]`. */
  function HeaderParts(line: string): (r: Option<(string, string, string)>)
    ensures r.Some? ==> IsWord(r.value.0) && IsSpaces(r.value.1)
  {
    if |line| == 0 || line[0] != '[' then None
    else
      var body := line[1..];
      var k := WordRun(body);
      if k == 0 then None
      else
        var rest := body[k..];
        var w := SpaceRun(rest);
        if w == 0 then None
        else
          var tail := rest[w..];
          if |tail| >= 3 && tail[0] == '"' && tail[|tail| - 2] == '"' && tail[|tail| - 1] == ']' then
            Some((body[..k], rest[..w], tail[1..|tail| - 2]))
          else None
  }

  /** A matched line is exactly the header text of its parts. */
  lemma HeaderPartsSound(line: string)
    requires HeaderParts(line).Some?
    ensures var p := HeaderParts(line).value; line == HeaderText(p.0, p.1, p.2)
  {
    var body := line[1..];
    var k := WordRun(body);
    var rest := body[k..];
    var w := SpaceRun(rest);
    var tail := rest[w..];
    Reassemble(line, body[..k], rest[..w], tail[1..|tail| - 2]);
  }

  lemma Reassemble(line: string, key: string, ws: string, value: string)
    requires |line| > |key| + |ws| && line[0] == '['
    requires line[1..][..|key|] == key
    requires line[1..][|key|..][..|ws|] == ws
    requires line[1..][|key|..][|ws|..] == "\"" + value + "\"]"
    ensures line == HeaderText(key, ws, value)
  {
    var tail := "\"" + value + "\"]";
    HeaderTextBody(key, ws, value, tail);
    var body := line[1..];
    var rest := body[|key|..];
    assert rest == ws + tail by {
      SplitAt(rest, |ws|);
    }
    assert body == key + rest by {
      SplitAt(body, |key|);
    }
    SameHeadTail(line, HeaderText(key, ws, value));
  }

  lemma SplitAt(s: string, n: nat)
    requires n <= |s|
    ensures s == s[..n] + s[n..]
  {
  }

  lemma SameHeadTail(a: string, b: string)
    requires |a| > 0 && |b| > 0 && a[0] == b[0] && a[1..] == b[1..]
    ensures a == b
  {
    assert a == [a[0]] + a[1..];
    assert b == [b[0]] + b[1..];
  }

  /** Every line of the header shape is matched, with its own parts. */
  lemma HeaderPartsOf(key: string, ws: string, value: string)
    requires IsWord(key) && IsSpaces(ws)
    ensures HeaderParts(HeaderText(key, ws, value)) == Some((key, ws, value))
  {
    var tail := "\"" + value + "\"]";
    HeaderTextBody(key, ws, value, tail);
    BodyRuns(key, ws, tail);
    assert tail[1..|tail| - 2] == value;
  }

  lemma HeaderTextBody(key: string, ws: string, value: string, tail: string)
    requires tail == "\"" + value + "\"]"
    ensures HeaderText(key, ws, value)[0] == '['
    ensures HeaderText(key, ws, value)[1..] == key + (ws + tail)
  {
  }

  /** The word run and the white-space run of a header body. */
  lemma BodyRuns(key: string, ws: string, tail: string)
    requires IsWord(key) && IsSpaces(ws)
    requires |tail| > 0 && tail[0] == '"'
    ensures WordRun(key + (ws + tail)) == |key|
    ensures (key + (ws + tail))[..|key|] == key && (key + (ws + tail))[|key|..] == ws + tail
    ensures SpaceRun(ws + tail) == |ws|
    ensures (ws + tail)[..|ws|] == ws && (ws + tail)[|ws|..] == tail
  {
    WordRunOf(key, ws + tail);
    SpaceRunOf(ws, tail);
  }

  /** `parseHeaderLine`: the key and the value of a header line. */
  function ParseHeaderLine(line: string): (r: Option<(string, string)>)
    ensures r.Some? <==> HeaderParts(line).Some?
  {
    var p := HeaderParts(line);
    if p.None? then None else Some((p.value.0, p.value.2))
  }

  /** Reading a header line back gives its key and value, whatever white
      space separates them. */
  lemma ParseHeaderRoundTrip(key: string, ws: string, value: string)
    requires IsWord(key) && IsSpaces(ws)
    ensures ParseHeaderLine(HeaderText(key, ws, value)) == Some((key, value))
  {
    HeaderPartsOf(key, ws, value);
  }

  type HeaderMap = map<string, string>

  /** The settings of `PgnFilter`; the time-control regular expression is
      an abstract predicate on the header text. */
  datatype PgnFilter = PgnFilter(
    ratedOnly: bool,
    variant: Option<string>,
    minElo: Option<real>,
    maxElo: Option<real>,
    timeControl: Option<string -> bool>)

  /** `h[k] || d`: the header value when present and non-empty. */
  function HeaderOr(h: HeaderMap, k: string, d: string): (r: string)
    ensures k in h && h[k] != "" ==> r == h[k]
    ensures !(k in h && h[k] != "") ==> r == d
  {
    if k in h && h[k] != "" then h[k] else d
  }

  /** `toInt`: not a number for an absent, empty or "?" rating, `parseInt`
      otherwise. */
  function Rating(h: HeaderMap, k: string): (r: Num)
    ensures !(k in h) || h[k] == "" || h[k] == "?" ==> r == NaN
  {
    if k in h && h[k] != "" && h[k] != "?" then ParseInt(h[k]) else NaN
  }

  predicate RatedOk(h: HeaderMap, f: PgnFilter) {
    !f.ratedOnly || ContainsIgnoreCase(HeaderOr(h, "Event", ""), "rated")
  }

  predicate VariantOk(h: HeaderMap, f: PgnFilter) {
    f.variant.None? || f.variant.value == "" || HeaderOr(h, "Variant", "Standard") == f.variant.value
  }

  predicate TimeControlOk(h: HeaderMap, f: PgnFilter) {
    f.timeControl.None? || f.timeControl.value(HeaderOr(h, "TimeControl", "-"))
  }

  predicate Below(e: Num, bound: real) {
    e.Finite? && (e.v as real) < bound
  }

  predicate Above(e: Num, bound: real) {
    e.Finite? && (e.v as real) > bound
  }

  /** Both players rated, and both beyond the bound on the same side. */
  predicate EloRejected(h: HeaderMap, f: PgnFilter) {
    var we := Rating(h, "WhiteElo");
    var be := Rating(h, "BlackElo");
    || (f.minElo.Some? && Below(we, f.minElo.value) && Below(be, f.minElo.value))
    || (f.maxElo.Some? && Above(we, f.maxElo.value) && Above(be, f.maxElo.value))
  }

  /** `headersPassFilter`, its early exits in source order. */
  function HeadersPassFilter(h: HeaderMap, f: Option<PgnFilter>): (r: bool)
    ensures f.None? ==> r
    ensures f.Some? ==>
      (r <==> VariantOk(h, f.value) && RatedOk(h, f.value) && TimeControlOk(h, f.value) && !EloRejected(h, f.value))
  {
    if f.None? then true
    else
      var g := f.value;
      if g.variant.Some? && g.variant.value != "" && HeaderOr(h, "Variant", "Standard") != g.variant.value then false
      else if g.ratedOnly && !ContainsIgnoreCase(HeaderOr(h, "Event", ""), "rated") then false
      else if g.timeControl.Some? && !g.timeControl.value(HeaderOr(h, "TimeControl", "-")) then false
      else
        var we := Rating(h, "WhiteElo");
        var be := Rating(h, "BlackElo");
        var hasAny := we.Finite? || be.Finite?;
        if g.minElo.Some? && hasAny && Below(we, g.minElo.value) && Below(be, g.minElo.value) then false
        else if g.maxElo.Some? && hasAny && Above(we, g.maxElo.value) && Above(be, g.maxElo.value) then false
        else true
  }

  /** A game with at most one usable rating never fails the rating bounds:
      only the variant, event and time-control checks apply. */
  lemma OneRatingNeverRejected(h: HeaderMap, f: PgnFilter)
    requires Rating(h, "WhiteElo").NaN? || Rating(h, "BlackElo").NaN?
    ensures HeadersPassFilter(h, Some(f)) <==> VariantOk(h, f) && RatedOk(h, f) && TimeControlOk(h, f)
  {
  }

  /** The splitter's state: the buffered lines, the headers seen so far,
      and the two flags of the source. `skipping` marks a rejected game and
      is used only by the corrected splitter. */
  datatype Splitter = Splitter(buf: seq<string>, headers: HeaderMap, inGame: bool, inHeader: bool, skipping: bool)

  const Start := Splitter([], map[], false, false, false)

  /** The states the splitter can reach: outside a game nothing is
      buffered, and the header block and a skipped game lie inside one. */
  predicate Valid(s: Splitter) {
    && (!s.inGame ==> s.buf == [] && !s.inHeader)
    && (s.skipping ==> s.inGame && !s.inHeader)
  }

  /** Trimmed and non-empty, as every yielded game is. */
  predicate IsGameText(g: string) {
    |g| > 0 && !IsSpace(g[0]) && !IsSpace(g[|g| - 1])
  }

  /** `flush`: with lines buffered, the trimmed join of them (nothing when
      that is empty) and a fresh state; with none, no change. */
  function Flush(s: Splitter): (r: (Splitter, Option<string>))
    ensures |s.buf| == 0 ==> r == (s, None)
    ensures |s.buf| > 0 ==> r.0 == Start
    ensures r.1.Some? ==> IsGameText(r.1.value) && r.1.value == Trim(Join(s.buf, '\n'))
  {
    if |s.buf| == 0 then (s, None)
    else
      var game := Trim(Join(s.buf, '\n'));
      (Start, if |game| == 0 then None else Some(game))
  }

  /** The headers after one more header line. */
  function AddHeader(h: HeaderMap, trimmed: string): HeaderMap {
    var kv := ParseHeaderLine(trimmed);
    if kv.Some? then h[kv.value.0 := kv.value.1] else h
  }

  predicate IsHeaderLine(line: string) {
    StartsWith(Trim(line), "[")
  }

  predicate IsBlank(line: string) {
    |Trim(line)| == 0
  }

  /** Whether this line ends the header block of a game the filter
      rejects. */
  predicate Rejects(s: Splitter, line: string, f: Option<PgnFilter>) {
    !IsHeaderLine(line) && s.inHeader && IsBlank(line) && !HeadersPassFilter(s.headers, f)
  }

  /** One iteration of the loop, as written: a header line starts a game
      (if none is open) and is buffered; the blank line after the headers
      either drops the buffer when the filter rejects or is buffered; inside
      a game every line is buffered, and a blank one flushes once more than
      one line is held; outside a game other lines are ignored. */
  function StepAsWritten(s: Splitter, line: string, f: Option<PgnFilter>): (r: (Splitter, Option<string>))
    ensures r.1.Some? ==> IsGameText(r.1.value)
    ensures Rejects(s, line, f) ==> r == (s.(buf := [], inHeader := false, inGame := true), None)
  {
    var t := Trim(line);
    if StartsWith(t, "[") then
      (s.(buf := s.buf + [line], headers := AddHeader(s.headers, t),
          inGame := true, inHeader := if s.inGame then s.inHeader else true), None)
    else if s.inHeader && |t| == 0 then
      if !HeadersPassFilter(s.headers, f) then (s.(buf := [], inHeader := false, inGame := true), None)
      else (s.(buf := s.buf + [line], inHeader := false), None)
    else if s.inGame then
      var s1 := s.(buf := s.buf + [line]);
      if |t| == 0 && |s1.buf| > 1 then Flush(s1) else (s1, None)
    else (s, None)
  }

  /** One iteration with the skip mode the source's comments describe: a
      rejected game is marked, and the flush that ends it yields nothing. */
  function Step(s: Splitter, line: string, f: Option<PgnFilter>): (r: (Splitter, Option<string>))
    ensures r.1.Some? ==> IsGameText(r.1.value)
    ensures Rejects(s, line, f) ==> r == (s.(buf := [], inHeader := false, inGame := true, skipping := true), None)
    ensures s.skipping ==> r.1.None?
    ensures !s.skipping && !Rejects(s, line, f) ==> r == StepAsWritten(s, line, f)
  {
    var w := StepAsWritten(s, line, f);
    if Rejects(s, line, f) then (w.0.(skipping := true), None)
    else (w.0, if s.skipping then None else w.1)
  }

  /** The loop over the remaining lines followed by the final flush, as
      written. */
  function RunAsWritten(s: Splitter, lines: seq<string>, f: Option<PgnFilter>): (games: seq<string>)
    ensures forall i :: 0 <= i < |games| ==> IsGameText(games[i])
    decreases |lines|
  {
    if |lines| == 0 then
      var fl := Flush(s);
      if fl.1.Some? then [fl.1.value] else []
    else
      var st := StepAsWritten(s, lines[0], f);
      (if st.1.Some? then [st.1.value] else []) + RunAsWritten(st.0, lines[1..], f)
  }

  /** The same loop with skip mode; a game still being skipped at the end
      yields nothing either. */
  function Run(s: Splitter, lines: seq<string>, f: Option<PgnFilter>): (games: seq<string>)
    ensures forall i :: 0 <= i < |games| ==> IsGameText(games[i])
    decreases |lines|
  {
    if |lines| == 0 then
      var fl := Flush(s);
      if fl.1.Some? && !s.skipping then [fl.1.value] else []
    else
      var st := Step(s, lines[0], f);
      (if st.1.Some? then [st.1.value] else []) + Run(st.0, lines[1..], f)
  }

  /** `streamPgnGamesFromZst` over the lines of the decompressed file, as
      written. */
  function SplitGamesAsWritten(lines: seq<string>, f: Option<PgnFilter>): seq<string> {
    RunAsWritten(Start, lines, f)
  }

  /** The splitter with rejected games skipped. */
  function SplitGames(lines: seq<string>, f: Option<PgnFilter>): seq<string> {
    Run(Start, lines, f)
  }

  /** Both steps keep the splitter in a reachable state. */
  lemma StepValid(s: Splitter, line: string, f: Option<PgnFilter>)
    requires Valid(s)
    ensures Valid(StepAsWritten(s, line, f).0)
    ensures Valid(Step(s, line, f).0)
  {
  }

  /** Outside a game, a line that is not a header line is never
      buffered. */
  lemma LineBeforeHeaderIgnored(s: Splitter, line: string, f: Option<PgnFilter>)
    requires Valid(s) && !s.inGame && !IsHeaderLine(line)
    ensures StepAsWritten(s, line, f) == (s, None)
    ensures Step(s, line, f) == (s, None)
  {
  }

  /** A stream without header lines yields no game. */
  lemma {:induction false} NoHeaderNoGames(s: Splitter, lines: seq<string>, f: Option<PgnFilter>)
    requires Valid(s) && !s.inGame
    requires forall i :: 0 <= i < |lines| ==> !IsHeaderLine(lines[i])
    ensures RunAsWritten(s, lines, f) == []
    ensures Run(s, lines, f) == []
    decreases |lines|
  {
    if |lines| > 0 {
      LineBeforeHeaderIgnored(s, lines[0], f);
      NoHeaderNoGames(s, lines[1..], f);
    }
  }

  /** The blank line that ends the headers of a game the filter keeps is
      buffered without flushing; the next blank line, after the movetext,
      flushes. */
  lemma HeaderBlankDoesNotFlush(s: Splitter, line: string, f: Option<PgnFilter>)
    requires s.inHeader && IsBlank(line) && HeadersPassFilter(s.headers, f)
    ensures StepAsWritten(s, line, f) == (s.(buf := s.buf + [line], inHeader := false), None)
  {
  }

  lemma MovetextBlankFlushes(s: Splitter, line: string, f: Option<PgnFilter>)
    requires s.inGame && !s.inHeader && IsBlank(line) && |s.buf| > 0
    ensures StepAsWritten(s, line, f) == Flush(s.(buf := s.buf + [line]))
  {
  }

  /** The headers gathered from one header line. */
  function HeadersOf(h: string): HeaderMap {
    AddHeader(map[], Trim(h))
  }

  function OptSeq(o: Option<string>): seq<string> {
    if o.Some? then [o.value] else []
  }

  /** One step of the run, written as a fact about the next state and
      output. */
  lemma RunAsWrittenCons(s: Splitter, line: string, rest: seq<string>, f: Option<PgnFilter>, next: Splitter, out: Option<string>)
    requires StepAsWritten(s, line, f) == (next, out)
    ensures RunAsWritten(s, [line] + rest, f) == OptSeq(out) + RunAsWritten(next, rest, f)
  {
    assert ([line] + rest)[1..] == rest;
  }

  lemma RunCons(s: Splitter, line: string, rest: seq<string>, f: Option<PgnFilter>, next: Splitter, out: Option<string>)
    requires Step(s, line, f) == (next, out)
    ensures Run(s, [line] + rest, f) == OptSeq(out) + Run(next, rest, f)
  {
    assert ([line] + rest)[1..] == rest;
  }

  lemma StartEmpty(f: Option<PgnFilter>)
    ensures RunAsWritten(Start, [], f) == [] && Run(Start, [], f) == []
  {
  }

  /** A header line opens a game from the start state. */
  lemma OpenGame(h: string, f: Option<PgnFilter>)
    requires IsHeaderLine(h)
    ensures StepAsWritten(Start, h, f) == (Splitter([h], HeadersOf(h), true, true, false), None)
    ensures Step(Start, h, f) == StepAsWritten(Start, h, f)
  {
    assert Start.buf + [h] == [h];
    assert !Rejects(Start, h, f);
  }

  lemma BlankNotHeader(b: string)
    requires IsBlank(b)
    ensures !IsHeaderLine(b)
  {
  }

  /** A movetext line inside a game is buffered. */
  lemma MovetextBuffered(s: Splitter, m: string, f: Option<PgnFilter>)
    requires s.inGame && !s.inHeader && !IsHeaderLine(m) && !IsBlank(m)
    ensures StepAsWritten(s, m, f) == (s.(buf := s.buf + [m]), None)
    ensures !s.skipping ==> Step(s, m, f) == StepAsWritten(s, m, f)
    ensures s.skipping ==> Step(s, m, f) == (s.(buf := s.buf + [m]), None)
  {
  }

  /** A kept game of one header line and one movetext line, each followed
      by a blank line, is yielded whole, the blank line after the headers
      included. */
  lemma KeptGameYielded(h: string, b: string, m: string, f: Option<PgnFilter>)
    requires IsHeaderLine(h) && !IsHeaderLine(m) && !IsBlank(m) && IsBlank(b)
    requires HeadersPassFilter(HeadersOf(h), f)
    ensures SplitGamesAsWritten([h, b, m, b], f) == [Trim(Join([h, b, m, b], '\n'))]
  {
    var all := [h, b, m, b];
    var g := Trim(Join(all, '\n'));
    OpenGame(h, f);
    BlankNotHeader(b);
    KeptGameText(h, b, m);
    var s1 := Splitter([h], HeadersOf(h), true, true, false);
    var s2 := s1.(buf := [h, b], inHeader := false);
    HeaderBlankDoesNotFlush(s1, b, f);
    GameLines(h, b, m);
    MovetextRunAsWritten(s2, m, b, f, Some(g));
    RunAsWrittenCons(s1, b, [m, b], f, s2, None);
    OpenRunAsWritten(h, [b, m, b], f, [g]);
  }

  /** How the four lines of a one-line game are put together. */
  lemma GameLines(h: string, b: string, m: string)
    ensures [h] + [b] == [h, b] && [h, b] + [m] + [b] == [h, b, m, b]
    ensures [] + [m] + [b] == [m, b]
    ensures [b] + [m, b] == [b, m, b] && [h] + [b, m, b] == [h, b, m, b]
    ensures [m] + [b] == [m, b] && [b] + [] == [b]
  {
  }

  /** A run that starts with a header line yields what the rest yields
      from the opened game. */
  lemma OpenRunAsWritten(h: string, rest: seq<string>, f: Option<PgnFilter>, out: seq<string>)
    requires IsHeaderLine(h)
    requires RunAsWritten(Splitter([h], HeadersOf(h), true, true, false), rest, f) == out
    ensures RunAsWritten(Start, [h] + rest, f) == out
  {
    OpenGame(h, f);
    RunAsWrittenCons(Start, h, rest, f, Splitter([h], HeadersOf(h), true, true, false), None);
  }

  /** Inside a game past its headers, a movetext line and a blank line
      yield what flushing the buffer with both gives. */
  lemma MovetextRunAsWritten(s: Splitter, m: string, b: string, f: Option<PgnFilter>, out: Option<string>)
    requires s.inGame && !s.inHeader && !IsHeaderLine(m) && !IsBlank(m) && IsBlank(b)
    requires Flush(s.(buf := s.buf + [m] + [b])).1 == out
    ensures RunAsWritten(s, [m, b], f) == OptSeq(out)
  {
    var s3 := s.(buf := s.buf + [m]);
    MovetextBuffered(s, m, f);
    FlushingBlank(s3, b, f, out);
    LastLineRun(s3, b, f, out);
    GameLines(b, b, m);
    RunAsWrittenCons(s, m, [b], f, s3, None);
  }

  /** The blank line after the movetext flushes the buffer. */
  lemma FlushingBlank(s: Splitter, b: string, f: Option<PgnFilter>, out: Option<string>)
    requires s.inGame && !s.inHeader && IsBlank(b) && |s.buf| > 0
    requires Flush(s.(buf := s.buf + [b])).1 == out
    ensures StepAsWritten(s, b, f) == (Start, out)
  {
    BlankNotHeader(b);
    MovetextBlankFlushes(s, b, f);
  }

  /** A last line that flushes yields the flushed game and nothing more. */
  lemma LastLineRun(s: Splitter, b: string, f: Option<PgnFilter>, out: Option<string>)
    requires StepAsWritten(s, b, f) == (Start, out)
    ensures RunAsWritten(s, [b], f) == OptSeq(out)
  {
    StartEmpty(f);
    RunAsWrittenCons(s, b, [], f, Start, out);
    assert [b] + [] == [b];
    assert OptSeq(out) + [] == OptSeq(out);
  }

  /** The text of such a game is not blank, so its flush yields it. */
  lemma KeptGameText(h: string, b: string, m: string)
    requires IsHeaderLine(h)
    ensures |Trim(Join([h, b, m, b], '\n'))| > 0
  {
    var all := [h, b, m, b];
    assert all[1..] == [b, m, b];
    assert Join(all, '\n') == h + ("\n" + Join(all[1..], '\n'));
    TrimNonEmptyPrefix(h, "\n" + Join(all[1..], '\n'));
  }

  /** A string whose prefix has a non-space character trims to a non-empty
      string. */
  lemma TrimNonEmptyPrefix(a: string, b: string)
    requires |Trim(a)| > 0
    ensures |Trim(a + b)| > 0
  {
    if forall i :: 0 <= i < |a| ==> IsSpace(a[i]) {
      TrimAllSpace(a);
    } else {
      var i :| 0 <= i < |a| && !IsSpace(a[i]);
      assert (a + b)[i] == a[i];
      TrimNonEmpty(a + b, i);
    }
  }

  /** As written, a game the filter rejects loses its header lines, but its
      movetext is still buffered and yielded as a game of its own. */
  lemma RejectedMovetextYieldedAsWritten(h: string, b: string, m: string, f: Option<PgnFilter>)
    requires IsHeaderLine(h) && !IsHeaderLine(m) && !IsBlank(m) && IsBlank(b)
    requires !HeadersPassFilter(HeadersOf(h), f)
    ensures SplitGamesAsWritten([h, b, m, b], f) == [Trim(m)]
  {
    OpenGame(h, f);
    BlankNotHeader(b);
    MovetextText(m, b);
    var s1 := Splitter([h], HeadersOf(h), true, true, false);
    var s2 := s1.(buf := [], inHeader := false);
    assert Rejects(s1, b, f);
    GameLines(h, b, m);
    MovetextRunAsWritten(s2, m, b, f, Some(Trim(m)));
    RunAsWrittenCons(s1, b, [m, b], f, s2, None);
    OpenRunAsWritten(h, [b, m, b], f, [Trim(m)]);
  }

  /** A movetext line and a blank line join to the movetext, once
      trimmed. */
  lemma MovetextText(m: string, b: string)
    requires IsBlank(m) == false && IsBlank(b)
    ensures Trim(Join([m, b], '\n')) == Trim(m)
  {
    assert Join([m, b], '\n') == m + ("\n" + b);
    BlankAllSpace(b);
    TrimSpaceSuffix(m, "\n" + b);
  }

  /** A blank line is white space throughout. */
  lemma BlankAllSpace(b: string)
    requires IsBlank(b)
    ensures forall i :: 0 <= i < |"\n" + b| ==> IsSpace(("\n" + b)[i])
  {
    forall i | 0 <= i < |b| ensures IsSpace(b[i]) {
      if !IsSpace(b[i]) {
        TrimNonEmpty(b, i);
      }
    }
  }

  /** With skip mode, nothing of a rejected game is yielded. */
  lemma RejectedGameSkipped(h: string, b: string, m: string, f: Option<PgnFilter>)
    requires IsHeaderLine(h) && !IsHeaderLine(m) && !IsBlank(m) && IsBlank(b)
    requires !HeadersPassFilter(HeadersOf(h), f)
    ensures SplitGames([h, b, m, b], f) == []
  {
    GameLines(h, b, m);
    assert [] + [m] == [m];
    OpenGame(h, f);
    BlankNotHeader(b);
    var s1 := Splitter([h], HeadersOf(h), true, true, false);
    var s2 := s1.(buf := [], inHeader := false, skipping := true);
    assert Rejects(s1, b, f);
    var s3 := s2.(buf := [m]);
    MovetextBuffered(s2, m, f);
    MovetextBlankFlushes(s3, b, f);
    assert Step(s3, b, f) == (Start, None);
    StartEmpty(f);
    RunCons(s3, b, [], f, Start, None);
    RunCons(s2, m, [b], f, s3, None);
    RunCons(s1, b, [m, b], f, s2, None);
    RunCons(Start, h, [b, m, b], f, s1, None);
  }

  /** A concrete case: a Chess960-only filter, and a game whose headers name
      no variant. As written the stream yields its movetext. */
  lemma RejectedGameExampleAsWritten(h: string, b: string, m: string, f: Option<PgnFilter>)
    requires h == HeaderText("Event", " ", "Casual") && b == "" && m == "1. e4 *"
    requires f == Some(PgnFilter(false, Some("Chess960"), None, None, None))
    ensures SplitGamesAsWritten([h, b, m, b], f) == [m]
  {
    ExampleHeaders(h);
    ExampleRejected(HeadersOf(h), f);
    PlainLine(m);
    EmptyIsBlank(b);
    RejectedMovetextYieldedAsWritten(h, b, m, f);
  }

  /** The same case with skip mode yields nothing. */
  lemma RejectedGameExample(h: string, b: string, m: string, f: Option<PgnFilter>)
    requires h == HeaderText("Event", " ", "Casual") && b == "" && m == "1. e4 *"
    requires f == Some(PgnFilter(false, Some("Chess960"), None, None, None))
    ensures SplitGames([h, b, m, b], f) == []
  {
    ExampleHeaders(h);
    ExampleRejected(HeadersOf(h), f);
    PlainLine(m);
    EmptyIsBlank(b);
    RejectedGameSkipped(h, b, m, f);
  }

  lemma ExampleHeaders(h: string)
    requires h == HeaderText("Event", " ", "Casual")
    ensures IsHeaderLine(h)
    ensures HeadersOf(h) == map["Event" := "Casual"]
  {
    assert IsWord("Event");
    SimpleHeader("Event", "Casual");
  }

  /** A header line with one space after its key. */
  lemma SimpleHeader(key: string, value: string)
    requires IsWord(key)
    ensures IsHeaderLine(HeaderText(key, " ", value))
    ensures HeadersOf(HeaderText(key, " ", value)) == map[key := value]
  {
    var h := HeaderText(key, " ", value);
    assert h[0] == '[' && h[|h| - 1] == ']';
    TrimNoSpace(h);
    ParseHeaderRoundTrip(key, " ", value);
  }

  /** A line with no white space at its ends, not starting with `[`. */
  lemma PlainLine(m: string)
    requires |m| > 0 && !IsSpace(m[0]) && !IsSpace(m[|m| - 1]) && m[0] != '['
    ensures Trim(m) == m && !IsHeaderLine(m) && !IsBlank(m)
  {
    TrimNoSpace(m);
  }

  lemma EmptyIsBlank(b: string)
    requires b == ""
    ensures IsBlank(b)
  {
    TrimAllSpace(b);
  }

  lemma ExampleRejected(h: HeaderMap, f: Option<PgnFilter>)
    requires h == map["Event" := "Casual"]
    requires f == Some(PgnFilter(false, Some("Chess960"), None, None, None))
    ensures !HeadersPassFilter(h, f)
  {
    assert "Variant" !in h;
    assert HeaderOr(h, "Variant", "Standard") == "Standard";
  }

}

=== FILE: policies.dfy ===
/** The mode policies (the files under src/lib/policies): each constructor turns an
    optional, partial configuration into a complete policy, and
    `composePolicies` builds all five from a mode configuration. */
module Policies {
  import opened Wrappers
  import opened GameModes

  /** `makeOpponentPolicy(kind).shouldEngineMove`. */
  function OpponentShouldMove(kind: Opponent, turn: Side, player: Side): (r: bool)
    ensures kind == EngineVsEngine ==> r
    ensures kind == Human ==> !r
  {
    if kind == EngineVsEngine then true
    else if kind == Engine then turn != player
    else false
  }

  /** The opponent policy and the rules' `shouldEngineMove` agree for every
      mode, turn and colour. */
  lemma OpponentAgreesWithRules(rules: GameRules, turn: Side, player: Side)
    ensures OpponentShouldMove(rules.opponent, turn, player) == ShouldEngineMove(rules, turn, player)
  {
  }

  datatype TimePolicy = TimePolicy(hasTime: bool, whiteMs: int, blackMs: int, incrementMs: int)

  /** `makeTimePolicy`: no clock and zero times without a configuration;
      otherwise the times as given and no increment unless one is set. */
  function MakeTimePolicy(cfg: Option<TimeControl>): (p: TimePolicy)
    ensures p.hasTime <==> cfg.Some?
    ensures cfg.None? ==> p.whiteMs == 0 && p.blackMs == 0 && p.incrementMs == 0
    ensures cfg.Some? ==> p.whiteMs == cfg.value.whiteMs && p.blackMs == cfg.value.blackMs
    ensures cfg.Some? ==> p.incrementMs == cfg.value.incrementMs.GetOr(0)
  {
    if cfg.None? then TimePolicy(false, 0, 0, 0)
    else TimePolicy(true, cfg.value.whiteMs, cfg.value.blackMs, cfg.value.incrementMs.GetOr(0))
  }

  /** The configuration a time policy reads back as. */
  function TimeConfigOf(p: TimePolicy): Option<TimeControl> {
    if p.hasTime then Some(TimeControl(p.whiteMs, p.blackMs, Some(p.incrementMs))) else None
  }

  /** Building a time policy from its own output changes nothing. */
  lemma TimePolicyIdempotent(cfg: Option<TimeControl>)
    ensures MakeTimePolicy(TimeConfigOf(MakeTimePolicy(cfg))) == MakeTimePolicy(cfg)
  {
  }

  datatype EnginePolicy = EnginePolicy(depth: int, elo: Option<int>, multiPv: int)

  /** `makeEnginePolicy`: depth 12, no Elo and one line unless given, the
      line count clamped to 1..10. */
  function MakeEnginePolicy(cfg: Option<EngineConfig>): (p: EnginePolicy)
    ensures MinMultiPv <= p.multiPv <= MaxMultiPv
    ensures cfg.None? ==> p == EnginePolicy(DefaultDepth, None, 1)
    ensures cfg.Some? ==> p.depth == cfg.value.depth.GetOr(DefaultDepth) && p.elo == cfg.value.elo
    ensures cfg.Some? && cfg.value.multiPv.None? ==> p.multiPv == 1
    ensures cfg.Some? && cfg.value.multiPv.Some? ==> p.multiPv == ClampMultiPv(cfg.value.multiPv.value)
  {
    var depth := if cfg.Some? then cfg.value.depth.GetOr(DefaultDepth) else DefaultDepth;
    var elo := if cfg.Some? then cfg.value.elo else None;
    var multiPv := if cfg.Some? then cfg.value.multiPv.GetOr(1) else 1;
    EnginePolicy(depth, elo, ClampMultiPv(multiPv))
  }

  function EngineConfigOf(p: EnginePolicy): EngineConfig {
    EngineConfig(Some(p.depth), p.elo, Some(p.multiPv))
  }

  /** Building an engine policy from its own output changes nothing. */
  lemma EnginePolicyIdempotent(cfg: Option<EngineConfig>)
    ensures MakeEnginePolicy(Some(EngineConfigOf(MakeEnginePolicy(cfg)))) == MakeEnginePolicy(cfg)
  {
  }

  /** The engine policy and the rules' engine parameters agree on depth,
      Elo and line count for the same configuration. */
  lemma EnginePolicyAgreesWithRules(rules: GameRules)
    ensures MakeEnginePolicy(rules.engine).depth == GetEngineParams(rules).depth
    ensures MakeEnginePolicy(rules.engine).elo == GetEngineParams(rules).elo
    ensures MakeEnginePolicy(rules.engine).multiPv == GetEngineParams(rules).multiPv
  {
  }

  /** A partial assistance configuration; a flag is None when absent. */
  datatype AssistanceConfig = AssistanceConfig(hints: Option<bool>, blunderWarn: Option<bool>, onlyMoveTag: Option<bool>)

  /** `!!x` of an optional flag. */
  function Truthy(b: Option<bool>): bool {
    b.Some? && b.value
  }

  /** `makeAssistancePolicy`: each flag set exactly when given as true. */
  function MakeAssistancePolicy(cfg: Option<AssistanceConfig>): (p: Assistance)
    ensures cfg.None? ==> p == Assistance(false, false, false)
    ensures cfg.Some? ==> (p.hints <==> cfg.value.hints == Some(true))
    ensures cfg.Some? ==> (p.blunderWarn <==> cfg.value.blunderWarn == Some(true))
    ensures cfg.Some? ==> (p.onlyMoveTag <==> cfg.value.onlyMoveTag == Some(true))
  {
    if cfg.None? then Assistance(false, false, false)
    else Assistance(Truthy(cfg.value.hints), Truthy(cfg.value.blunderWarn), Truthy(cfg.value.onlyMoveTag))
  }

  function AssistanceConfigOf(p: Assistance): AssistanceConfig {
    AssistanceConfig(Some(p.hints), Some(p.blunderWarn), Some(p.onlyMoveTag))
  }

  /** Building an assistance policy from its own output changes nothing. */
  lemma AssistancePolicyIdempotent(cfg: Option<AssistanceConfig>)
    ensures MakeAssistancePolicy(Some(AssistanceConfigOf(MakeAssistancePolicy(cfg)))) == MakeAssistancePolicy(cfg)
  {
  }

  /** `makeConstraintsPolicy`: the three fields copied, all absent without a
      configuration. */
  function MakeConstraintsPolicy(cfg: Option<Constraints>): (p: Constraints)
    ensures cfg.None? ==> p.openingLine.None? && p.puzzleFen.None? && p.puzzleSolutionPv.None?
    ensures cfg.Some? ==> p == cfg.value
  {
    if cfg.None? then Constraints(None, None, None)
    else Constraints(cfg.value.openingLine, cfg.value.puzzleFen, cfg.value.puzzleSolutionPv)
  }

  /** Building a constraints policy from its own output changes nothing. */
  lemma ConstraintsPolicyIdempotent(cfg: Option<Constraints>)
    ensures MakeConstraintsPolicy(Some(MakeConstraintsPolicy(cfg))) == MakeConstraintsPolicy(cfg)
  {
  }

  /** A mode configuration; an absent and a null section are both None. */
  datatype ModeConfig = ModeConfig(
    opponent: Opponent,
    time: Option<TimeControl>,
    assistance: Option<AssistanceConfig>,
    engine: Option<EngineConfig>,
    constraints: Option<Constraints>)

  /** The composed policies; the opponent policy is kept as its kind and
      queried through `OpponentShouldMove`. */
  datatype ComposedPolicies = ComposedPolicies(
    opponent: Opponent,
    time: TimePolicy,
    assistance: Assistance,
    engine: EnginePolicy,
    constraints: Constraints)

  /** `composePolicies`: each policy from its section, with the section's
      defaults when it is absent. */
  function ComposePolicies(cfg: ModeConfig): (p: ComposedPolicies)
    ensures forall t: Side, c: Side :: OpponentShouldMove(p.opponent, t, c) == OpponentShouldMove(cfg.opponent, t, c)
    ensures cfg.time.None? ==> !p.time.hasTime && p.time.whiteMs == 0 && p.time.blackMs == 0 && p.time.incrementMs == 0
    ensures cfg.assistance.None? ==> !p.assistance.hints && !p.assistance.blunderWarn && !p.assistance.onlyMoveTag
    ensures cfg.engine.None? ==> p.engine == EnginePolicy(12, None, 1)
    ensures cfg.constraints.Some? ==> p.constraints == cfg.constraints.value
    ensures MinMultiPv <= p.engine.multiPv <= MaxMultiPv
    ensures p.time == MakeTimePolicy(cfg.time) && p.assistance == MakeAssistancePolicy(cfg.assistance)
    ensures p.engine == MakeEnginePolicy(cfg.engine) && p.constraints == MakeConstraintsPolicy(cfg.constraints)
  {
    ComposedPolicies(
      cfg.opponent,
      MakeTimePolicy(cfg.time),
      MakeAssistancePolicy(cfg.assistance),
      MakeEnginePolicy(cfg.engine),
      MakeConstraintsPolicy(cfg.constraints))
  }
}

=== FILE: puzzle_import.dfy ===
/** The puzzle CSV importer (scripts/puzzle_import_csv.ts): the row parser,
    the rating and motif filters, the side-to-move rule, and the duplicate
    check against the stored puzzles, which are a list here instead of a
    database. */
module PuzzleImport {
  import opened Wrappers
  import opened Text
  import opened Decimal

  /** `CsvRow`. */
  datatype CsvRow = CsvRow(
    puzzleId: string,
    fen: string,
    moves: seq<string>,
    rating: Num,
    rd: Num,
    popularity: Num,
    nbPlays: Num,
    themes: seq<string>,
    gameUrl: string,
    openingTags: string)

  const MinFields: nat := 10

  /** `parseInt(field || "0", 10)`. */
  function IntField(s: string): Num {
    ParseInt(if s == "" then "0" else s)
  }

  /** Non-empty, and neither starting nor ending with white space. */
  predicate IsTrimmedPiece(t: string) {
    |t| > 0 && !IsSpace(t[0]) && !IsSpace(t[|t| - 1])
  }

  /** The trimmed pieces, empty ones dropped. */
  function TrimmedNonEmpty(ps: seq<string>): (r: seq<string>)
    ensures |r| <= |ps|
  {
    if |ps| == 0 then []
    else
      var rest := TrimmedNonEmpty(ps[1..]);
      var t := Trim(ps[0]);
      if |t| == 0 then rest else [t] + rest
  }

  /** Every piece kept is non-empty and has no white space at either end. */
  lemma {:induction false} TrimmedPieces(ps: seq<string>)
    ensures forall i :: 0 <= i < |TrimmedNonEmpty(ps)| ==> IsTrimmedPiece(TrimmedNonEmpty(ps)[i])
    decreases |ps|
  {
    if |ps| > 0 {
      TrimmedPieces(ps[1..]);
      var rest := TrimmedNonEmpty(ps[1..]);
      var t := Trim(ps[0]);
      if |t| > 0 {
        assert TrimmedNonEmpty(ps) == [t] + rest;
        forall i | 0 <= i < |rest| + 1 ensures IsTrimmedPiece(([t] + rest)[i]) {
          if i > 0 {
            assert ([t] + rest)[i] == rest[i - 1];
          }
        }
      }
    }
  }

  /** `s.trim().split(/\s*,\s*\/).filter(Boolean)`: the comma-separated
      pieces with the white space around each removed and empty ones
      dropped. */
  function Themes(s: string): seq<string> {
    TrimmedNonEmpty(SplitOn(Trim(s), ','))
  }

  /** `parseCsvLine`: null for fewer than ten comma-separated fields;
      otherwise the first seven fields by position, the opening tags after
      the last comma, the game URL between the last two, and the themes from
      everything from field 7 up to that. */
  function ParseCsvLine(line: string): (r: Option<CsvRow>)
  {
    var parts := SplitOn(line, ',');
    if |parts| < MinFields then None
    else
      var t := SplitTail(Join(parts[7..], ','));
      if t.None? then None
      else
        var (themesStr, gameUrl, openingTags) := t.value;
        Some(CsvRow(parts[0], parts[1], Words(Trim(parts[2])),
                    IntField(parts[3]), IntField(parts[4]), IntField(parts[5]), IntField(parts[6]),
                    Themes(themesStr), gameUrl, openingTags))
  }

  /** The text after the last comma, the text between the last two, and
      what comes before those; None when there are fewer than two commas. */
  function SplitTail(rest: string): Option<(string, string, string)> {
    var lastComma := LastIndexOf(rest, ',');
    if lastComma.None? then None
    else
      var openingTags := rest[lastComma.value + 1..];
      var rest2 := rest[..lastComma.value];
      var lastComma2 := LastIndexOf(rest2, ',');
      if lastComma2.None? then None
      else Some((rest2[..lastComma2.value], rest2[lastComma2.value + 1..], openingTags))
  }

  /** Two commas, the fields after them comma-free: SplitTail returns the
      three parts. */
  lemma SplitTailOf(b: string, y: string, z: string)
    requires ',' !in y && ',' !in z
    ensures SplitTail(b + [','] + y + [','] + z) == Some((b, y, z))
  {
    var a := b + [','] + y;
    var rest := a + [','] + z;
    LastSeparator(a, ',', z);
    assert rest[..|a|] == a;
    assert rest[|a| + 1..] == z;
    LastSeparator(b, ',', y);
    assert a[..|b|] == b;
    assert a[|b| + 1..] == y;
  }

  /** Read from its right end, a tail of at least three fields gives back
      its last field, its second-to-last, and the join of the others. */
  lemma SplitTailOfJoin(tail: seq<string>)
    requires |tail| >= 3
    requires forall i :: 0 <= i < |tail| ==> ',' !in tail[i]
    ensures SplitTail(Join(tail, ',')) == Some((Join(tail[..|tail| - 2], ','), tail[|tail| - 2], tail[|tail| - 1]))
  {
    var init := tail[..|tail| - 1];
    var b := Join(tail[..|tail| - 2], ',');
    var y := tail[|tail| - 2];
    var z := tail[|tail| - 1];
    assert Join(init, ',') == b + [','] + y by {
      JoinSnoc(init, ',');
      assert init[..|init| - 1] == tail[..|tail| - 2];
    }
    assert Join(tail, ',') == b + [','] + y + [','] + z by {
      JoinSnoc(tail, ',');
    }
    SplitTailOf(b, y, z);
  }

  /** A line has at least ten fields exactly when the parser accepts it (the
      two "no comma" exits are never taken), and the row is read from the
      fields by position: the first seven from the left, the opening tags
      and game URL from the right, the themes from what lies between. */
  lemma ParseCsvFields(line: string, parts: seq<string>)
    requires parts == SplitOn(line, ',')
    ensures ParseCsvLine(line).None? <==> |parts| < MinFields
    ensures |parts| >= MinFields ==>
      ParseCsvLine(line) == Some(CsvRow(parts[0], parts[1], Words(Trim(parts[2])),
        IntField(parts[3]), IntField(parts[4]), IntField(parts[5]), IntField(parts[6]),
        Themes(Join(parts[7..|parts| - 2], ',')), parts[|parts| - 2], parts[|parts| - 1]))
  {
    if |parts| >= MinFields {
      TailFields(parts);
    }
  }

  /** Ten or more comma-free fields: the tail from field 7 splits into the
      themes text, the game URL and the opening tags. */
  lemma TailFields(parts: seq<string>)
    requires |parts| >= MinFields
    requires forall i :: 0 <= i < |parts| ==> ',' !in parts[i]
    ensures SplitTail(Join(parts[7..], ',')) == Some((Join(parts[7..|parts| - 2], ','), parts[|parts| - 2], parts[|parts| - 1]))
  {
    var tail := parts[7..];
    assert forall i :: 0 <= i < |tail| ==> tail[i] == parts[i + 7];
    SplitTailOfJoin(tail);
    assert tail[..|tail| - 2] == parts[7..|parts| - 2];
  }

  /** Every move is a non-empty token without white space. */
  lemma MovesAreTokens(line: string)
    requires ParseCsvLine(line).Some?
    ensures forall i :: 0 <= i < |ParseCsvLine(line).value.moves| ==> |ParseCsvLine(line).value.moves[i]| > 0
    ensures forall i, j :: 0 <= i < |ParseCsvLine(line).value.moves| && 0 <= j < |ParseCsvLine(line).value.moves[i]| ==>
      !IsSpace(ParseCsvLine(line).value.moves[i][j])
  {
  }

  /** A row written out field by field with commas, none inside a field,
      reads back with each single-field column in place. */
  lemma ParseJoinedFields(fields: seq<string>)
    requires |fields| == MinFields
    requires forall i :: 0 <= i < |fields| ==> ',' !in fields[i]
    ensures ParseCsvLine(Join(fields, ',')) == Some(CsvRow(fields[0], fields[1], Words(Trim(fields[2])),
      IntField(fields[3]), IntField(fields[4]), IntField(fields[5]), IntField(fields[6]),
      Themes(fields[7]), fields[8], fields[9]))
  {
    JoinedFields(fields);
    ParseCsvFields(Join(fields, ','), fields);
  }

  /** Ten comma-free fields split back from their join, and the themes
      column is the single field 7. */
  lemma JoinedFields(fields: seq<string>)
    requires |fields| == MinFields
    requires forall i :: 0 <= i < |fields| ==> ',' !in fields[i]
    ensures SplitOn(Join(fields, ','), ',') == fields
    ensures Join(fields[7..|fields| - 2], ',') == fields[7]
  {
    SplitJoin(fields, ',');
    assert fields[7..|fields| - 2] == [fields[7]];
  }

  /** The importer's settings: the rating bounds as `parseInt` read them and
      the trimmed motif filter. */
  datatype Config = Config(minRating: Num, maxRating: Num, motifFilter: string, source: string)

  /** `a < b` on JavaScript numbers: false whenever either is NaN. */
  predicate NumLess(a: Num, b: Num) {
    a.Finite? && b.Finite? && a.v < b.v
  }

  /** `rating < min || rating > max`; a rating that is not a number is never
      out of range. */
  predicate RatingRejected(rating: Num, cfg: Config) {
    NumLess(rating, cfg.minRating) || NumLess(cfg.maxRating, rating)
  }

  /** A non-empty filter that is a substring of no theme. */
  predicate MotifRejected(themes: seq<string>, filter: string) {
    filter != "" && forall i :: 0 <= i < |themes| ==> !Contains(themes[i], filter)
  }

  /** The side to move: white if the position has " w ", else black if it
      has " b ", else white. */
  function SideToMove(fen: string): (r: string)
    ensures r == "white" || r == "black"
    ensures r == "black" <==> !Contains(fen, " w ") && Contains(fen, " b ")
  {
    if Contains(fen, " w ") then "white" else if Contains(fen, " b ") then "black" else "white"
  }

  /** A stored puzzle, its solution line kept as a list (the source stores
      its JSON text, which determines the list). */
  datatype StoredPuzzle = StoredPuzzle(
    fen: string,
    sideToMove: string,
    solutionPv: seq<string>,
    motifs: seq<string>,
    source: string,
    rating: Num)

  datatype LineOutcome = Ignored | Skipped | Imported

  /** The first three moves of a solution. */
  function KeyMoves(moves: seq<string>): (r: seq<string>)
    ensures |r| <= 3 && |r| <= |moves| && r == moves[..|r|]
    ensures |moves| <= 3 ==> r == moves
  {
    if |moves| <= 3 then moves else moves[..3]
  }

  /** The lookup as written: a stored puzzle with the same position whose
      whole solution equals the new row's first three moves. */
  predicate FoundAsWritten(db: seq<StoredPuzzle>, row: CsvRow) {
    exists i :: 0 <= i < |db| && db[i].fen == row.fen && db[i].solutionPv == KeyMoves(row.moves)
  }

  /** The lookup the comment describes: a stored puzzle with the same
      position and the same first three moves. */
  predicate Found(db: seq<StoredPuzzle>, row: CsvRow) {
    exists i :: 0 <= i < |db| && db[i].fen == row.fen && KeyMoves(db[i].solutionPv) == KeyMoves(row.moves)
  }

  function NewPuzzle(row: CsvRow, cfg: Config): StoredPuzzle {
    StoredPuzzle(row.fen, SideToMove(row.fen), row.moves, row.themes, cfg.source + ":" + row.puzzleId, row.rating)
  }

  /** What the as-written check leaves in the store for a surviving row:
      either a match it recognises or the row's own new entry. */
  predicate StoredAsWritten(db: seq<StoredPuzzle>, row: CsvRow, cfg: Config) {
    FoundAsWritten(db, row) || NewPuzzle(row, cfg) in db
  }

  /** Whether a line is the header or blank, which is not even counted. */
  predicate IsHeaderOrBlank(line: string) {
    line == "" || StartsWith(line, "PuzzleId,")
  }

  /** The row that survives both filters, if any. */
  function Filter(row: Option<CsvRow>, cfg: Config): (r: Option<CsvRow>)
    ensures r.Some? ==> r == row && !RatingRejected(r.value.rating, cfg) && !MotifRejected(r.value.themes, cfg.motifFilter)
    ensures row.Some? && !RatingRejected(row.value.rating, cfg) && !MotifRejected(row.value.themes, cfg.motifFilter) ==> r == row
  {
    if row.None? || RatingRejected(row.value.rating, cfg) || MotifRejected(row.value.themes, cfg.motifFilter) then None
    else row
  }

  /** The row a counted line yields once parsing and both filters pass. */
  function Candidate(line: string, cfg: Config): (r: Option<CsvRow>)
    ensures r.Some? ==> !RatingRejected(r.value.rating, cfg) && !MotifRejected(r.value.themes, cfg.motifFilter)
    ensures r.Some? ==> ParseCsvLine(Trim(line)) == r
  {
    Filter(ParseCsvLine(Trim(line)), cfg)
  }

  /** One classified line with the duplicate check as written. */
  function ImportRowAsWritten(db: seq<StoredPuzzle>, c: Option<Option<CsvRow>>, cfg: Config): (r: (seq<StoredPuzzle>, LineOutcome))
    ensures r.1 == Imported ==> c.Some? && Filter(c.value, cfg).Some?
    ensures r.1 == Imported ==> r.0 == db + [NewPuzzle(Filter(c.value, cfg).value, cfg)]
    ensures r.1 == Imported ==> !FoundAsWritten(db, Filter(c.value, cfg).value)
    ensures c.Some? && Filter(c.value, cfg).Some? && !FoundAsWritten(db, Filter(c.value, cfg).value) ==> r.1 == Imported
    ensures c.Some? && Filter(c.value, cfg).Some? ==> StoredAsWritten(r.0, Filter(c.value, cfg).value, cfg)
    ensures r.1 != Imported ==> r.0 == db
    ensures r.1 == Ignored <==> c.None?
  {
    if c.None? then (db, Ignored)
    else
      var row := Filter(c.value, cfg);
      if row.None? || FoundAsWritten(db, row.value) then (db, Skipped)
      else (db + [NewPuzzle(row.value, cfg)], Imported)
  }

  /** One line of `main` as written. */
  function ImportLineAsWritten(db: seq<StoredPuzzle>, line: string, cfg: Config): (r: (seq<StoredPuzzle>, LineOutcome))
    ensures r.1 == Imported ==> Candidate(line, cfg).Some?
    ensures r.1 == Imported ==> r.0 == db + [NewPuzzle(Candidate(line, cfg).value, cfg)]
    ensures r.1 == Imported ==> !FoundAsWritten(db, Candidate(line, cfg).value)
    ensures !IsHeaderOrBlank(line) && Candidate(line, cfg).Some? && !FoundAsWritten(db, Candidate(line, cfg).value) ==> r.1 == Imported
    ensures r.1 != Imported ==> r.0 == db
    ensures r.1 == Ignored <==> IsHeaderOrBlank(line)
  {
    ImportRowAsWritten(db, Classify(line), cfg)
  }

  /** What a line is before the store is consulted: None for the header
      or a blank line, otherwise what the parser makes of its trimmed text. */
  function Classify(line: string): Option<Option<CsvRow>> {
    if IsHeaderOrBlank(line) then None else Some(ParseCsvLine(Trim(line)))
  }

  /** One classified line with the intended duplicate check. */
  function ImportRow(db: seq<StoredPuzzle>, c: Option<Option<CsvRow>>, cfg: Config): (r: (seq<StoredPuzzle>, LineOutcome))
    ensures r.1 == Imported ==> c.Some? && Filter(c.value, cfg).Some?
    ensures r.1 == Imported ==> r.0 == db + [NewPuzzle(Filter(c.value, cfg).value, cfg)]
    ensures r.1 == Imported ==> !Found(db, Filter(c.value, cfg).value)
    ensures c.Some? && Filter(c.value, cfg).Some? && !Found(db, Filter(c.value, cfg).value) ==> r.1 == Imported
    ensures c.Some? && Filter(c.value, cfg).Some? ==> Found(r.0, Filter(c.value, cfg).value)
    ensures r.1 != Imported ==> r.0 == db
    ensures r.1 == Ignored <==> c.None?
  {
    if c.None? then (db, Ignored)
    else
      var row := Filter(c.value, cfg);
      if row.None? || Found(db, row.value) then (db, Skipped)
      else
        assert (db + [NewPuzzle(row.value, cfg)])[|db|] == NewPuzzle(row.value, cfg);
        (db + [NewPuzzle(row.value, cfg)], Imported)
  }

  /** One line of `main` with the intended duplicate check. */
  function ImportLine(db: seq<StoredPuzzle>, line: string, cfg: Config): (r: (seq<StoredPuzzle>, LineOutcome))
    ensures r.1 == Imported ==> Candidate(line, cfg).Some?
    ensures r.1 == Imported ==> r.0 == db + [NewPuzzle(Candidate(line, cfg).value, cfg)]
    ensures r.1 == Imported ==> !Found(db, Candidate(line, cfg).value)
    ensures !IsHeaderOrBlank(line) && Candidate(line, cfg).Some? && !Found(db, Candidate(line, cfg).value) ==> r.1 == Imported
    ensures r.1 != Imported ==> r.0 == db
    ensures r.1 == Ignored <==> IsHeaderOrBlank(line)
  {
    ImportRow(db, Classify(line), cfg)
  }

  /** As written, importing the same row twice stores it twice whenever its
      solution has more than three moves: the stored line is the whole
      solution and never equals its own first three moves. */
  lemma ReimportDuplicatesAsWritten(db: seq<StoredPuzzle>, line: string, cfg: Config)
    requires !IsHeaderOrBlank(line) && Candidate(line, cfg).Some?
    requires |Candidate(line, cfg).value.moves| > 3
    requires !FoundAsWritten(db, Candidate(line, cfg).value)
    ensures var (db1, o1) := ImportLineAsWritten(db, line, cfg);
      var (db2, o2) := ImportLineAsWritten(db1, line, cfg);
      o1 == Imported && o2 == Imported && |db2| == |db| + 2
      && db2[|db|] == db2[|db| + 1]
  {
    RowReimportDuplicatesAsWritten(db, Classify(line), cfg);
  }

  /** The same for a classified row. */
  lemma RowReimportDuplicatesAsWritten(db: seq<StoredPuzzle>, c: Option<Option<CsvRow>>, cfg: Config)
    requires c.Some? && Filter(c.value, cfg).Some?
    requires |Filter(c.value, cfg).value.moves| > 3
    requires !FoundAsWritten(db, Filter(c.value, cfg).value)
    ensures var (db1, o1) := ImportRowAsWritten(db, c, cfg);
      var (db2, o2) := ImportRowAsWritten(db1, c, cfg);
      o1 == Imported && o2 == Imported && |db2| == |db| + 2
      && db2[|db|] == db2[|db| + 1]
  {
    var row := Filter(c.value, cfg).value;
    var db1 := db + [NewPuzzle(row, cfg)];
    assert !FoundAsWritten(db1, row) by {
      forall i | 0 <= i < |db1| && db1[i].fen == row.fen
        ensures db1[i].solutionPv != KeyMoves(row.moves)
      {
        if i == |db| {
          assert |db1[i].solutionPv| > 3;
        }
      }
    }
  }

  /** As written the check does catch repeats of rows with at most three
      moves. */
  lemma ReimportShortRowSkippedAsWritten(db: seq<StoredPuzzle>, line: string, cfg: Config)
    requires !IsHeaderOrBlank(line) && Candidate(line, cfg).Some?
    requires |Candidate(line, cfg).value.moves| <= 3
    ensures var (db1, o1) := ImportLineAsWritten(db, line, cfg);
      ImportLineAsWritten(db1, line, cfg) == (db1, Skipped)
  {
    RowReimportShortSkippedAsWritten(db, Classify(line), cfg);
  }

  /** The same for a classified row. */
  lemma RowReimportShortSkippedAsWritten(db: seq<StoredPuzzle>, c: Option<Option<CsvRow>>, cfg: Config)
    requires c.Some? && Filter(c.value, cfg).Some?
    requires |Filter(c.value, cfg).value.moves| <= 3
    ensures var (db1, o1) := ImportRowAsWritten(db, c, cfg);
      ImportRowAsWritten(db1, c, cfg) == (db1, Skipped)
  {
    var (db1, o1) := ImportRowAsWritten(db, c, cfg);
    var row := Filter(c.value, cfg).value;
    if o1 == Imported {
      assert db1[|db|].solutionPv == KeyMoves(row.moves);
    }
  }

  /** With the intended check a row is never stored twice: importing a line
      a second time skips it and leaves the store unchanged. */
  lemma ReimportSkipped(db: seq<StoredPuzzle>, line: string, cfg: Config)
    requires !IsHeaderOrBlank(line)
    ensures var (db1, o1) := ImportLine(db, line, cfg);
      ImportLine(db1, line, cfg) == (db1, Skipped)
  {
    RowReimportSkipped(db, Classify(line), cfg);
  }

  /** The same for a classified row. */
  lemma RowReimportSkipped(db: seq<StoredPuzzle>, c: Option<Option<CsvRow>>, cfg: Config)
    requires c.Some?
    ensures var (db1, o1) := ImportRow(db, c, cfg);
      ImportRow(db1, c, cfg) == (db1, Skipped)
  {
    var (db1, o1) := ImportRow(db, c, cfg);
    if o1 == Imported {
      var row := Filter(c.value, cfg).value;
      assert db1[|db|].fen == row.fen && KeyMoves(db1[|db|].solutionPv) == KeyMoves(row.moves);
    }
  }

  /** No two stored puzzles share a position and first three moves. */
  predicate NoDuplicates(db: seq<StoredPuzzle>) {
    forall i, j :: 0 <= i < j < |db| ==>
      !(db[i].fen == db[j].fen && KeyMoves(db[i].solutionPv) == KeyMoves(db[j].solutionPv))
  }

  /** Every stored puzzle from index `from` on passes both filters. */
  predicate PassFilters(db: seq<StoredPuzzle>, from: nat, cfg: Config) {
    forall k :: from <= k < |db| ==>
      !RatingRejected(db[k].rating, cfg) && !MotifRejected(db[k].motifs, cfg.motifFilter)
  }

  /** The intended check keeps the store free of duplicates. */
  lemma ImportRowNoDuplicates(db: seq<StoredPuzzle>, c: Option<Option<CsvRow>>, cfg: Config)
    ensures NoDuplicates(db) ==> NoDuplicates(ImportRow(db, c, cfg).0)
  {
    var r := ImportRow(db, c, cfg);
    if r.1 == Imported && NoDuplicates(db) {
      var row := Filter(c.value, cfg).value;
      forall i, j | 0 <= i < j < |r.0|
        ensures !(r.0[i].fen == r.0[j].fen && KeyMoves(r.0[i].solutionPv) == KeyMoves(r.0[j].solutionPv))
      {
        if j == |db| {
          assert r.0[j].fen == row.fen && r.0[j].solutionPv == row.moves;
          assert r.0[i] == db[i];
        }
      }
    }
  }

  /** The same for one line. */
  lemma ImportLineNoDuplicates(db: seq<StoredPuzzle>, line: string, cfg: Config)
    ensures NoDuplicates(db) ==> NoDuplicates(ImportLine(db, line, cfg).0)
  {
    ImportRowNoDuplicates(db, Classify(line), cfg);
  }

  /** A row the intended check imports passes both filters. */
  lemma ImportedPasses(db: seq<StoredPuzzle>, c: Option<Option<CsvRow>>, cfg: Config)
    requires ImportRow(db, c, cfg).1 == Imported
    ensures PassFilters(ImportRow(db, c, cfg).0, |db|, cfg)
  {
  }

  /** Filters passed from `n + 1` on in an extension of a store whose entry
      `n` passes them are passed from `n` on. */
  lemma PassFiltersExtend(a: seq<StoredPuzzle>, b: seq<StoredPuzzle>, n: nat, cfg: Config)
    requires |a| == n + 1 && a <= b
    requires PassFilters(a, n, cfg) && PassFilters(b, n + 1, cfg)
    ensures PassFilters(b, n, cfg)
  {
    assert b[n] == a[n];
  }

  datatype Summary = Summary(db: seq<StoredPuzzle>, imported: nat)

  /** `imported >= limit`, false when the limit is not a number. */
  predicate LimitReached(imported: nat, limit: Num) {
    limit.Finite? && imported >= limit.v
  }

  /** The most a run can import under a numeric limit. */
  function Cap(limit: int): int {
    if limit < 1 then 1 else limit
  }

  /** The run ended because an import reached the limit, so any rows after
      that import were never looked at. */
  predicate Stopped(r: Summary, imported: nat, limit: Num) {
    r.imported > imported && LimitReached(r.imported, limit)
  }

  /** Whether a classified row is a data row that survives both filters. */
  predicate Survives(c: Option<Option<CsvRow>>, cfg: Config) {
    c.Some? && Filter(c.value, cfg).Some?
  }

  /** Every surviving row of `cs` has a match in the store under the
      intended check. */
  predicate AllStored(db: seq<StoredPuzzle>, cs: seq<Option<Option<CsvRow>>>, cfg: Config) {
    forall j :: 0 <= j < |cs| && Survives(cs[j], cfg) ==> Found(db, Filter(cs[j].value, cfg).value)
  }

  /** Every surviving row of `cs` is in the store as the as-written check
      leaves it. */
  predicate AllStoredAsWritten(db: seq<StoredPuzzle>, cs: seq<Option<Option<CsvRow>>>, cfg: Config) {
    forall j :: 0 <= j < |cs| && Survives(cs[j], cfg) ==> StoredAsWritten(db, Filter(cs[j].value, cfg).value, cfg)
  }

  /** A match stays a match when the store grows. */
  lemma FoundGrows(a: seq<StoredPuzzle>, b: seq<StoredPuzzle>, row: CsvRow)
    requires a <= b && Found(a, row)
    ensures Found(b, row)
  {
    var i :| 0 <= i < |a| && a[i].fen == row.fen && KeyMoves(a[i].solutionPv) == KeyMoves(row.moves);
    assert b[i] == a[i];
  }

  /** The same for what the as-written check leaves. */
  lemma StoredAsWrittenGrows(a: seq<StoredPuzzle>, b: seq<StoredPuzzle>, row: CsvRow, cfg: Config)
    requires a <= b && StoredAsWritten(a, row, cfg)
    ensures StoredAsWritten(b, row, cfg)
  {
    if FoundAsWritten(a, row) {
      var i :| 0 <= i < |a| && a[i].fen == row.fen && a[i].solutionPv == KeyMoves(row.moves);
      assert b[i] == a[i];
    } else {
      var i :| 0 <= i < |a| && a[i] == NewPuzzle(row, cfg);
      assert b[i] == a[i];
    }
  }

  /** The first row stored in `a`, the rest stored in a larger `b`: all of
      `cs` is stored in `b` (under the condition `p`). */
  lemma AllStoredCons(a: seq<StoredPuzzle>, b: seq<StoredPuzzle>, cs: seq<Option<Option<CsvRow>>>, cfg: Config, p: bool)
    requires |cs| > 0 && a <= b
    requires Survives(cs[0], cfg) ==> Found(a, Filter(cs[0].value, cfg).value)
    requires p ==> AllStored(b, cs[1..], cfg)
    ensures p ==> AllStored(b, cs, cfg)
  {
    if p {
      forall j | 0 <= j < |cs| && Survives(cs[j], cfg)
        ensures Found(b, Filter(cs[j].value, cfg).value)
      {
        if j == 0 {
          FoundGrows(a, b, Filter(cs[0].value, cfg).value);
        } else {
          assert cs[1..][j - 1] == cs[j];
        }
      }
    }
  }

  /** The same for the as-written check. */
  lemma AllStoredAsWrittenCons(a: seq<StoredPuzzle>, b: seq<StoredPuzzle>, cs: seq<Option<Option<CsvRow>>>, cfg: Config, p: bool)
    requires |cs| > 0 && a <= b
    requires Survives(cs[0], cfg) ==> StoredAsWritten(a, Filter(cs[0].value, cfg).value, cfg)
    requires p ==> AllStoredAsWritten(b, cs[1..], cfg)
    ensures p ==> AllStoredAsWritten(b, cs, cfg)
  {
    if p {
      forall j | 0 <= j < |cs| && Survives(cs[j], cfg)
        ensures StoredAsWritten(b, Filter(cs[j].value, cfg).value, cfg)
      {
        if j == 0 {
          StoredAsWrittenGrows(a, b, Filter(cs[0].value, cfg).value, cfg);
        } else {
          assert cs[1..][j - 1] == cs[j];
        }
      }
    }
  }

  /** The loop of `main` over classified lines, with the intended duplicate
      check. The limit is tested only after an import. */
  function ImportRows(db: seq<StoredPuzzle>, cs: seq<Option<Option<CsvRow>>>, cfg: Config, limit: Num, imported: nat): (r: Summary)
    ensures r.imported >= imported
    ensures |r.db| == |db| + (r.imported - imported)
    ensures db <= r.db
    ensures !Stopped(r, imported, limit) ==> AllStored(r.db, cs, cfg)
    decreases |cs|
  {
    if |cs| == 0 then Summary(db, imported)
    else
      var step := ImportRow(db, cs[0], cfg);
      if step.1 == Imported then
        if LimitReached(imported + 1, limit) then Summary(step.0, imported + 1)
        else
          var rest := ImportRows(step.0, cs[1..], cfg, limit, imported + 1);
          AllStoredCons(step.0, rest.db, cs, cfg, !Stopped(rest, imported, limit));
          rest
      else
        var rest := ImportRows(db, cs[1..], cfg, limit, imported);
        AllStoredCons(db, rest.db, cs, cfg, !Stopped(rest, imported, limit));
        rest
  }

  /** The run over one more row is the run so far followed by one step on
      that row, unless the limit already stopped it: so row `j` is imported
      exactly when the run has not stopped, it survives the filters, and
      the store built from the rows before it holds no match. */
  lemma {:induction false} RowsSnoc(db: seq<StoredPuzzle>, cs: seq<Option<Option<CsvRow>>>, c: Option<Option<CsvRow>>, cfg: Config, limit: Num, imported: nat)
    ensures var r := ImportRows(db, cs, cfg, limit, imported);
      ImportRows(db, cs + [c], cfg, limit, imported) ==
        if Stopped(r, imported, limit) then r
        else
          var step := ImportRow(r.db, c, cfg);
          Summary(step.0, if step.1 == Imported then r.imported + 1 else r.imported)
    decreases |cs|
  {
    if |cs| == 0 {
      assert [] + [c] == [c] && [c][1..] == [];
    } else {
      assert (cs + [c])[0] == cs[0] && (cs + [c])[1..] == cs[1..] + [c];
      var step := ImportRow(db, cs[0], cfg);
      if step.1 == Imported {
        if !LimitReached(imported + 1, limit) {
          RowsSnoc(step.0, cs[1..], c, cfg, limit, imported + 1);
        }
      } else {
        RowsSnoc(db, cs[1..], c, cfg, limit, imported);
      }
    }
  }

  /** A run started below a numeric limit stops right after the import
      that reaches it; under a limit below 1 it stops after the first
      import. */
  lemma {:induction false} RowsWithinLimit(db: seq<StoredPuzzle>, cs: seq<Option<Option<CsvRow>>>, cfg: Config, limit: Num, imported: nat)
    ensures limit.Finite? && (imported < limit.v || imported == 0) ==>
      ImportRows(db, cs, cfg, limit, imported).imported <= Cap(limit.v)
    decreases |cs|
  {
    if |cs| > 0 {
      var step := ImportRow(db, cs[0], cfg);
      if step.1 == Imported {
        if !LimitReached(imported + 1, limit) {
          RowsWithinLimit(step.0, cs[1..], cfg, limit, imported + 1);
        }
      } else {
        RowsWithinLimit(db, cs[1..], cfg, limit, imported);
      }
    }
  }

  /** Every puzzle a run stores passes both filters. */
  lemma {:induction false} RowsPassFilters(db: seq<StoredPuzzle>, cs: seq<Option<Option<CsvRow>>>, cfg: Config, limit: Num, imported: nat)
    ensures PassFilters(ImportRows(db, cs, cfg, limit, imported).db, |db|, cfg)
    decreases |cs|
  {
    if |cs| > 0 {
      var step := ImportRow(db, cs[0], cfg);
      if step.1 == Imported {
        ImportedPasses(db, cs[0], cfg);
        if !LimitReached(imported + 1, limit) {
          RowsPassFilters(step.0, cs[1..], cfg, limit, imported + 1);
          PassFiltersExtend(step.0, ImportRows(step.0, cs[1..], cfg, limit, imported + 1).db, |db|, cfg);
        }
      } else {
        RowsPassFilters(db, cs[1..], cfg, limit, imported);
      }
    }
  }

  /** A run adds no duplicates to a store that has none. */
  lemma {:induction false} RowsNoDuplicates(db: seq<StoredPuzzle>, cs: seq<Option<Option<CsvRow>>>, cfg: Config, limit: Num, imported: nat)
    ensures NoDuplicates(db) ==> NoDuplicates(ImportRows(db, cs, cfg, limit, imported).db)
    decreases |cs|
  {
    if |cs| > 0 {
      var step := ImportRow(db, cs[0], cfg);
      ImportRowNoDuplicates(db, cs[0], cfg);
      if step.1 == Imported {
        if !LimitReached(imported + 1, limit) {
          RowsNoDuplicates(step.0, cs[1..], cfg, limit, imported + 1);
        }
      } else {
        RowsNoDuplicates(db, cs[1..], cfg, limit, imported);
      }
    }
  }

  /** Each line classified. */
  function Classified(lines: seq<string>): (cs: seq<Option<Option<CsvRow>>>)
    ensures |cs| == |lines|
  {
    seq(|lines|, i requires 0 <= i < |lines| => Classify(lines[i]))
  }

  /** `main` over the lines of the file, with the intended duplicate check:
      the store only grows, by one entry per import; a run started below a
      numeric limit stops right after the import that reaches it (after the
      first import when the limit is below 1); every puzzle it stores passes
      both filters, and it adds no duplicates to a store that has none. */
  function ImportAll(db: seq<StoredPuzzle>, lines: seq<string>, cfg: Config, limit: Num, imported: nat): (r: Summary)
    ensures r.imported >= imported
    ensures |r.db| == |db| + (r.imported - imported)
    ensures db <= r.db
    ensures limit.Finite? && (imported < limit.v || imported == 0) ==> r.imported <= Cap(limit.v)
    ensures PassFilters(r.db, |db|, cfg)
    ensures NoDuplicates(db) ==> NoDuplicates(r.db)
    ensures !Stopped(r, imported, limit) ==> forall j :: 0 <= j < |lines| && !IsHeaderOrBlank(lines[j]) && Candidate(lines[j], cfg).Some? ==> Found(r.db, Candidate(lines[j], cfg).value)
  {
    var cs := Classified(lines);
    assert forall j :: 0 <= j < |lines| ==> cs[j] == Classify(lines[j]);
    RowsWithinLimit(db, cs, cfg, limit, imported);
    RowsPassFilters(db, cs, cfg, limit, imported);
    RowsNoDuplicates(db, cs, cfg, limit, imported);
    ImportRows(db, cs, cfg, limit, imported)
  }

  /** The loop of `main` as written: the same loop over classified lines
      with the as-written duplicate check. */
  function ImportRowsAsWritten(db: seq<StoredPuzzle>, cs: seq<Option<Option<CsvRow>>>, cfg: Config, limit: Num, imported: nat): (r: Summary)
    ensures r.imported >= imported
    ensures |r.db| == |db| + (r.imported - imported)
    ensures db <= r.db
    ensures !Stopped(r, imported, limit) ==> AllStoredAsWritten(r.db, cs, cfg)
    decreases |cs|
  {
    if |cs| == 0 then Summary(db, imported)
    else
      var step := ImportRowAsWritten(db, cs[0], cfg);
      if step.1 == Imported then
        if LimitReached(imported + 1, limit) then Summary(step.0, imported + 1)
        else
          var rest := ImportRowsAsWritten(step.0, cs[1..], cfg, limit, imported + 1);
          AllStoredAsWrittenCons(step.0, rest.db, cs, cfg, !Stopped(rest, imported, limit));
          rest
      else
        var rest := ImportRowsAsWritten(db, cs[1..], cfg, limit, imported);
        AllStoredAsWrittenCons(db, rest.db, cs, cfg, !Stopped(rest, imported, limit));
        rest
  }

  /** A run over a single surviving row that the store does not yet hold
      imports it, under any limit. */
  lemma FreshRowImported(db: seq<StoredPuzzle>, c: Option<Option<CsvRow>>, cfg: Config, limit: Num)
    requires Survives(c, cfg) && !Found(db, Filter(c.value, cfg).value)
    ensures ImportRows(db, [c], cfg, limit, 0) == Summary(db + [NewPuzzle(Filter(c.value, cfg).value, cfg)], 1)
  {
    RowsSnoc(db, [], c, cfg, limit, 0);
    assert [] + [c] == [c];
  }

  /** The as-written run over one more row is the run so far followed by
      one as-written step on that row, unless the limit already stopped it. */
  lemma {:induction false} RowsSnocAsWritten(db: seq<StoredPuzzle>, cs: seq<Option<Option<CsvRow>>>, c: Option<Option<CsvRow>>, cfg: Config, limit: Num, imported: nat)
    ensures var r := ImportRowsAsWritten(db, cs, cfg, limit, imported);
      ImportRowsAsWritten(db, cs + [c], cfg, limit, imported) ==
        if Stopped(r, imported, limit) then r
        else
          var step := ImportRowAsWritten(r.db, c, cfg);
          Summary(step.0, if step.1 == Imported then r.imported + 1 else r.imported)
    decreases |cs|
  {
    if |cs| == 0 {
      assert [] + [c] == [c] && [c][1..] == [];
    } else {
      assert (cs + [c])[0] == cs[0] && (cs + [c])[1..] == cs[1..] + [c];
      var step := ImportRowAsWritten(db, cs[0], cfg);
      if step.1 == Imported {
        if !LimitReached(imported + 1, limit) {
          RowsSnocAsWritten(step.0, cs[1..], c, cfg, limit, imported + 1);
        }
      } else {
        RowsSnocAsWritten(db, cs[1..], c, cfg, limit, imported);
      }
    }
  }

  /** As written, a run over a file that lists a row of more than three
      moves twice stores it twice, so a duplicate-free store does not stay
      duplicate-free. */
  lemma RowsDuplicateAsWritten(db: seq<StoredPuzzle>, c: Option<Option<CsvRow>>, cfg: Config)
    requires c.Some? && Filter(c.value, cfg).Some?
    requires |Filter(c.value, cfg).value.moves| > 3
    requires !FoundAsWritten(db, Filter(c.value, cfg).value)
    ensures var r := ImportRowsAsWritten(db, [c, c], cfg, NaN, 0);
      r.imported == 2 && |r.db| == |db| + 2 && !NoDuplicates(r.db)
  {
    RowReimportDuplicatesAsWritten(db, c, cfg);
    var db1 := ImportRowAsWritten(db, c, cfg).0;
    var db2 := ImportRowAsWritten(db1, c, cfg).0;
    assert [c, c][1..] == [c] && [c][1..] == [];
    assert ImportRowsAsWritten(db1, [c], cfg, NaN, 1) == Summary(db2, 2);
    assert ImportRowsAsWritten(db, [c, c], cfg, NaN, 0) == Summary(db2, 2);
    assert db2[|db|].fen == db2[|db| + 1].fen && KeyMoves(db2[|db|].solutionPv) == KeyMoves(db2[|db| + 1].solutionPv);
  }

  /** The run over one more line is the run so far followed by one step on
      that line, unless the limit already stopped it. */
  lemma ImportAllSnoc(db: seq<StoredPuzzle>, lines: seq<string>, line: string, cfg: Config, limit: Num, imported: nat)
    ensures var r := ImportAll(db, lines, cfg, limit, imported);
      ImportAll(db, lines + [line], cfg, limit, imported) ==
        if Stopped(r, imported, limit) then r
        else
          var step := ImportLine(r.db, line, cfg);
          Summary(step.0, if step.1 == Imported then r.imported + 1 else r.imported)
  {
    assert Classified(lines + [line]) == Classified(lines) + [Classify(line)];
    RowsSnoc(db, Classified(lines), Classify(line), cfg, limit, imported);
  }
}

=== FILE: puzzle_miner.dfy ===
/** The decision rules of the offline puzzle miner (scripts/puzzle_miner.ts):
    material counting from a FEN board, the only-move test, and the per-game
    choice between a mate, an only-move and a blunder-refutation puzzle. The
    engine answers, chess legality and the two-ply material delta of a line
    are inputs. */
module PuzzleMiner {
  import opened Wrappers
  import opened Text
  import opened Scores
  import Grading
  import Decimal

  /** The value of one board character: +1/3/3/5/9 for P, N, B, R, Q,
      the negation for their lower-case forms, 0 for anything else. */
  function PieceValue(c: char): int {
    if c == 'P' then 1 else if c == 'N' || c == 'B' then 3 else if c == 'R' then 5 else if c == 'Q' then 9
    else if c == 'p' then -1 else if c == 'n' || c == 'b' then -3 else if c == 'r' then -5 else if c == 'q' then -9
    else 0
  }

  function MaterialOfBoard(board: string): int {
    if |board| == 0 then 0 else PieceValue(board[0]) + MaterialOfBoard(board[1..])
  }

  /** The text before the first space. */
  function BoardPart(fen: string): string {
    SplitOn(fen, ' ')[0]
  }

  /** `materialScoreFromFen`: the material balance of the board field, in
      centipawns. */
  function MaterialScoreFromFen(fen: string): (r: int)
    ensures r % 100 == 0
  {
    var m := MaterialOfBoard(BoardPart(fen));
    MultipleOfHundred(m);
    100 * m
  }

  lemma {:induction false} MultipleOfHundred(m: int)
    ensures (100 * m) % 100 == 0
  {
  }

  lemma {:induction false} MaterialAppend(a: string, b: string)
    ensures MaterialOfBoard(a + b) == MaterialOfBoard(a) + MaterialOfBoard(b)
    decreases |a|
  {
    if |a| > 0 {
      assert (a + b)[0] == a[0];
      assert (a + b)[1..] == a[1..] + b;
      MaterialAppend(a[1..], b);
    } else {
      assert a + b == b;
    }
  }

  lemma {:induction false} BoardPartOf(board: string, rest: string)
    requires ' ' !in board
    ensures BoardPart(board + [' '] + rest) == board
    decreases |board|
  {
    if |board| > 0 {
      assert (board + [' '] + rest)[1..] == board[1..] + [' '] + rest;
      assert ' ' !in board[1..] by { assert forall x :: x in board[1..] ==> x in board; }
      BoardPartOf(board[1..], rest);
      assert board == [board[0]] + board[1..];
    }
  }

  /** Only the board field counts: the side to move, castling rights and
      clocks never change the score. */
  lemma MaterialReadsBoardOnly(board: string, rest1: string, rest2: string)
    requires ' ' !in board
    ensures MaterialScoreFromFen(board + [' '] + rest1) == MaterialScoreFromFen(board + [' '] + rest2)
  {
    BoardPartOf(board, rest1);
    BoardPartOf(board, rest2);
  }

  function SwapCaseAscii(c: char): char {
    if 'A' <= c <= 'Z' then (c as int + 32) as char
    else if 'a' <= c <= 'z' then (c as int - 32) as char
    else c
  }

  function SwapCase(s: string): (r: string)
    ensures |r| == |s|
    ensures forall i :: 0 <= i < |s| ==> r[i] == SwapCaseAscii(s[i])
  {
    seq(|s|, i requires 0 <= i < |s| => SwapCaseAscii(s[i]))
  }

  lemma {:induction false} SwapCaseBoard(board: string)
    ensures MaterialOfBoard(SwapCase(board)) == -MaterialOfBoard(board)
    decreases |board|
  {
    if |board| > 0 {
      assert SwapCase(board)[1..] == SwapCase(board[1..]);
      SwapCaseBoard(board[1..]);
    }
  }

  /** Swapping the colours of every piece negates the score. */
  lemma SwapCaseNegates(board: string, rest: string)
    requires ' ' !in board
    ensures MaterialScoreFromFen(SwapCase(board) + [' '] + rest) == -MaterialScoreFromFen(board + [' '] + rest)
  {
    assert ' ' !in SwapCase(board) by {
      forall i | 0 <= i < |board| ensures SwapCase(board)[i] != ' ' {
        assert board[i] != ' ' by { assert board[i] in board; }
      }
    }
    BoardPartOf(board, rest);
    BoardPartOf(SwapCase(board), rest);
    SwapCaseBoard(board);
  }

  const StartBoard: string := "rnbqkbnr/pppppppp/8/8/8/8/PPPPPPPP/RNBQKBNR"

  /** The standard initial position is materially level, whatever its
      other fields say. */
  lemma StartPositionLevel(rest: string)
    ensures MaterialScoreFromFen(StartBoard + [' '] + rest) == 0
  {
    StartBoardLevel();
    StartBoardNoSpace();
    BoardPartOf(StartBoard, rest);
  }

  lemma StartBoardNoSpace()
    ensures ' ' !in StartBoard
  {
  }

  lemma StartBoardLevel()
    ensures MaterialOfBoard(StartBoard) == 0
  {
    StartBoardRanks();
    MaterialOfRanks("rnbqkbnr/", "pppppppp/", "8/8/8/8/", "PPPPPPPP/", "RNBQKBNR");
    RankValues();
  }

  lemma StartBoardRanks()
    ensures StartBoard == "rnbqkbnr/" + ("pppppppp/" + ("8/8/8/8/" + ("PPPPPPPP/" + "RNBQKBNR")))
  {
  }

  lemma MaterialOfRanks(a: string, b: string, c: string, d: string, e: string)
    ensures MaterialOfBoard(a + (b + (c + (d + e))))
         == MaterialOfBoard(a) + MaterialOfBoard(b) + MaterialOfBoard(c) + MaterialOfBoard(d) + MaterialOfBoard(e)
  {
    MaterialAppend(d, e);
    MaterialAppend(c, d + e);
    MaterialAppend(b, c + (d + e));
    MaterialAppend(a, b + (c + (d + e)));
  }

  lemma RankValues()
    ensures MaterialOfBoard("rnbqkbnr/") == -31
    ensures MaterialOfBoard("pppppppp/") == -8
    ensures MaterialOfBoard("8/8/8/8/") == 0
    ensures MaterialOfBoard("PPPPPPPP/") == 8
    ensures MaterialOfBoard("RNBQKBNR") == 31
  {
    BlackRanks();
    WhiteRanks();
  }

  lemma BlackRanks()
    ensures MaterialOfBoard("rnbqkbnr/") == -31
    ensures MaterialOfBoard("pppppppp/") == -8
    ensures MaterialOfBoard("8/8/8/8/") == 0
  {
    BlackBackRank();
    BlackPawns();
    EmptyRanks();
  }

  lemma BlackBackRank()
    ensures MaterialOfBoard("rnbqkbnr/") == -31
  {
    assert "rnbqkbnr/" == "rnbq" + "kbnr/";
    MaterialAppend("rnbq", "kbnr/");
    QuarterValues();
  }

  lemma BlackPawns()
    ensures MaterialOfBoard("pppppppp/") == -8
  {
    assert "pppppppp/" == "pppp" + "pppp/";
    MaterialAppend("pppp", "pppp/");
    QuarterValues();
  }

  lemma EmptyRanks()
    ensures MaterialOfBoard("8/8/8/8/") == 0
  {
  }

  lemma WhiteRanks()
    ensures MaterialOfBoard("PPPPPPPP/") == 8
    ensures MaterialOfBoard("RNBQKBNR") == 31
  {
    assert "PPPPPPPP/" == "PPPP" + "PPPP/";
    MaterialAppend("PPPP", "PPPP/");
    assert "RNBQKBNR" == "RNBQ" + "KBNR";
    MaterialAppend("RNBQ", "KBNR");
    QuarterValues();
  }

  /** The halves of the back ranks and pawn ranks, each the sum of its
      pieces. */
  lemma QuarterValues()
    ensures MaterialOfBoard("rnbq") == -20 && MaterialOfBoard("kbnr/") == -11
    ensures MaterialOfBoard("pppp") == -4 && MaterialOfBoard("pppp/") == -4
    ensures MaterialOfBoard("PPPP") == 4 && MaterialOfBoard("PPPP/") == 4
    ensures MaterialOfBoard("RNBQ") == 20 && MaterialOfBoard("KBNR") == 11
  {
    BlackQuarters();
    WhiteQuarters();
  }

  lemma BlackQuarters()
    ensures MaterialOfBoard("rnbq") == -20 && MaterialOfBoard("kbnr/") == -11
    ensures MaterialOfBoard("pppp") == -4 && MaterialOfBoard("pppp/") == -4
  {
    Material4('r', 'n', 'b', 'q');
    Material5('k', 'b', 'n', 'r', '/');
    Material4('p', 'p', 'p', 'p');
    Material5('p', 'p', 'p', 'p', '/');
  }

  lemma WhiteQuarters()
    ensures MaterialOfBoard("PPPP") == 4 && MaterialOfBoard("PPPP/") == 4
    ensures MaterialOfBoard("RNBQ") == 20 && MaterialOfBoard("KBNR") == 11
  {
    Material4('P', 'P', 'P', 'P');
    Material5('P', 'P', 'P', 'P', '/');
    Material4('R', 'N', 'B', 'Q');
    Material4('K', 'B', 'N', 'R');
  }

  lemma Material4(a: char, b: char, c: char, d: char)
    ensures MaterialOfBoard([a, b, c, d]) == PieceValue(a) + PieceValue(b) + PieceValue(c) + PieceValue(d)
  {
    MaterialCons(a, [b, c, d]);
    MaterialCons(b, [c, d]);
    MaterialCons(c, [d]);
    MaterialCons(d, []);
    assert [a] + [b, c, d] == [a, b, c, d] && [b] + [c, d] == [b, c, d];
    assert [c] + [d] == [c, d] && [d] + [] == [d];
  }

  lemma MaterialCons(c: char, s: string)
    ensures MaterialOfBoard([c] + s) == PieceValue(c) + MaterialOfBoard(s)
  {
    assert ([c] + s)[1..] == s;
  }

  lemma Material5(a: char, b: char, c: char, d: char, e: char)
    ensures MaterialOfBoard([a, b, c, d, e]) == PieceValue(a) + PieceValue(b) + PieceValue(c) + PieceValue(d) + PieceValue(e)
  {
    MaterialCons(a, [b, c, d, e]);
    assert [a] + [b, c, d, e] == [a, b, c, d, e];
    Material4(b, c, d, e);
  }

  /** One candidate line of a multi-line search. */
  datatype Candidate = Candidate(score: Option<Score>, pv: Option<seq<string>>)

  datatype OnlyMoveAnswer = OnlyMoveAnswer(only: bool, bestmove: Option<string>, pv: Option<seq<string>>)

  /** The decision part of `analyzeOnlyMove`: with fewer than two candidate
      lines the move counts as forced; otherwise it is forced when the top
      two scores (missing ones as 0 and -99999) differ by more than 30. */
  function OnlyMoveDecision(lines: seq<Candidate>, bestmove: Option<string>, primaryPv: Option<seq<string>>): (r: OnlyMoveAnswer)
    ensures r.bestmove == bestmove
    ensures |lines| < 2 ==> r.only && r.pv == primaryPv
    ensures |lines| >= 2 ==> r.pv == lines[0].pv
    ensures |lines| >= 2 ==>
      (r.only <==> Grading.Abs(ScoreToCp(lines[0].score).GetOr(0) - ScoreToCp(lines[1].score).GetOr(Grading.MissingLineCp)) > 30)
  {
    if |lines| < 2 then OnlyMoveAnswer(true, bestmove, primaryPv)
    else
      var sc0 := ScoreToCp(lines[0].score).GetOr(0);
      var sc1 := ScoreToCp(lines[1].score).GetOr(Grading.MissingLineCp);
      OnlyMoveAnswer(Grading.Abs(sc0 - sc1) > 30, bestmove, lines[0].pv)
  }

  /** Two candidate lines with equal scores never make a forced move. */
  lemma EqualTopLinesNotForced(lines: seq<Candidate>, bestmove: Option<string>, pv: Option<seq<string>>)
    requires |lines| >= 2 && lines[0].score.Some? && lines[0].score == lines[1].score
    ensures !OnlyMoveDecision(lines, bestmove, pv).only
  {
  }

  /** What the engine and the board said about one ply of a game: whether
      the move parsed as a normal legal move, the position before it, its
      side to move, the three searches, and the search after the move. */
  datatype PlyAnswers = PlyAnswers(
    legal: bool,
    fen: string,
    turn: string,
    mateScore: Option<Score>,
    matePv: Option<seq<string>>,
    onlyLines: seq<Candidate>,
    onlyBestmove: Option<string>,
    onlyPrimaryPv: Option<seq<string>>,
    preScore: Option<Score>,
    prePv: Option<seq<string>>,
    postScore: Option<Score>)

  datatype Puzzle = Puzzle(fen: string, sideToMove: string, solutionPv: seq<string>, motifs: seq<string>, source: string)

  const SwingThreshold: int := -300
  const WinMaterialGain: int := 200

  /** The two-ply material gain of a line: 0 without a line, else as the
      board logic says. */
  function Gain(gainOf: (string, seq<string>) -> int, fen: string, pv: Option<seq<string>>): int {
    if pv.None? || |pv.value| == 0 then 0 else gainOf(fen, pv.value)
  }

  /** The motif list: the kind, then "win-material" for a gain of two pawns
      or more. */
  function WithWinMaterial(kind: string, gain: int): (r: seq<string>)
    ensures |r| >= 1 && r[0] == kind
    ensures "win-material" in r[1..] <==> gain >= WinMaterialGain
    ensures |r| <= 2
  {
    if gain >= WinMaterialGain then [kind, "win-material"] else [kind]
  }

  /** The only-move test fires for a forced move with a non-empty best move. */
  predicate OnlyFires(p: PlyAnswers) {
    var o := OnlyMoveDecision(p.onlyLines, p.onlyBestmove, p.onlyPrimaryPv);
    o.only && o.bestmove.Some? && o.bestmove.value != ""
  }

  function Swing(p: PlyAnswers): int {
    ScoreToCp(p.postScore).GetOr(0) - ScoreToCp(p.preScore).GetOr(0)
  }

  /** The puzzle one legal ply yields, tests in order: mate, only move,
      blunder refutation; None to go on to the next ply. */
  function Decide(p: PlyAnswers, gainOf: (string, seq<string>) -> int, source: string): (r: Option<Puzzle>)
    ensures r.Some? <==> IsMate(p.mateScore) || OnlyFires(p) || Swing(p) <= SwingThreshold
    ensures r.Some? ==> r.value.fen == p.fen && r.value.source == source && |r.value.motifs| >= 1
    ensures IsMate(p.mateScore) ==>
      r.value.motifs == ["mate"] && r.value.sideToMove == p.turn && r.value.solutionPv == p.matePv.GetOr([])
    ensures !IsMate(p.mateScore) && OnlyFires(p) ==>
      var o := OnlyMoveDecision(p.onlyLines, p.onlyBestmove, p.onlyPrimaryPv);
      && r.value.motifs == WithWinMaterial("only-move", Gain(gainOf, p.fen, o.pv))
      && r.value.motifs[0] == "only-move"
      && ("win-material" in r.value.motifs[1..] <==> Gain(gainOf, p.fen, o.pv) >= WinMaterialGain)
      && r.value.solutionPv == o.pv.GetOr([])
      && r.value.sideToMove == p.turn
    ensures !IsMate(p.mateScore) && !OnlyFires(p) && r.Some? ==>
      && r.value.motifs == WithWinMaterial("blunder-refutation", Gain(gainOf, p.fen, Some(p.prePv.GetOr([]))))
      && r.value.motifs[0] == "blunder-refutation"
      && ("win-material" in r.value.motifs[1..] <==> Gain(gainOf, p.fen, Some(p.prePv.GetOr([]))) >= WinMaterialGain)
      && r.value.solutionPv == p.prePv.GetOr([])
      && r.value.sideToMove == (if Contains(p.fen, " w ") then "white" else "black")
  {
    if IsMate(p.mateScore) then
      Some(Puzzle(p.fen, p.turn, p.matePv.GetOr([]), ["mate"], source))
    else
      var o := OnlyMoveDecision(p.onlyLines, p.onlyBestmove, p.onlyPrimaryPv);
      if OnlyFires(p) then
        Some(Puzzle(p.fen, p.turn, o.pv.GetOr([]), WithWinMaterial("only-move", Gain(gainOf, p.fen, o.pv)), source))
      else if Swing(p) <= SwingThreshold then
        var refPv := p.prePv.GetOr([]);
        Some(Puzzle(p.fen, if Contains(p.fen, " w ") then "white" else "black", refPv,
                    WithWinMaterial("blunder-refutation", Gain(gainOf, p.fen, Some(refPv))), source))
      else None
  }

  /** The index of the ply that decides a game: the first ply that yields a
      puzzle, unless an illegal move stops the walk before it. */
  function FirstDecision(plies: seq<PlyAnswers>, gainOf: (string, seq<string>) -> int, source: string): (r: Option<nat>)
    ensures r.Some? ==> r.value < |plies| && plies[r.value].legal && Decide(plies[r.value], gainOf, source).Some?
    ensures r.Some? ==> forall j :: 0 <= j < r.value ==> plies[j].legal && Decide(plies[j], gainOf, source).None?
    ensures r.None? ==> forall j :: 0 <= j < |plies| && (forall k :: 0 <= k < j ==> plies[k].legal) && plies[j].legal
                          ==> Decide(plies[j], gainOf, source).None?
  {
    if |plies| == 0 || !plies[0].legal then None
    else if Decide(plies[0], gainOf, source).Some? then Some(0)
    else
      var rest := FirstDecision(plies[1..], gainOf, source);
      assert forall j :: 1 <= j < |plies| ==> plies[j] == plies[1..][j - 1];
      if rest.Some? then Some(rest.value + 1) else None
  }

  /** The per-game loop of `main`: at most one puzzle, from the deciding
      ply. */
  function MineGame(plies: seq<PlyAnswers>, gainOf: (string, seq<string>) -> int, source: string): (r: Option<Puzzle>)
    ensures r.Some? <==> FirstDecision(plies, gainOf, source).Some?
    ensures r.Some? ==> r == Decide(plies[FirstDecision(plies, gainOf, source).value], gainOf, source)
  {
    var i := FirstDecision(plies, gainOf, source);
    if i.None? then None else Decide(plies[i.value], gainOf, source)
  }

  /** With the pool's answers, which never carry candidate lines, the first
      legal ply with a non-empty best move always yields a puzzle, a mate or
      an only-move one: the blunder-refutation rule is never reached. */
  lemma NoLinesFirstPlyDecides(plies: seq<PlyAnswers>, gainOf: (string, seq<string>) -> int, source: string)
    requires |plies| > 0 && plies[0].legal
    requires plies[0].onlyLines == [] && plies[0].onlyBestmove.Some? && plies[0].onlyBestmove.value != ""
    ensures FirstDecision(plies, gainOf, source) == Some(0)
    ensures MineGame(plies, gainOf, source).value.motifs[0] in {"mate", "only-move"}
  {
  }

  /** The puzzles a run over whole games would save with no game limit:
      one per game at most, in game order. A game that does not parse
      (None) yields nothing. */
  function FoundIn(games: seq<Option<seq<PlyAnswers>>>, gainOf: (string, seq<string>) -> int, source: string): seq<Puzzle>
    decreases |games|
  {
    if |games| == 0 then []
    else
      var here := if games[0].None? then [] else
        var p := MineGame(games[0].value, gainOf, source);
        if p.Some? then [p.value] else [];
      here + FoundIn(games[1..], gainOf, source)
  }

  /** The games that parse. */
  function Parsed(games: seq<Option<seq<PlyAnswers>>>): (n: nat)
    decreases |games|
  {
    if |games| == 0 then 0 else (if games[0].Some? then 1 else 0) + Parsed(games[1..])
  }

  /** The result of the whole run: the saved puzzles, the final `seen`
      count, and how many games of the stream were consumed. */
  datatype MineResult = MineResult(puzzles: seq<Puzzle>, seen: nat, consumed: nat)

  /** The outer loop of `main`, from a given `seen` count: a game that does
      not parse is skipped without being counted; every other game is mined
      and counted, and the loop stops once the count reaches the limit. A
      limit that is not a number (NaN) is never reached. The saved puzzles
      are those of the consumed games, and the stream is cut short only at
      the limit. */
  function MineFrom(games: seq<Option<seq<PlyAnswers>>>, limit: Decimal.Num, gainOf: (string, seq<string>) -> int, source: string, seen: nat): (r: MineResult)
    ensures r.consumed <= |games|
    ensures r.puzzles == FoundIn(games[..r.consumed], gainOf, source)
    ensures r.seen == seen + Parsed(games[..r.consumed])
    ensures r.consumed < |games| ==> limit.Finite? && r.seen >= limit.v
    ensures limit.Finite? && seen < limit.v ==> r.seen <= limit.v
    ensures limit.NaN? ==> r.consumed == |games|
    decreases |games|
  {
    if |games| == 0 then MineResult([], seen, 0)
    else
      assert games[..1][1..] == [];
      if games[0].None? then
        var rest := MineFrom(games[1..], limit, gainOf, source, seen);
        assert games[..rest.consumed + 1][1..] == games[1..][..rest.consumed];
        MineResult(rest.puzzles, rest.seen, rest.consumed + 1)
      else
        var p := MineGame(games[0].value, gainOf, source);
        var here := if p.Some? then [p.value] else [];
        if limit.Finite? && seen + 1 >= limit.v then
          assert FoundIn(games[..1][1..], gainOf, source) == [];
          MineResult(here, seen + 1, 1)
        else
          var rest := MineFrom(games[1..], limit, gainOf, source, seen + 1);
          assert games[..rest.consumed + 1][1..] == games[1..][..rest.consumed];
          MineResult(here + rest.puzzles, rest.seen, rest.consumed + 1)
  }

  /** The limit argument as `parseInt(arg || "50", 10)` reads it; an absent
      argument is the empty string. */
  function LimitOf(arg: string): Decimal.Num {
    Decimal.ParseInt(if arg == "" then "50" else arg)
  }

  /** `main`'s loop from a zero count, with the limit argument: 50 games
      when it is absent, every game of the stream when it is not a number. */
  function MineAll(games: seq<Option<seq<PlyAnswers>>>, limitArg: string, gainOf: (string, seq<string>) -> int, source: string): (r: MineResult)
    ensures r.consumed <= |games|
    ensures r.puzzles == FoundIn(games[..r.consumed], gainOf, source)
    ensures r.seen == Parsed(games[..r.consumed])
    ensures r.consumed < |games| ==> LimitOf(limitArg).Finite? && r.seen >= LimitOf(limitArg).v
    ensures LimitOf(limitArg).Finite? && LimitOf(limitArg).v > 0 ==> r.seen <= LimitOf(limitArg).v
    ensures LimitOf(limitArg).NaN? ==> r.consumed == |games|
    ensures limitArg == "" ==> r.seen <= 50
  {
    if limitArg == "" then
      DefaultLimit();
      MineFrom(games, LimitOf(limitArg), gainOf, source, 0)
    else MineFrom(games, LimitOf(limitArg), gainOf, source, 0)
  }

  /** Without the argument the limit is 50 games. */
  lemma DefaultLimit()
    ensures LimitOf("") == Decimal.Finite(50)
  {
    var d := "50";
    assert Decimal.AllDigits(d);
    Decimal.TrimStartNoSpace(d);
    Decimal.SignedUnsigned(d);
    Decimal.DigitRun(d, "");
    assert d + "" == d;
    assert d[..1] == "5" && d[..1][..0] == "";
  }

  /** At most one puzzle is saved per counted game. */
  lemma {:induction false} AtMostOnePerGame(games: seq<Option<seq<PlyAnswers>>>, gainOf: (string, seq<string>) -> int, source: string)
    ensures |FoundIn(games, gainOf, source)| <= Parsed(games)
    decreases |games|
  {
    if |games| > 0 {
      AtMostOnePerGame(games[1..], gainOf, source);
    }
  }
}

=== FILE: puzzle_page.dfy ===
/** The progression state machine of the puzzle page
    (src/app/puzzle/page.tsx): loading a puzzle, dropping a piece, resetting
    and playing the whole line. Applying a UCI move to a FEN (`applyMoveUci`,
    a chess-rules library call) is a parameter. */
module PuzzlePage {
  import opened Wrappers

  /** A puzzle as the page holds it: the start position and the parsed
      solution line. */
  datatype Puzzle = Puzzle(fen: string, pv: seq<string>)

  /** The page state: the puzzle, the board position, the index of the next
      expected move, the message line and the solved flag. */
  datatype View = View(pz: Option<Puzzle>, fen: Option<string>, idx: nat, message: Option<string>, solved: bool)

  type Apply = (string, string) -> Option<string>

  const IncorrectMessage: string := "Incorrect. Try again."

  /** A JavaScript string in a truth test: only the empty string is false. */
  predicate Truthy(s: Option<string>) {
    s.Some? && s.value != ""
  }

  /** One move applied as the page uses the result: a missing or empty
      position counts as failure. */
  function Play(apply: Apply, fen: string, uci: string): (r: Option<string>)
    ensures r.Some? ==> r.value != "" && r == apply(fen, uci)
    ensures r.None? <==> !Truthy(apply(fen, uci))
  {
    var n := apply(fen, uci);
    if Truthy(n) then n else None
  }

  /** `pv[i]`, undefined past the end. */
  function MoveAt(pv: seq<string>, i: nat): Option<string> {
    if i < |pv| then Some(pv[i]) else None
  }

  /** The first four characters, so a promotion suffix is not compared. */
  function FromTo(uci: string): (r: string)
    ensures |r| == if |uci| < 4 then |uci| else 4
    ensures r <= uci
  {
    if |uci| <= 4 then uci else uci[..4]
  }

  const Empty: View := View(None, None, 0, None, false)

  /** The load effect: the fetched puzzle, its position, index 0, not
      solved, no message. */
  function Load(p: Puzzle): (v: View)
    ensures v.pz == Some(p) && v.fen == Some(p.fen) && v.idx == 0 && !v.solved && v.message.None?
  {
    View(Some(p), Some(p.fen), 0, None, false)
  }

  /** `onPieceDrop`: the new view and whether the drop is accepted. */
  function Drop(v: View, from: string, to: string, apply: Apply): (View, bool)
  {
    if v.pz.None? || !Truthy(v.fen) || v.solved then (v, false)
    else
      var pv := v.pz.value.pv;
      var expected := MoveAt(pv, v.idx);
      if !Truthy(expected) then (v, false)
      else if from + to != FromTo(expected.value) then (v.(message := Some(IncorrectMessage)), false)
      else
        var next := Play(apply, v.fen.value, expected.value);
        if next.None? then (v, false)
        else
          var i1 := v.idx + 1;
          var reply := MoveAt(pv, i1);
          var after := if Truthy(reply) then Play(apply, next.value, reply.value) else None;
          var fen := if after.Some? then after.value else next.value;
          var i2 := if after.Some? then i1 + 1 else i1;
          (View(v.pz, Some(fen), i2, None, v.solved || i2 >= |pv|), true)
  }

  /** The conditions under which a drop is accepted. */
  predicate Accepts(v: View, from: string, to: string, apply: Apply) {
    v.pz.Some? && Truthy(v.fen) && !v.solved
    && v.idx < |v.pz.value.pv| && v.pz.value.pv[v.idx] != ""
    && from + to == FromTo(v.pz.value.pv[v.idx])
    && Play(apply, v.fen.value, v.pz.value.pv[v.idx]).Some?
  }

  /** A drop is accepted exactly under those conditions. An accepted drop
      advances by one or two moves, clears the message and keeps the
      puzzle; a refused one changes nothing but, on a wrong move, the
      message. */
  lemma DropOutcome(v: View, from: string, to: string, apply: Apply)
    ensures Drop(v, from, to, apply).1 <==> Accepts(v, from, to, apply)
    ensures Drop(v, from, to, apply).1 ==>
      var w := Drop(v, from, to, apply).0;
      w.pz == v.pz && w.message.None? && v.idx + 1 <= w.idx <= v.idx + 2 && w.fen.Some?
    ensures !Drop(v, from, to, apply).1 ==>
      Drop(v, from, to, apply).0 == v || Drop(v, from, to, apply).0 == v.(message := Some(IncorrectMessage))
  {
  }

  /** A wrong move is refused with the message and leaves the position and
      the index where they were. */
  lemma WrongMoveRefused(v: View, from: string, to: string, apply: Apply)
    requires v.pz.Some? && Truthy(v.fen) && !v.solved
    requires v.idx < |v.pz.value.pv| && v.pz.value.pv[v.idx] != ""
    requires from + to != FromTo(v.pz.value.pv[v.idx])
    ensures Drop(v, from, to, apply) == (v.(message := Some(IncorrectMessage)), false)
  {
  }

  /** A promotion is accepted from its squares alone. */
  lemma PromotionSuffixIgnored(v: View, from: string, to: string, promo: char, apply: Apply)
    requires |from| == 2 && |to| == 2
    requires v.pz.Some? && Truthy(v.fen) && !v.solved
    requires v.idx < |v.pz.value.pv| && v.pz.value.pv[v.idx] == from + to + [promo]
    requires Play(apply, v.fen.value, v.pz.value.pv[v.idx]).Some?
    ensures Drop(v, from, to, apply).1
  {
    var e := from + to + [promo];
    assert e[..4] == from + to;
  }

  /** The page's consistency: the index never passes the end of the line,
      and the puzzle counts as solved exactly when the index has reached
      the end of a non-empty line (or the line was played out). */
  predicate Consistent(v: View) {
    v.pz.Some? ==>
      v.idx <= |v.pz.value.pv|
      && (v.solved ==> v.idx == |v.pz.value.pv|)
      && (v.idx == |v.pz.value.pv| && v.idx > 0 ==> v.solved)
  }

  lemma DropConsistent(v: View, from: string, to: string, apply: Apply)
    requires Consistent(v)
    ensures Consistent(Drop(v, from, to, apply).0)
  {
  }

  /** `reset`: the puzzle's position, index 0, not solved, no message;
      nothing without a puzzle. */
  function Reset(v: View): (w: View)
    ensures v.pz.None? ==> w == v
    ensures v.pz.Some? ==> w.pz == v.pz && w.fen == Some(v.pz.value.fen) && w.idx == 0 && !w.solved && w.message.None?
    ensures Consistent(w) || !Consistent(v)
  {
    if v.pz.None? then v
    else v.(fen := Some(v.pz.value.fen), idx := 0, solved := false, message := None)
  }

  /** Reset from any state gives the state the load gave. */
  lemma ResetIsLoad(v: View)
    requires v.pz.Some?
    ensures Reset(v) == Load(v.pz.value)
  {
  }

  /** The moves applied in order, failing when any one fails. */
  function Replay(apply: Apply, fen: string, moves: seq<string>): Option<string>
    decreases |moves|
  {
    if |moves| == 0 then Some(fen)
    else
      var n := Play(apply, fen, moves[0]);
      if n.None? then None else Replay(apply, n.value, moves[1..])
  }

  lemma {:induction false} ReplaySnoc(apply: Apply, fen: string, moves: seq<string>, m: string)
    ensures Replay(apply, fen, moves + [m]) ==
      (if Replay(apply, fen, moves).None? then None else Play(apply, Replay(apply, fen, moves).value, m))
    decreases |moves|
  {
    if |moves| > 0 {
      assert (moves + [m])[1..] == moves[1..] + [m];
      var n := Play(apply, fen, moves[0]);
      if n.Some? {
        ReplaySnoc(apply, n.value, moves[1..], m);
      }
    }
  }

  /** A line that replays in full replays in every prefix. */
  lemma {:induction false} ReplayPrefix(apply: Apply, fen: string, moves: seq<string>, k: nat)
    requires k <= |moves|
    requires Replay(apply, fen, moves).Some?
    ensures Replay(apply, fen, moves[..k]).Some?
    decreases |moves|
  {
    if k > 0 {
      var n := Play(apply, fen, moves[0]);
      assert moves[..k][1..] == moves[1..][..k - 1];
      ReplayPrefix(apply, n.value, moves[1..], k - 1);
    }
  }

  /** The loop of `playAll`: moves applied in order until one fails. */
  function PlayUntilFailure(apply: Apply, fen: string, moves: seq<string>): (r: string)
    ensures Replay(apply, fen, moves).Some? ==> r == Replay(apply, fen, moves).value
    ensures StopsAt(apply, fen, moves, r)
    decreases |moves|
  {
    if |moves| == 0 then
      assert Replay(apply, fen, moves[..0]) == Some(fen);
      fen
    else
      var n := Play(apply, fen, moves[0]);
      if n.None? then
        assert Replay(apply, fen, moves[..0]) == Some(fen);
        fen
      else
        var r := PlayUntilFailure(apply, n.value, moves[1..]);
        StopsAtStep(apply, fen, moves, n.value, r);
        r
  }

  /** `r` is the position after the longest playable prefix of `moves`: the
      first `k` moves replay to `r`, and either the line is used up or move
      `k` cannot be played there. */
  predicate StopsAt(apply: Apply, fen: string, moves: seq<string>, r: string) {
    exists k :: 0 <= k <= |moves| && Replay(apply, fen, moves[..k]) == Some(r) && (k == |moves| || Play(apply, r, moves[k]).None?)
  }

  /** A first move that plays, then a stop in the rest, is a stop in the
      whole line one move later. */
  lemma StopsAtStep(apply: Apply, fen: string, moves: seq<string>, n: string, r: string)
    requires |moves| > 0 && Play(apply, fen, moves[0]) == Some(n)
    requires StopsAt(apply, n, moves[1..], r)
    ensures StopsAt(apply, fen, moves, r)
  {
    var k :| 0 <= k <= |moves[1..]| && Replay(apply, n, moves[1..][..k]) == Some(r)
      && (k == |moves[1..]| || Play(apply, r, moves[1..][k]).None?);
    assert moves[..k + 1][0] == moves[0] && moves[..k + 1][1..] == moves[1..][..k];
    assert Replay(apply, fen, moves[..k + 1]) == Some(r);
  }

  /** `playAll`: the position after the playable part of the line, the
      index at the end, solved. */
  function PlayAll(v: View, apply: Apply): (w: View)
    ensures v.pz.None? ==> w == v
    ensures v.pz.Some? ==> w.pz == v.pz && w.idx == |v.pz.value.pv| && w.solved && w.message == v.message
    ensures v.pz.Some? ==> w.fen == Some(PlayUntilFailure(apply, v.pz.value.fen, v.pz.value.pv))
    ensures v.pz.Some? ==> w.fen.Some? && StopsAt(apply, v.pz.value.fen, v.pz.value.pv, w.fen.value)
    ensures Consistent(w)
  {
    if v.pz.None? then v
    else v.(fen := Some(PlayUntilFailure(apply, v.pz.value.fen, v.pz.value.pv)), idx := |v.pz.value.pv|, solved := true)
  }

  /** The board follows the solution line: the position is the line replayed
      up to the index. */
  predicate OnLine(v: View, apply: Apply) {
    v.pz.Some? && v.idx <= |v.pz.value.pv|
    && var r := Replay(apply, v.pz.value.fen, v.pz.value.pv[..v.idx]);
    r.Some? && v.fen == r
  }

  /** A correct drop keeps the board on the line, with the opponent's reply
      played when it applies. */
  lemma DropStaysOnLine(v: View, from: string, to: string, apply: Apply)
    requires OnLine(v, apply)
    requires Drop(v, from, to, apply).1
    ensures OnLine(Drop(v, from, to, apply).0, apply)
  {
    var pv := v.pz.value.pv;
    var f0 := v.pz.value.fen;
    var i := v.idx;
    var w := Drop(v, from, to, apply).0;
    DropAdvance(v, from, to, apply);
    var next := Play(apply, v.fen.value, pv[i]).value;
    ReplayStep(apply, f0, pv, i, v.fen.value);
    if w.idx == i + 2 {
      ReplayStep(apply, f0, pv, i + 1, next);
    }
  }

  /** Replaying one more move of the line plays it on the position reached. */
  lemma ReplayStep(apply: Apply, f0: string, pv: seq<string>, i: nat, fen: string)
    requires i < |pv| && Replay(apply, f0, pv[..i]) == Some(fen)
    ensures Replay(apply, f0, pv[..i + 1]) == Play(apply, fen, pv[i])
  {
    assert pv[..i + 1] == pv[..i] + [pv[i]];
    ReplaySnoc(apply, f0, pv[..i], pv[i]);
  }

  /** An accepted drop plays the expected move, then the reply when it
      applies. */
  lemma DropAdvance(v: View, from: string, to: string, apply: Apply)
    requires Drop(v, from, to, apply).1
    ensures v.pz.Some? && v.fen.Some? && v.idx < |v.pz.value.pv|
    ensures Play(apply, v.fen.value, v.pz.value.pv[v.idx]).Some?
    ensures var w := Drop(v, from, to, apply).0;
      var next := Play(apply, v.fen.value, v.pz.value.pv[v.idx]).value;
      && w.pz == v.pz
      && ((w.idx == v.idx + 1 && w.fen == Some(next))
          || (v.idx + 1 < |v.pz.value.pv| && w.idx == v.idx + 2 && w.fen == Play(apply, next, v.pz.value.pv[v.idx + 1])))
  {
  }

  /** Solving the puzzle move by move leaves the board where `playAll`
      leaves it. */
  lemma SolvedBoardMatchesPlayAll(v: View, apply: Apply)
    requires OnLine(v, apply) && v.idx == |v.pz.value.pv|
    requires Replay(apply, v.pz.value.fen, v.pz.value.pv).Some?
    ensures PlayAll(v, apply).fen == v.fen
  {
    assert v.pz.value.pv[..v.idx] == v.pz.value.pv;
  }
}

=== FILE: report_details.dfy ===
/** The latest-report details route (`GET`): validation of the stored
    positions and moves, the per-ply engine requests, and the report made of
    the per-ply grades and their aggregates. The engine and the move resolver
    (SAN parsing with its from/to/promotion fallback) are parameters. */
module ReportDetails {
  import opened Wrappers
  import opened Scores
  import opened Grading
  import opened Aggregate

  const InitialFen: string := "rnbqkbnr/pppppppp/8/8/8/8/PPPPPPPP/RNBQKBNR w KQkq - 0 1"
  const DefaultDepth: int := 12

  /** The stored report the route reads: its position list, move list,
      search depth and optional strength limit. */
  datatype StoredReport = StoredReport(fens: seq<string>, sans: seq<string>, depth: Option<int>, elo: Option<int>)

  /** A request as the route builds it; `multiPv` and `searchMoves` are
      passed along although the pool ignores them. */
  datatype Request = Request(
    fen: string,
    depth: int,
    elo: Option<int>,
    limitStrength: bool,
    multiPv: nat,
    searchMoves: seq<string>)

  /** What the route reads from an analysis: the primary score and line, and
      the candidate lines (`infos`), which the pool never fills. */
  datatype Answer = Answer(score: Option<Score>, pv: Option<seq<string>>, lines: seq<Option<Score>>)

  datatype Failure = NotFound | InvalidStoredData

  datatype Details = Details(perMove: seq<PlyGrade>, aggregates: Aggregates)

  predicate ValidStored(r: StoredReport) {
    |r.fens| > 0 && |r.sans| > 0 && |r.fens| == |r.sans|
  }

  /** The position before ply `i`: the standard start for the first ply,
      the previous stored position afterwards. */
  function PreFen(r: StoredReport, i: nat): string
    requires i < |r.fens|
  {
    if i == 0 then InitialFen else r.fens[i - 1]
  }

  function BaseRequest(r: StoredReport, fen: string, moves: seq<string>): Request {
    Request(fen, r.depth.GetOr(DefaultDepth), r.elo, r.elo.Some?, DetailsMultiPv, moves)
  }

  /** The engine answers gathered for ply `i`: the best-move search, and the
      search restricted to the played move when it resolves to UCI. */
  function ProbeAt(
    r: StoredReport, i: nat,
    analyze: Request -> Answer,
    resolve: (string, string, string) -> Option<string>): PlyProbe
    requires i < |r.fens| && i < |r.sans|
  {
    var pre := PreFen(r, i);
    var best := analyze(BaseRequest(r, pre, []));
    var uci := resolve(pre, r.sans[i], r.fens[i]);
    var played :=
      if uci.Some? then
        var a := analyze(BaseRequest(r, pre, [uci.value]));
        Some(PlayedProbe(a.score, a.pv))
      else None;
    PlyProbe(best.score, best.pv, best.lines, played)
  }

  /** The grades of the first `n` plies, in ply order. */
  function GradeAll(
    r: StoredReport, n: nat,
    analyze: Request -> Answer,
    resolve: (string, string, string) -> Option<string>): (gs: seq<PlyGrade>)
    requires n <= |r.fens| && n <= |r.sans|
    ensures |gs| == n
    ensures forall i :: 0 <= i < n ==> gs[i] == GradePly(i, ProbeAt(r, i, analyze, resolve))
    ensures forall i :: 0 <= i < n ==> gs[i].ply == i + 1 && gs[i].phase == PhaseOfIndex(i)
  {
    if n == 0 then []
    else GradeAll(r, n - 1, analyze, resolve) + [GradePly(n - 1, ProbeAt(r, n - 1, analyze, resolve))]
  }

  /** `GET`: 404 without a stored report, 400 when either list is empty or
      their lengths differ, otherwise one grade per stored position plus the
      aggregates over them. */
  function GetDetails(
    stored: Option<StoredReport>,
    analyze: Request -> Answer,
    resolve: (string, string, string) -> Option<string>): (res: Result<Details, Failure>)
    ensures stored.None? <==> res == Failure(NotFound)
    ensures stored.Some? ==> (res == Failure(InvalidStoredData) <==> !ValidStored(stored.value))
    ensures res.Success? ==> |res.value.perMove| == |stored.value.fens|
    ensures res.Success? ==> forall i :: 0 <= i < |res.value.perMove| ==>
      res.value.perMove[i] == GradePly(i, ProbeAt(stored.value, i, analyze, resolve))
    ensures res.Success? ==> res.value.aggregates == AggregateAll(res.value.perMove)
  {
    if stored.None? then Failure(NotFound)
    else
      var r := stored.value;
      if !ValidStored(r) then Failure(InvalidStoredData)
      else
        var gs := GradeAll(r, |r.fens|, analyze, resolve);
        Success(Details(gs, AggregateAll(gs)))
  }

  /** Two requests the pool cannot tell apart: same position, depth and
      strength limit. */
  predicate SamePoolKey(a: Request, b: Request) {
    a.fen == b.fen && a.depth == b.depth && a.elo == b.elo
  }

  /** If the engine answers every request by its pool key (as the pool's
      dedupe does within its window, and as its commands do since they never
      carry the move restriction) and every played move resolves, every ply
      of the report has zero loss and is tagged Best. */
  lemma EveryPlyBestUnderPoolKey(
    stored: StoredReport,
    analyze: Request -> Answer,
    resolve: (string, string, string) -> Option<string>)
    requires ValidStored(stored)
    requires forall a, b :: SamePoolKey(a, b) ==> analyze(a) == analyze(b)
    requires forall i :: 0 <= i < |stored.fens| ==> resolve(PreFen(stored, i), stored.sans[i], stored.fens[i]).Some?
    ensures var res := GetDetails(Some(stored), analyze, resolve);
      res.Success? && forall i :: 0 <= i < |res.value.perMove| ==>
        res.value.perMove[i].cpl == 0 && res.value.perMove[i].tag == Best
  {
    var res := GetDetails(Some(stored), analyze, resolve);
    forall i | 0 <= i < |res.value.perMove|
      ensures res.value.perMove[i].cpl == 0 && res.value.perMove[i].tag == Best
    {
      PlyBestUnderPoolKey(stored, i, analyze, resolve);
    }
  }

  lemma PlyBestUnderPoolKey(
    stored: StoredReport, i: nat,
    analyze: Request -> Answer,
    resolve: (string, string, string) -> Option<string>)
    requires ValidStored(stored) && i < |stored.fens|
    requires forall a, b :: SamePoolKey(a, b) ==> analyze(a) == analyze(b)
    requires resolve(PreFen(stored, i), stored.sans[i], stored.fens[i]).Some?
    ensures GradePly(i, ProbeAt(stored, i, analyze, resolve)).cpl == 0
    ensures GradePly(i, ProbeAt(stored, i, analyze, resolve)).tag == Best
  {
    var pre := PreFen(stored, i);
    var uci := resolve(pre, stored.sans[i], stored.fens[i]);
    var q1 := BaseRequest(stored, pre, []);
    var q2 := BaseRequest(stored, pre, [uci.value]);
    assert SamePoolKey(q1, q2);
    assert analyze(q1) == analyze(q2);
    var p := ProbeAt(stored, i, analyze, resolve);
    assert p.played == Some(PlayedProbe(analyze(q2).score, analyze(q2).pv));
    SameAnswerIsBest(i, p);
  }

  /** Two requests a pool keyed as the route needs cannot tell apart: the
      pool's key plus the line count and the move restriction. */
  predicate SameFullKey(a: Request, b: Request) {
    SamePoolKey(a, b) && a.multiPv == b.multiPv && a.searchMoves == b.searchMoves
  }

  /** The best-move request of a ply and its played-move request share the
      pool's key, and only the full key separates them. */
  lemma PlyRequestsDistinct(stored: StoredReport, i: nat, uci: string)
    requires i < |stored.fens|
    ensures SamePoolKey(BaseRequest(stored, PreFen(stored, i), []), BaseRequest(stored, PreFen(stored, i), [uci]))
    ensures !SameFullKey(BaseRequest(stored, PreFen(stored, i), []), BaseRequest(stored, PreFen(stored, i), [uci]))
  {
    assert BaseRequest(stored, PreFen(stored, i), [uci]).searchMoves == [uci];
  }

  /** The answer of the played-move search of ply `i`, when the move resolves. */
  function PlayedAnswer(
    stored: StoredReport, i: nat,
    analyze: Request -> Answer,
    resolve: (string, string, string) -> Option<string>): Option<Answer>
    requires i < |stored.fens| && i < |stored.sans|
  {
    var pre := PreFen(stored, i);
    var uci := resolve(pre, stored.sans[i], stored.fens[i]);
    if uci.Some? then Some(analyze(BaseRequest(stored, pre, [uci.value]))) else None
  }

  /** With a pool that answers by the full key, the restricted search is
      graded: a played move that loses more than 600 centipawns against a
      best line without mate is a Blunder with that loss. */
  lemma PlayedBlunderReported(
    stored: StoredReport, i: nat,
    analyze: Request -> Answer,
    resolve: (string, string, string) -> Option<string>)
    requires ValidStored(stored) && i < |stored.fens|
    requires forall a, b :: SameFullKey(a, b) ==> analyze(a) == analyze(b)
    requires PlayedAnswer(stored, i, analyze, resolve).Some?
    requires analyze(BaseRequest(stored, PreFen(stored, i), [])).score.Some?
    requires analyze(BaseRequest(stored, PreFen(stored, i), [])).score.value.Cp?
    requires PlayedAnswer(stored, i, analyze, resolve).value.score.Some?
    requires PlayedAnswer(stored, i, analyze, resolve).value.score.value.Cp?
    requires analyze(BaseRequest(stored, PreFen(stored, i), [])).score.value.cp
           - PlayedAnswer(stored, i, analyze, resolve).value.score.value.cp > 600
    ensures GradePly(i, ProbeAt(stored, i, analyze, resolve)).cpl ==
      analyze(BaseRequest(stored, PreFen(stored, i), [])).score.value.cp - PlayedAnswer(stored, i, analyze, resolve).value.score.value.cp
    ensures GradePly(i, ProbeAt(stored, i, analyze, resolve)).tag == Blunder
  {
    var p := ProbeAt(stored, i, analyze, resolve);
    assert p.best == analyze(BaseRequest(stored, PreFen(stored, i), [])).score;
    assert PlayedScore(p) == PlayedAnswer(stored, i, analyze, resolve).value.score;
  }

  /** With a pool that answers by the full key, every resolved ply of the
      report is graded against its own played-move search. */
  lemma PlayedAnswersGraded(
    stored: StoredReport,
    analyze: Request -> Answer,
    resolve: (string, string, string) -> Option<string>)
    requires ValidStored(stored)
    requires forall a, b :: SameFullKey(a, b) ==> analyze(a) == analyze(b)
    ensures var res := GetDetails(Some(stored), analyze, resolve);
      res.Success? && forall i :: 0 <= i < |res.value.perMove| && PlayedAnswer(stored, i, analyze, resolve).Some? ==>
        res.value.perMove[i].cpl == Cpl(ScoreToCp(analyze(BaseRequest(stored, PreFen(stored, i), [])).score).GetOr(0),
          ScoreToCp(PlayedAnswer(stored, i, analyze, resolve).value.score)
            .GetOr(ScoreToCp(analyze(BaseRequest(stored, PreFen(stored, i), [])).score).GetOr(0)))
  {
    var res := GetDetails(Some(stored), analyze, resolve);
    forall i | 0 <= i < |res.value.perMove| && PlayedAnswer(stored, i, analyze, resolve).Some?
      ensures res.value.perMove[i].cpl == Cpl(ScoreToCp(analyze(BaseRequest(stored, PreFen(stored, i), [])).score).GetOr(0),
          ScoreToCp(PlayedAnswer(stored, i, analyze, resolve).value.score)
            .GetOr(ScoreToCp(analyze(BaseRequest(stored, PreFen(stored, i), [])).score).GetOr(0)))
    {
      PlyAnswerGraded(stored, i, analyze, resolve);
    }
  }

  /** One ply of `PlayedAnswersGraded`: the grade of the probe at `i` uses
      the played answer when there is one. */
  lemma PlyAnswerGraded(
    stored: StoredReport,
    i: nat,
    analyze: Request -> Answer,
    resolve: (string, string, string) -> Option<string>)
    requires ValidStored(stored) && i < |stored.fens|
    requires PlayedAnswer(stored, i, analyze, resolve).Some?
    ensures GradePly(i, ProbeAt(stored, i, analyze, resolve)).cpl == Cpl(ScoreToCp(analyze(BaseRequest(stored, PreFen(stored, i), [])).score).GetOr(0),
      ScoreToCp(PlayedAnswer(stored, i, analyze, resolve).value.score)
        .GetOr(ScoreToCp(analyze(BaseRequest(stored, PreFen(stored, i), [])).score).GetOr(0)))
  {
    var p := ProbeAt(stored, i, analyze, resolve);
    assert p.best == analyze(BaseRequest(stored, PreFen(stored, i), [])).score;
    assert PlayedScore(p) == PlayedAnswer(stored, i, analyze, resolve).value.score;
  }

  /** With answers that carry no candidate lines, as the pool's do, no ply
      is ever an only move. */
  lemma NoOnlyMoveWithoutLines(
    stored: StoredReport,
    analyze: Request -> Answer,
    resolve: (string, string, string) -> Option<string>)
    requires ValidStored(stored)
    requires forall q :: analyze(q).lines == []
    ensures var res := GetDetails(Some(stored), analyze, resolve);
      res.Success? && forall i :: 0 <= i < |res.value.perMove| ==> !res.value.perMove[i].onlyMove
  {
    var res := GetDetails(Some(stored), analyze, resolve);
    forall i | 0 <= i < |res.value.perMove|
      ensures !res.value.perMove[i].onlyMove
    {
      NoLinesNoOnlyMove(i, ProbeAt(stored, i, analyze, resolve));
    }
  }
}

=== FILE: report_generate.dfy ===
/** The report-generation route (`POST /api/report/generate`): one engine
    evaluation per position, the older delta-based tagger, and the accuracy
    over consecutive evaluation differences. The engine is a parameter and the
    stored record is returned instead of written. */
module ReportGenerate {
  import opened Wrappers
  import opened Scores
  import Grading
  import Aggregate

  const DefaultDepth: int := 12

  /** The labels of the delta tagger; NoTag is the empty string. */
  datatype DeltaTag = NoTag | Blunder | MissedWin | Mistake | GoodFind | Inaccuracy | Improvement

  function DeltaTagText(t: DeltaTag): string {
    match t
    case NoTag => ""
    case Blunder => "Blunder"
    case MissedWin => "Missed Win"
    case Mistake => "Mistake"
    case GoodFind => "Good Find"
    case Inaccuracy => "Inaccuracy"
    case Improvement => "Improvement"
  }

  /** The labels chosen for a drop in evaluation. */
  predicate IsDropLabel(t: DeltaTag) {
    t == Blunder || t == Mistake || t == Inaccuracy
  }

  /** Each drop label against the rise label of the same threshold. */
  function Mirror(t: DeltaTag): DeltaTag {
    match t
    case NoTag => NoTag
    case Blunder => MissedWin
    case MissedWin => Blunder
    case Mistake => GoodFind
    case GoodFind => Mistake
    case Inaccuracy => Improvement
    case Improvement => Inaccuracy
  }

  /** `tagFromDelta`: the size of `next - prev` picks the threshold (300, 150,
      50) and its sign picks the drop or the rise label. */
  function TagFromDelta(prevCp: int, nextCp: int): (r: DeltaTag)
    ensures r == NoTag <==> Grading.Abs(nextCp - prevCp) < 50
    ensures (r == Blunder || r == MissedWin) <==> Grading.Abs(nextCp - prevCp) >= 300
    ensures (r == Mistake || r == GoodFind) <==> 150 <= Grading.Abs(nextCp - prevCp) < 300
    ensures (r == Inaccuracy || r == Improvement) <==> 50 <= Grading.Abs(nextCp - prevCp) < 150
    ensures r != NoTag ==> (IsDropLabel(r) <==> nextCp - prevCp < 0)
  {
    var delta := nextCp - prevCp;
    var ad := Grading.Abs(delta);
    if ad >= 300 then (if delta < 0 then Blunder else MissedWin)
    else if ad >= 150 then (if delta < 0 then Mistake else GoodFind)
    else if ad >= 50 then (if delta < 0 then Inaccuracy else Improvement)
    else NoTag
  }

  /** Only the difference of the two evaluations matters. */
  lemma TagFromDeltaShift(a: int, b: int, k: int)
    ensures TagFromDelta(a + k, b + k) == TagFromDelta(a, b)
  {
  }

  /** Reversing the direction of the change swaps each drop label with the
      rise label of the same threshold. */
  lemma TagFromDeltaReverse(a: int, b: int)
    ensures TagFromDelta(b, a) == Mirror(TagFromDelta(a, b))
  {
  }

  /** The evaluation of one position: the centipawn value of the primary
      score, 0 when there is none. */
  function EvalOf(s: Option<Score>): int {
    ScoreToCp(s).GetOr(0)
  }

  /** The tag list: "" for the first position, then the delta tag of each
      position against the one before it. */
  method DeltaTags(evals: seq<int>) returns (tags: seq<DeltaTag>)
    ensures |tags| == |evals|
    ensures |tags| > 0 ==> tags[0] == NoTag
    ensures forall i :: 1 <= i < |evals| ==> tags[i] == TagFromDelta(evals[i - 1], evals[i])
  {
    tags := [];
    var i := 0;
    while i < |evals|
      invariant 0 <= i <= |evals|
      invariant |tags| == i
      invariant i > 0 ==> tags[0] == NoTag
      invariant forall k :: 1 <= k < i ==> tags[k] == TagFromDelta(evals[k - 1], evals[k])
    {
      if i == 0 {
        tags := tags + [NoTag];
      } else {
        tags := tags + [TagFromDelta(evals[i - 1], evals[i])];
      }
      i := i + 1;
    }
  }

  /** Sum of |evals[k] - evals[k-1]| over consecutive pairs. */
  function SumAbsDeltas(evals: seq<int>): (r: nat)
    ensures r == 0 <==> forall k :: 1 <= k < |evals| ==> evals[k] == evals[k - 1]
  {
    if |evals| <= 1 then 0
    else
      var init := evals[..|evals| - 1];
      assert forall k :: 0 <= k < |init| ==> init[k] == evals[k];
      SumAbsDeltas(init) + Grading.Abs(evals[|evals| - 1] - evals[|evals| - 2])
  }

  /** The accuracy the route computes from the evaluations: 100 for at most
      one position, otherwise the accuracy scale applied to the mean
      absolute change in pawns between consecutive positions. */
  function AccuracyOfEvals(evals: seq<int>): real {
    if |evals| <= 1 then 100.0
    else Aggregate.AccuracyFromAvgPawns((SumAbsDeltas(evals) as real / 100.0) / (|evals| - 1) as real)
  }

  /** The accuracy of the generated report: the mean absolute change in
      pawns between consecutive positions on the 8-pawn scale, 100 when
      there is a single position, and 100 exactly when the evaluation never
      changes. */
  method DeltaAccuracy(evals: seq<int>) returns (acc: real)
    ensures 0.0 <= acc <= 100.0
    ensures |evals| <= 1 ==> acc == 100.0
    ensures acc == 100.0 <==> forall k :: 1 <= k < |evals| ==> evals[k] == evals[k - 1]
    ensures |evals| > 1 ==> acc == Aggregate.AccuracyFromAvgPawns((SumAbsDeltas(evals) as real / 100.0) / (|evals| - 1) as real)
    ensures acc == AccuracyOfEvals(evals)
  {
    if |evals| <= 1 {
      return 100.0;
    }
    var sumAbs: real := 0.0;
    var i := 1;
    while i < |evals|
      invariant 1 <= i <= |evals|
      invariant sumAbs == SumAbsDeltas(evals[..i]) as real / 100.0
    {
      assert evals[..i + 1][..i] == evals[..i];
      sumAbs := sumAbs + Grading.Abs(evals[i] - evals[i - 1]) as real / 100.0;
      i := i + 1;
    }
    assert evals[..|evals|] == evals;
    var avg := sumAbs / (|evals| - 1) as real;
    acc := Aggregate.AccuracyFromAvgPawns(avg);
    MeanAccuracy(SumAbsDeltas(evals), |evals| - 1);
  }

  /** The accuracy of a mean of absolute changes is perfect exactly when
      their sum is zero. */
  lemma MeanAccuracy(sum: nat, n: nat)
    requires n > 0
    ensures Aggregate.AccuracyFromAvgPawns((sum as real / 100.0) / n as real) == 100.0 <==> sum == 0
  {
    var avg := (sum as real / 100.0) / n as real;
    if sum > 0 {
      assert sum as real / 100.0 > 0.0;
      assert avg > 0.0;
    }
  }

  /** The request body; a field that is not an array is None. */
  datatype GenerateBody = GenerateBody(
    fens: Option<seq<string>>,
    sans: Option<seq<string>>,
    depth: Option<int>,
    elo: Option<int>)

  /** What the route asks the pool for each position. */
  datatype EvalRequest = EvalRequest(fen: string, depth: int, elo: Option<int>, limitStrength: bool)

  /** The report record the route stores. */
  datatype Created = Created(
    depth: int,
    elo: Option<int>,
    fens: seq<string>,
    sans: seq<string>,
    evals: seq<int>,
    tags: seq<string>,
    accuracy: real)

  /** The pool's answer to one evaluation: the primary score, or the
      rejection ("Engine unavailable") when the engine went away. */
  datatype PoolAnswer = Answered(score: Option<Score>) | Unavailable

  /** A 400 for bad input, or the unhandled rejection of an evaluation, which
      the framework turns into a 500. */
  datatype Failure = InvalidFensSans | EngineFailed

  /** The request the route sends for the position `fen`. */
  function RequestFor(body: GenerateBody, fen: string): EvalRequest {
    EvalRequest(fen, body.depth.GetOr(DefaultDepth), body.elo, body.elo.Some?)
  }

  predicate ValidInput(body: GenerateBody) {
    |body.fens.GetOr([])| > 0 && |body.sans.GetOr([])| == |body.fens.GetOr([])|
  }

  /** One evaluation per position, in order; None at the first position
      whose evaluation the pool rejects. */
  method EvaluateAll(body: GenerateBody, fens: seq<string>, analyze: EvalRequest -> PoolAnswer) returns (r: Option<seq<int>>)
    ensures r.None? <==> exists k :: 0 <= k < |fens| && analyze(RequestFor(body, fens[k])).Unavailable?
    ensures r.Some? ==> |r.value| == |fens|
    ensures r.Some? ==> forall k :: 0 <= k < |fens| ==>
      analyze(RequestFor(body, fens[k])).Answered? && r.value[k] == EvalOf(analyze(RequestFor(body, fens[k])).score)
  {
    var evals: seq<int> := [];
    var i := 0;
    while i < |fens|
      invariant 0 <= i <= |fens|
      invariant |evals| == i
      invariant forall k :: 0 <= k < i ==>
        analyze(RequestFor(body, fens[k])).Answered? && evals[k] == EvalOf(analyze(RequestFor(body, fens[k])).score)
    {
      var answer := analyze(RequestFor(body, fens[i]));
      if answer.Unavailable? {
        return None;
      }
      evals := evals + [EvalOf(answer.score)];
      i := i + 1;
    }
    return Some(evals);
  }

  /** `POST`: 400 unless there is at least one position and as many moves as
      positions; the first rejected evaluation aborts the route; otherwise
      one evaluation per position, the delta tags and the accuracy. */
  method Generate(body: GenerateBody, analyze: EvalRequest -> PoolAnswer) returns (res: Result<Created, Failure>)
    ensures res == Failure(InvalidFensSans) <==> !ValidInput(body)
    ensures res == Failure(EngineFailed) <==>
      ValidInput(body) && exists k :: 0 <= k < |body.fens.value| && analyze(RequestFor(body, body.fens.value[k])).Unavailable?
    ensures res.Success? ==> res.value.fens == body.fens.value && res.value.sans == body.sans.value
    ensures res.Success? ==> |res.value.evals| == |res.value.fens| && |res.value.tags| == |res.value.fens|
    ensures res.Success? ==> res.value.depth == body.depth.GetOr(DefaultDepth) && res.value.elo == body.elo
    ensures res.Success? ==> forall i :: 0 <= i < |res.value.evals| ==>
      analyze(RequestFor(body, res.value.fens[i])).Answered? &&
      res.value.evals[i] == EvalOf(analyze(RequestFor(body, res.value.fens[i])).score)
    ensures res.Success? ==> res.value.tags[0] == ""
    ensures res.Success? ==> forall i :: 1 <= i < |res.value.tags| ==>
      res.value.tags[i] == DeltaTagText(TagFromDelta(res.value.evals[i - 1], res.value.evals[i]))
    ensures res.Success? ==> 0.0 <= res.value.accuracy <= 100.0
    ensures res.Success? ==>
      (res.value.accuracy == 100.0 <==> forall k :: 1 <= k < |res.value.evals| ==> res.value.evals[k] == res.value.evals[k - 1])
    ensures res.Success? ==> res.value.accuracy == AccuracyOfEvals(res.value.evals)
  {
    var fens := body.fens.GetOr([]);
    var sans := body.sans.GetOr([]);
    var depth := body.depth.GetOr(DefaultDepth);
    if |fens| == 0 || |sans| != |fens| {
      return Failure(InvalidFensSans);
    }
    var answered := EvaluateAll(body, fens, analyze);
    if answered.None? {
      return Failure(EngineFailed);
    }
    var evals := answered.value;
    var tags := DeltaTags(evals);
    var acc := DeltaAccuracy(evals);
    var texts := seq(|tags|, k requires 0 <= k < |tags| => DeltaTagText(tags[k]));
    res := Success(Created(depth, body.elo, fens, sans, evals, texts, acc));
  }
}

=== FILE: report_page.dfy ===
/** The pure logic of the report page (src/app/report/latest/page.tsx): the
    evaluation-to-graph and evaluation-to-bar mappings, the key-moment
    selection, and the clamps of the ply navigation. */
module ReportPage {
  import opened Wrappers
  import opened Text
  import opened Decimal
  import opened Grading

  /** The default half-range of the graph and the bar, in centipawns. */
  const MaxAbs: real := 800.0

  function Clamp(cp: real): (c: real)
    ensures -MaxAbs <= c <= MaxAbs
    ensures -MaxAbs <= cp <= MaxAbs ==> c == cp
  {
    if cp < -MaxAbs then -MaxAbs else if cp > MaxAbs then MaxAbs else cp
  }

  /** `cpToY`: the vertical coordinate of an evaluation on the graph, 50 at
      equality and 45 units either way at the clamp. */
  function CpToY(cp: real): (y: real)
    ensures 5.0 <= y <= 95.0
    ensures cp == 0.0 ==> y == 50.0
    ensures cp >= MaxAbs ==> y == 5.0
    ensures cp <= -MaxAbs ==> y == 95.0
    ensures cp > 0.0 <==> y < 50.0
  {
    50.0 - (Clamp(cp) / MaxAbs) * 45.0
  }

  /** `cpToWhitePercent`: the white share of the evaluation bar; 50 without
      an evaluation. */
  function CpToWhitePercent(cp: Option<real>): (p: real)
    ensures 0.0 <= p <= 100.0
    ensures cp.None? ==> p == 50.0
    ensures cp.Some? ==> (p == 50.0 <==> cp.value == 0.0)
    ensures cp.Some? && cp.value >= MaxAbs ==> p == 100.0
    ensures cp.Some? && cp.value <= -MaxAbs ==> p == 0.0
  {
    if cp.None? then 50.0
    else ((Clamp(cp.value) + MaxAbs) / (2.0 * MaxAbs)) * 100.0
  }

  /** A better evaluation for white never shrinks the white part of the
      bar. */
  lemma WhitePercentMonotone(a: real, b: real)
    requires a <= b
    ensures CpToWhitePercent(Some(a)) <= CpToWhitePercent(Some(b))
  {
  }

  /** A better evaluation for white never moves the graph point down the
      page (a smaller y is higher). */
  lemma CpToYMonotone(a: real, b: real)
    requires a <= b
    ensures CpToY(b) <= CpToY(a)
  {
  }

  /** The graph and the bar draw the same clamped quantity: the graph
      coordinate is the white percentage mirrored onto the 5..95 band. */
  lemma GraphMatchesBar(cp: real)
    ensures CpToY(cp) == 95.0 - 0.9 * CpToWhitePercent(Some(cp))
  {
  }

  /** One entry of the key-moment list. */
  datatype Moment = Moment(ply: nat, tag: string, delta: int)

  /** `tags[i] || ""`: a missing tag reads as empty. */
  function TagAt(tags: seq<string>, i: nat): string {
    if i < |tags| then tags[i] else ""
  }

  /** The evaluation change of ply `i`; 0 for the first ply. */
  function DeltaAt(evals: seq<int>, i: nat): int
    requires i < |evals|
  {
    if i == 0 then 0 else evals[i] - evals[i - 1]
  }

  function MomentAt(tags: seq<string>, evals: seq<int>, i: nat): Moment
    requires i < |evals|
  {
    Moment(i, TagAt(tags, i), DeltaAt(evals, i))
  }

  /** A ply is a key-moment candidate when it carries a tag or the
      evaluation swings by at least 150 centipawns. */
  predicate IsCandidate(m: Moment) {
    m.tag != "" || Abs(m.delta) >= 150
  }

  /** The plies of a list, in strictly increasing order. */
  predicate PliesIncreasing(ms: seq<Moment>) {
    forall i, j :: 0 <= i < j < |ms| ==> ms[i].ply < ms[j].ply
  }

  /** The gathering loop: the candidate moments among the first `n` plies,
      in ply order. */
  function Candidates(tags: seq<string>, evals: seq<int>, n: nat): (r: seq<Moment>)
    requires n <= |evals|
    ensures PliesIncreasing(r)
    ensures forall k :: 0 <= k < |r| ==> r[k].ply < n && IsCandidate(r[k]) && r[k] == MomentAt(tags, evals, r[k].ply)
    ensures forall i :: 0 <= i < n && IsCandidate(MomentAt(tags, evals, i)) ==> MomentAt(tags, evals, i) in r
  {
    if n == 0 then []
    else
      var m := MomentAt(tags, evals, n - 1);
      var r0 := Candidates(tags, evals, n - 1);
      if IsCandidate(m) then r0 + [m] else r0
  }

  /** The rank of a tag: 3 for blunders and missed wins, 2 for mistakes,
      1 for inaccuracies, 0 otherwise. */
  function Rank(t: string): nat {
    if StartsWith(t, "Blunder") || t == "Missed Win" then 3
    else if t == "Mistake" then 2
    else if t == "Inaccuracy" then 1
    else 0
  }

  /** The sort comparator of the page: negative when `a` goes first. */
  function Compare(a: Moment, b: Moment): int {
    var byRank := Rank(b.tag) - Rank(a.tag);
    if byRank != 0 then byRank else Abs(b.delta) - Abs(a.delta)
  }

  /** The order a stable sort with `Compare` produces on moments gathered in
      ply order: the comparator first, then the original (ply) order. */
  predicate Before(a: Moment, b: Moment) {
    Compare(a, b) < 0 || (Compare(a, b) == 0 && a.ply < b.ply)
  }

  lemma BeforeTransitive(a: Moment, b: Moment, c: Moment)
    requires Before(a, b) && Before(b, c)
    ensures Before(a, c)
  {
  }

  lemma BeforeTotal(a: Moment, b: Moment)
    requires a.ply != b.ply
    ensures Before(a, b) || Before(b, a)
  {
  }

  predicate SortedBefore(ms: seq<Moment>) {
    forall i, j :: 0 <= i < j < |ms| ==> Before(ms[i], ms[j])
  }

  predicate DistinctPlies(ms: seq<Moment>) {
    forall i, j :: 0 <= i < j < |ms| ==> ms[i].ply != ms[j].ply
  }

  /** A head that comes before every entry of a sorted list keeps it
      sorted. */
  lemma ConsSorted(h: Moment, rest: seq<Moment>)
    requires SortedBefore(rest)
    requires forall k :: 0 <= k < |rest| ==> Before(h, rest[k])
    ensures SortedBefore([h] + rest)
  {
    var r := [h] + rest;
    forall i, j | 0 <= i < j < |r| ensures Before(r[i], r[j]) {
      assert r[j] == rest[j - 1];
      if i > 0 {
        assert r[i] == rest[i - 1];
      }
    }
  }

  /** Whatever comes after `h` still does once the entries are
      rearranged. */
  lemma AfterAllOfPermutation(h: Moment, xs: seq<Moment>, ys: seq<Moment>)
    requires forall k :: 0 <= k < |xs| ==> Before(h, xs[k])
    requires multiset(ys) == multiset(xs)
    ensures forall k :: 0 <= k < |ys| ==> Before(h, ys[k])
  {
    forall k | 0 <= k < |ys| ensures Before(h, ys[k]) {
      assert ys[k] in multiset(xs);
      var j :| 0 <= j < |xs| && xs[j] == ys[k];
    }
  }

  /** Places a moment into a sorted list. */
  function Insert(x: Moment, xs: seq<Moment>): (r: seq<Moment>)
    requires SortedBefore(xs)
    requires forall k :: 0 <= k < |xs| ==> xs[k].ply != x.ply
    ensures SortedBefore(r)
    ensures multiset(r) == multiset(xs) + multiset{x}
    decreases |xs|
  {
    if |xs| == 0 then [x]
    else if Before(x, xs[0]) then
      HeadFirst(x, xs);
      [x] + xs
    else
      BeforeTotal(x, xs[0]);
      var tail := xs[1..];
      TailSorted(xs);
      var rest := Insert(x, tail);
      AfterHead(xs[0], tail, x, rest);
      assert xs == [xs[0]] + tail;
      [xs[0]] + rest
  }

  /** A moment before the head of a sorted list goes first. */
  lemma HeadFirst(x: Moment, xs: seq<Moment>)
    requires SortedBefore(xs) && |xs| > 0 && Before(x, xs[0])
    ensures SortedBefore([x] + xs)
  {
    forall k | 0 <= k < |xs| ensures Before(x, xs[k]) {
      if k > 0 {
        BeforeTransitive(x, xs[0], xs[k]);
      }
    }
    ConsSorted(x, xs);
  }

  lemma TailSorted(xs: seq<Moment>)
    requires SortedBefore(xs) && |xs| > 0
    ensures SortedBefore(xs[1..])
  {
  }

  /** The head of a sorted list stays first when a later moment is
      inserted into its tail. */
  lemma AfterHead(h: Moment, tail: seq<Moment>, x: Moment, rest: seq<Moment>)
    requires SortedBefore([h] + tail) && Before(h, x)
    requires SortedBefore(rest) && multiset(rest) == multiset(tail) + multiset{x}
    ensures SortedBefore([h] + rest)
    ensures multiset([h] + rest) == multiset([h] + tail) + multiset{x}
  {
    var ht := [h] + tail;
    forall k | 0 <= k < |tail| ensures Before(h, (tail + [x])[k]) {
      assert ht[0] == h && ht[k + 1] == tail[k] && (tail + [x])[k] == tail[k];
      assert Before(ht[0], ht[k + 1]);
    }
    assert (tail + [x])[|tail|] == x;
    assert multiset(tail + [x]) == multiset(tail) + multiset{x};
    AfterAllOfPermutation(h, tail + [x], rest);
    ConsSorted(h, rest);
  }

  /** A ply absent from a list is absent from any rearrangement of it. */
  lemma PlyAbsentFromPermutation(h: Moment, xs: seq<Moment>, ys: seq<Moment>)
    requires forall k :: 0 <= k < |xs| ==> xs[k].ply != h.ply
    requires multiset(ys) == multiset(xs)
    ensures forall k :: 0 <= k < |ys| ==> ys[k].ply != h.ply
  {
    forall k | 0 <= k < |ys| ensures ys[k].ply != h.ply {
      assert ys[k] in multiset(xs);
      var j :| 0 <= j < |xs| && xs[j] == ys[k];
    }
  }

  /** The stable sort of the candidates. */
  function Sort(xs: seq<Moment>): (r: seq<Moment>)
    requires DistinctPlies(xs)
    ensures SortedBefore(r)
    ensures multiset(r) == multiset(xs)
  {
    if |xs| == 0 then []
    else
      var tail := xs[1..];
      assert forall k :: 0 <= k < |tail| ==> tail[k] == xs[k + 1];
      var rest := Sort(tail);
      PlyAbsentFromPermutation(xs[0], tail, rest);
      assert xs == [xs[0]] + tail;
      Insert(xs[0], rest)
  }

  const MaxMoments: nat := 10

  /** The first `n` entries of a list, or all of it when it is shorter. */
  function Take(s: seq<Moment>, n: nat): (r: seq<Moment>)
    ensures |r| == if |s| < n then |s| else n
    ensures forall k :: 0 <= k < |r| ==> r[k] == s[k]
  {
    if |s| <= n then s else s[..n]
  }

  /** An entry of a sorted list left out of its prefix comes after every
      entry of the prefix. */
  lemma TakeKeepsBest(s: seq<Moment>, n: nat, m: Moment)
    requires SortedBefore(s)
    requires m in s && m !in Take(s, n)
    ensures forall k :: 0 <= k < |Take(s, n)| ==> Before(Take(s, n)[k], m)
  {
    var j :| 0 <= j < |s| && s[j] == m;
    assert j >= |Take(s, n)|;
  }

  /** The candidates, gathered in ply order, have distinct plies, and
      sorting keeps their number. */
  lemma SortCandidates(cs: seq<Moment>)
    requires PliesIncreasing(cs)
    ensures DistinctPlies(cs)
    ensures |Sort(cs)| == |cs|
    ensures forall k :: 0 <= k < |Sort(cs)| ==> Sort(cs)[k] in cs
    ensures forall m :: m in cs ==> m in Sort(cs)
  {
    var s := Sort(cs);
    assert |s| == |multiset(s)| == |multiset(cs)| == |cs|;
    forall k | 0 <= k < |s| ensures s[k] in cs {
      assert s[k] in multiset(cs);
    }
    forall m | m in cs ensures m in s {
      assert m in multiset(s);
    }
  }

  /** `keyMoments`: the candidates ordered by rank, then by swing size,
      then by ply, and cut to the first ten. */
  function KeyMoments(sans: seq<string>, evals: seq<int>, tags: seq<string>): (r: seq<Moment>)
    requires |sans| <= |evals|
    ensures |r| <= MaxMoments
    ensures forall k :: 0 <= k < |r| ==> r[k].ply < |sans| && IsCandidate(r[k]) && r[k] == MomentAt(tags, evals, r[k].ply)
    ensures forall i, j :: 0 <= i < j < |r| ==> Compare(r[i], r[j]) < 0 || (Compare(r[i], r[j]) == 0 && r[i].ply < r[j].ply)
    ensures |r| == if |Candidates(tags, evals, |sans|)| < MaxMoments then |Candidates(tags, evals, |sans|)| else MaxMoments
    ensures forall i :: 0 <= i < |sans| && IsCandidate(MomentAt(tags, evals, i)) && MomentAt(tags, evals, i) !in r ==>
      forall k :: 0 <= k < |r| ==> Before(r[k], MomentAt(tags, evals, i))
  {
    var cs := Candidates(tags, evals, |sans|);
    SortCandidates(cs);
    var sorted := Sort(cs);
    var r := Take(sorted, MaxMoments);
    forall i | 0 <= i < |sans| && IsCandidate(MomentAt(tags, evals, i)) && MomentAt(tags, evals, i) !in r
      ensures forall k :: 0 <= k < |r| ==> Before(r[k], MomentAt(tags, evals, i))
    {
      TakeKeepsBest(sorted, MaxMoments, MomentAt(tags, evals, i));
    }
    r
  }

  /** The label shown beside a moment: its tag, else "Big swing" for a swing
      of at least 150 centipawns. */
  function MomentLabel(tags: seq<string>, m: Moment): (l: string)
    ensures IsCandidate(m) && m.tag == TagAt(tags, m.ply) ==> l != ""
    ensures TagAt(tags, m.ply) != "" ==> l == TagAt(tags, m.ply)
    ensures TagAt(tags, m.ply) == "" ==> (l == "Big swing" <==> Abs(m.delta) >= 150)
    ensures TagAt(tags, m.ply) == "" && l != "Big swing" ==> l == ""
  {
    if TagAt(tags, m.ply) != "" then TagAt(tags, m.ply)
    else if Abs(m.delta) >= 150 then "Big swing"
    else ""
  }

  /** The step-back button. */
  function StepBack(p: int): (r: int)
    ensures r >= 0
    ensures p >= 1 ==> r == p - 1
    ensures p < 1 ==> r == 0
  {
    if p - 1 > 0 then p - 1 else 0
  }

  /** The step-forward button over `n` moves. */
  function StepForward(p: int, n: nat): (r: int)
    ensures r <= n - 1
    ensures p + 1 <= n - 1 ==> r == p + 1
    ensures p + 1 > n - 1 ==> r == n - 1
  {
    if n - 1 < p + 1 then n - 1 else p + 1
  }

  /** A click at fraction `x` of the graph width selects the nearest ply,
      kept within the move list. */
  function GraphClickPly(x: real, n: nat): (r: int)
    ensures n >= 1 ==> 0 <= r <= n - 1
    ensures n >= 1 && 0.0 <= x <= 1.0 ==> r == Round(x * (n - 1) as real)
  {
    var k := Round(x * (n - 1) as real);
    ScaleWithin(x, (n - 1) as real);
    var lo := if n - 1 < k then n - 1 else k;
    if 0 > lo then 0 else lo
  }

  lemma ScaleWithin(x: real, w: real)
    ensures 0.0 <= x <= 1.0 && 0.0 <= w ==> 0.0 <= x * w <= w
  {
    if 0.0 <= x <= 1.0 && 0.0 <= w {
      assert x * w <= 1.0 * w;
    }
  }

  /** The navigation keeps the selected ply inside the move list: from any
      valid ply, every button leads to a valid ply. */
  lemma NavigationStaysInRange(p: int, n: nat)
    requires 0 <= p <= n - 1
    ensures 0 <= StepBack(p) <= n - 1
    ensures 0 <= StepForward(p, n) <= n - 1
  {
  }
}

=== FILE: score.dfy ===
/** Engine scores and their conversion to centipawns, the `scoreToCp` helper
    that the report routes and the puzzle miner each define identically. */
module Scores {
  import opened Wrappers

  /** A score as the engine reports it: centipawns, or signed distance to
      mate (positive when the side to move mates). */
  datatype Score = Cp(cp: int) | Mate(moves: int)

  /** The centipawn value a mate score saturates to. */
  const MateCp: int := 10000

  /** `scoreToCp`: centipawns pass through; a mate becomes +10000 when its
      distance is zero or positive and -10000 otherwise; no score gives null. */
  function ScoreToCp(s: Option<Score>): (r: Option<int>)
    ensures r.Some? <==> s.Some?
    ensures s.Some? && s.value.Cp? ==> r.value == s.value.cp
    ensures s.Some? && s.value.Mate? ==> r.value == MateCp || r.value == -MateCp
    ensures s.Some? && s.value.Mate? ==> (r.value > 0 <==> s.value.moves >= 0)
  {
    match s
    case None => None
    case Some(Cp(v)) => Some(v)
    case Some(Mate(m)) => Some((if m >= 0 then 1 else -1) * MateCp)
  }

  predicate IsMate(s: Option<Score>) {
    s.Some? && s.value.Mate?
  }

  /** The signed mate distance of a mate score, 0 for anything else. */
  function MateValue(s: Option<Score>): int {
    if IsMate(s) then s.value.moves else 0
  }
}

=== FILE: text.dfy ===
/** String helpers shared by the parsers: JavaScript whitespace, trimming,
    prefix and substring tests, single-character `split`/`join`, splitting on
    separator runs, ASCII case folding and code-unit lexicographic order. */
module Text {
  import opened Wrappers

  /** The characters JavaScript's `\s` and `String.prototype.trim` treat as
      white space (WhiteSpace and LineTerminator of ECMA-262). */
  predicate IsSpace(c: char) {
    || c == ' ' || c == '\t' || c == '\n' || c == '\r'
    || c == '\U{000B}' || c == '\U{000C}' || c == '\U{00A0}' || c == '\U{FEFF}'
    || c == '\U{1680}' || ('\U{2000}' <= c <= '\U{200A}')
    || c == '\U{2028}' || c == '\U{2029}' || c == '\U{202F}' || c == '\U{205F}'
    || c == '\U{3000}'
  }

  predicate StartsWith(s: string, p: string) {
    |p| <= |s| && s[..|p|] == p
  }

  /** `s.includes(p)`. */
  predicate Contains(s: string, p: string)
    decreases |s|
  {
    StartsWith(s, p) || (|s| > 0 && Contains(s[1..], p))
  }

  lemma {:induction false} ContainsAt(s: string, p: string, i: nat)
    requires i + |p| <= |s| && s[i..i + |p|] == p
    ensures Contains(s, p)
    decreases i
  {
    if i > 0 {
      assert s[1..][i - 1..i - 1 + |p|] == s[i..i + |p|];
      ContainsAt(s[1..], p, i - 1);
    }
  }

  function TrimStart(s: string): (r: string)
    ensures |r| <= |s| && r == s[|s| - |r|..]
    ensures |r| > 0 ==> !IsSpace(r[0])
    ensures forall i :: 0 <= i < |s| - |r| ==> IsSpace(s[i])
    decreases |s|
  {
    if |s| > 0 && IsSpace(s[0]) then TrimStart(s[1..]) else s
  }

  function TrimEnd(s: string): (r: string)
    ensures |r| <= |s| && r == s[..|r|]
    ensures |r| > 0 ==> !IsSpace(r[|r| - 1])
    ensures forall i :: |r| <= i < |s| ==> IsSpace(s[i])
    decreases |s|
  {
    if |s| > 0 && IsSpace(s[|s| - 1]) then TrimEnd(s[..|s| - 1]) else s
  }

  /** `s.trim()`: the text between the leading and trailing white space. */
  function Trim(s: string): (r: string)
    ensures |r| > 0 ==> !IsSpace(r[0]) && !IsSpace(r[|r| - 1])
    ensures |r| <= |s|
  {
    TrimEnd(TrimStart(s))
  }

  lemma TrimAllSpace(s: string)
    requires forall i :: 0 <= i < |s| ==> IsSpace(s[i])
    ensures Trim(s) == ""
  {
  }

  /** A string with a character that is not white space trims to a
      non-empty string. */
  lemma TrimNonEmpty(s: string, i: nat)
    requires i < |s| && !IsSpace(s[i])
    ensures |Trim(s)| > 0
  {
    var t := TrimStart(s);
    assert |t| > 0 && !IsSpace(t[0]);
  }

  /** White space appended at the end is trimmed away. */
  lemma {:induction false} TrimEndSpaces(s: string, t: string)
    requires forall i :: 0 <= i < |t| ==> IsSpace(t[i])
    ensures TrimEnd(s + t) == TrimEnd(s)
    decreases |t|
  {
    if |t| > 0 {
      assert (s + t)[|s + t| - 1] == t[|t| - 1];
      assert (s + t)[..|s + t| - 1] == s + t[..|t| - 1];
      TrimEndSpaces(s, t[..|t| - 1]);
    } else {
      assert s + t == s;
    }
  }

  lemma {:induction false} TrimStartAppend(s: string, t: string)
    requires exists i :: 0 <= i < |s| && !IsSpace(s[i])
    ensures TrimStart(s + t) == TrimStart(s) + t
    decreases |s|
  {
    if IsSpace(s[0]) {
      var i :| 0 <= i < |s| && !IsSpace(s[i]);
      assert s[1..][i - 1] == s[i];
      assert (s + t)[1..] == s[1..] + t;
      TrimStartAppend(s[1..], t);
    }
  }

  /** `(s + t).trim() == s.trim()` when `t` is white space. */
  lemma TrimSpaceSuffix(s: string, t: string)
    requires forall i :: 0 <= i < |t| ==> IsSpace(t[i])
    ensures Trim(s + t) == Trim(s)
  {
    if exists i :: 0 <= i < |s| && !IsSpace(s[i]) {
      TrimStartAppend(s, t);
      TrimEndSpaces(TrimStart(s), t);
    } else {
      TrimAllSpace(s);
      TrimAllSpace(s + t);
    }
  }

  /** `s.split(c)` for a one-character separator: the pieces between the
      occurrences of `c`, never an empty list. */
  function SplitOn(s: string, c: char): (r: seq<string>)
    ensures |r| >= 1
    ensures forall i :: 0 <= i < |r| ==> c !in r[i]
    decreases |s|
  {
    if |s| == 0 then [""]
    else
      var rest := SplitOn(s[1..], c);
      if s[0] == c then [""] + rest
      else [[s[0]] + rest[0]] + rest[1..]
  }

  /** A string that contains the separator splits into at least two pieces. */
  lemma {:induction false} SplitOnTwo(s: string, c: char)
    requires c in s
    ensures |SplitOn(s, c)| >= 2
    decreases |s|
  {
    if s[0] != c {
      assert c in s[1..] by {
        var k :| 0 <= k < |s| && s[k] == c;
        assert s[1..][k - 1] == c;
      }
      SplitOnTwo(s[1..], c);
    }
  }

  /** `ps.join(c)`. */
  function Join(ps: seq<string>, c: char): string
    decreases |ps|
  {
    if |ps| == 0 then ""
    else if |ps| == 1 then ps[0]
    else ps[0] + [c] + Join(ps[1..], c)
  }

  lemma {:induction false} JoinSplit(s: string, c: char)
    ensures Join(SplitOn(s, c), c) == s
    decreases |s|
  {
    if |s| > 0 {
      var rest := SplitOn(s[1..], c);
      JoinSplit(s[1..], c);
      if s[0] == c {
        assert SplitOn(s, c) == [""] + rest;
        assert s == [c] + s[1..];
      } else {
        var r := SplitOn(s, c);
        assert r == [[s[0]] + rest[0]] + rest[1..];
        if |rest| == 1 {
          assert s == [s[0]] + rest[0];
        } else {
          assert r[1..] == rest[1..];
          assert Join(rest, c) == rest[0] + [c] + Join(rest[1..], c);
          assert s == [s[0]] + s[1..];
        }
      }
    }
  }

  lemma {:induction false} SplitJoin(ps: seq<string>, c: char)
    requires |ps| >= 1
    requires forall i :: 0 <= i < |ps| ==> c !in ps[i]
    ensures SplitOn(Join(ps, c), c) == ps
    decreases |ps|, |ps[0]|
  {
    if |ps[0]| > 0 {
      var h := ps[0];
      var ps' := [h[1..]] + ps[1..];
      assert c !in ps'[0] by { assert forall x :: x in h[1..] ==> x in h; }
      assert forall i :: 1 <= i < |ps'| ==> ps'[i] == ps[i];
      SplitJoin(ps', c);
      JoinHeadCons(ps, c);
      assert Join(ps, c) == [h[0]] + Join(ps', c);
      assert h[0] != c by { assert h[0] in h; }
      assert [h[0]] + ps'[0] == h;
    } else if |ps| == 1 {
    } else {
      assert Join(ps, c) == [c] + Join(ps[1..], c);
      SplitJoin(ps[1..], c);
      assert ([c] + Join(ps[1..], c))[1..] == Join(ps[1..], c);
      assert ps == [""] + ps[1..];
    }
  }

  /** Moving the first character of the first piece out of a join. */
  lemma JoinHeadCons(ps: seq<string>, c: char)
    requires |ps| >= 1 && |ps[0]| > 0
    ensures Join(ps, c) == [ps[0][0]] + Join([ps[0][1..]] + ps[1..], c)
  {
    var ps' := [ps[0][1..]] + ps[1..];
    assert ps'[1..] == ps[1..];
    assert ps[0] == [ps[0][0]] + ps[0][1..];
  }

  /** The last character of a join is the last character of the last piece. */
  lemma {:induction false} JoinLast(ps: seq<string>, c: char)
    requires |ps| >= 1 && |ps[|ps| - 1]| > 0
    ensures |Join(ps, c)| > 0
    ensures Join(ps, c)[|Join(ps, c)| - 1] == ps[|ps| - 1][|ps[|ps| - 1]| - 1]
    decreases |ps|
  {
    if |ps| > 1 {
      JoinLast(ps[1..], c);
    }
  }

  /** Trimming leaves a string alone that neither starts nor ends with white
      space. */
  lemma TrimNoSpace(s: string)
    requires |s| > 0 && !IsSpace(s[0]) && !IsSpace(s[|s| - 1])
    ensures Trim(s) == s
  {
  }

  /** Splitting the last piece off a join. */
  lemma {:induction false} JoinSnoc(ps: seq<string>, c: char)
    requires |ps| >= 2
    ensures Join(ps, c) == Join(ps[..|ps| - 1], c) + [c] + ps[|ps| - 1]
    decreases |ps|
  {
    if |ps| > 2 {
      JoinSnoc(ps[1..], c);
      assert ps[1..][..|ps[1..]| - 1] == ps[..|ps| - 1][1..];
      assert ps[..|ps| - 1][0] == ps[0];
    } else {
      assert ps[..1] == [ps[0]];
    }
  }

  /** `s.lastIndexOf(c)`, or None for -1. */
  function LastIndexOf(s: string, c: char): (r: Option<nat>)
    ensures r.Some? ==> r.value < |s| && s[r.value] == c
    ensures r.Some? ==> forall j :: r.value < j < |s| ==> s[j] != c
    ensures r.None? ==> c !in s
    decreases |s|
  {
    if |s| == 0 then None
    else if s[|s| - 1] == c then Some(|s| - 1)
    else LastIndexOf(s[..|s| - 1], c)
  }

  /** The separator found last in `x + [c] + y` when `y` has none. */
  lemma LastSeparator(x: string, c: char, y: string)
    requires c !in y
    ensures LastIndexOf(x + [c] + y, c) == Some(|x|)
  {
    var s := x + [c] + y;
    assert s[|x|] == c;
    assert c in s;
    assert forall j :: |x| < j < |s| ==> s[j] == y[j - |x| - 1];
  }

  lemma SplitAtLast(x1: string, y1: string, x2: string, y2: string, c: char)
    requires c !in y1 && c !in y2
    requires x1 + [c] + y1 == x2 + [c] + y2
    ensures x1 == x2 && y1 == y2
  {
    LastSeparator(x1, c, y1);
    LastSeparator(x2, c, y2);
    var s := x1 + [c] + y1;
    assert x1 == s[..|x1|] && x2 == s[..|x2|];
    assert y1 == s[|x1| + 1..] && y2 == s[|x2| + 1..];
  }

  /** Length of the longest prefix of `s` none of whose characters is a
      separator. */
  function Span(s: string, isSep: char -> bool): (n: nat)
    ensures n <= |s|
    ensures forall i :: 0 <= i < n ==> !isSep(s[i])
    ensures n < |s| ==> isSep(s[n])
    decreases |s|
  {
    if |s| == 0 || isSep(s[0]) then 0 else 1 + Span(s[1..], isSep)
  }

  /** The maximal runs of non-separator characters, left to right: what
      `s.split(/<sep>+/).filter(Boolean)` yields. */
  function Tokens(s: string, isSep: char -> bool): (r: seq<string>)
    ensures forall i :: 0 <= i < |r| ==> |r[i]| > 0
    ensures forall i, j :: 0 <= i < |r| && 0 <= j < |r[i]| ==> !isSep(r[i][j])
    decreases |s|
  {
    if |s| == 0 then []
    else if isSep(s[0]) then Tokens(s[1..], isSep)
    else
      var n := Span(s, isSep);
      [s[..n]] + Tokens(s[n..], isSep)
  }

  /** `s.split(/\s+/)` on a string already trimmed, with empty pieces
      dropped. */
  function Words(s: string): seq<string> {
    Tokens(s, IsSpace)
  }

  /** Joining words with one space, the inverse of `Words`. */
  function Unwords(ws: seq<string>): string {
    Join(ws, ' ')
  }

  lemma {:induction false} TokensSkip(s: string, t: string, isSep: char -> bool)
    requires forall i :: 0 <= i < |s| ==> isSep(s[i])
    ensures Tokens(s + t, isSep) == Tokens(t, isSep)
    decreases |s|
  {
    if |s| > 0 {
      assert (s + t)[0] == s[0];
      assert isSep((s + t)[0]);
      assert (s + t)[1..] == s[1..] + t;
      assert Tokens(s + t, isSep) == Tokens((s + t)[1..], isSep);
      TokensSkip(s[1..], t, isSep);
    } else {
      assert s + t == t;
    }
  }

  lemma SpanWord(w: string, t: string, isSep: char -> bool)
    requires forall i :: 0 <= i < |w| ==> !isSep(w[i])
    requires |t| == 0 || isSep(t[0])
    ensures Span(w + t, isSep) == |w|
    decreases |w|
  {
    if |w| > 0 {
      assert (w + t)[1..] == w[1..] + t;
      SpanWord(w[1..], t, isSep);
    }
  }

  /** Splitting a space-joined list of words gives the words back. */
  lemma {:induction false} WordsUnwords(ws: seq<string>)
    requires forall i :: 0 <= i < |ws| ==> |ws[i]| > 0
    requires forall i, j :: 0 <= i < |ws| && 0 <= j < |ws[i]| ==> !IsSpace(ws[i][j])
    ensures Words(Unwords(ws)) == ws
    decreases |ws|
  {
    if |ws| == 1 {
      var w := ws[0];
      SpanWord(w, "", IsSpace);
      assert w + "" == w;
      assert Unwords(ws) == w;
      assert w[..|w|] == w;
      assert w[|w|..] == "";
      assert Tokens(w, IsSpace) == [w[..|w|]] + Tokens(w[|w|..], IsSpace);
    } else if |ws| > 1 {
      var w := ws[0];
      var t := [' '] + Join(ws[1..], ' ');
      assert Unwords(ws) == w + t;
      SpanWord(w, t, IsSpace);
      assert (w + t)[..|w|] == w;
      assert (w + t)[|w|..] == t;
      TokensSkip([' '], Join(ws[1..], ' '), IsSpace);
      WordsUnwords(ws[1..]);
      assert ws == [w] + ws[1..];
    }
  }

  function LowerAscii(c: char): char {
    if 'A' <= c <= 'Z' then (c as int + 32) as char else c
  }

  function Lower(s: string): (r: string)
    ensures |r| == |s|
    ensures forall i :: 0 <= i < |s| ==> r[i] == LowerAscii(s[i])
  {
    seq(|s|, i requires 0 <= i < |s| => LowerAscii(s[i]))
  }

  /** Equality up to ASCII case, as a JavaScript regular expression with the
      `i` flag and without `u` compares letters. */
  predicate EqualsIgnoreCase(a: string, b: string) {
    Lower(a) == Lower(b)
  }

  /** `new RegExp(p, "i").test(s)` for a pattern made of letters only. */
  predicate ContainsIgnoreCase(s: string, p: string) {
    Contains(Lower(s), Lower(p))
  }

  /** Strict code-unit lexicographic order. */
  predicate Less(a: string, b: string)
    decreases |a|
  {
    if |a| == 0 then |b| > 0
    else if |b| == 0 then false
    else if a[0] != b[0] then a[0] < b[0]
    else Less(a[1..], b[1..])
  }

  lemma {:induction false} LessIrreflexive(a: string)
    ensures !Less(a, a)
    decreases |a|
  {
    if |a| > 0 { LessIrreflexive(a[1..]); }
  }

  lemma {:induction false} LessTransitive(a: string, b: string, c: string)
    requires Less(a, b) && Less(b, c)
    ensures Less(a, c)
    decreases |a|
  {
    if |a| > 0 && |b| > 0 && |c| > 0 && a[0] == b[0] && b[0] == c[0] {
      LessTransitive(a[1..], b[1..], c[1..]);
    }
  }

  lemma {:induction false} LessTotal(a: string, b: string)
    requires a != b
    ensures Less(a, b) || Less(b, a)
    decreases |a|
  {
    if |a| > 0 && |b| > 0 && a[0] == b[0] {
      assert a == [a[0]] + a[1..] && b == [b[0]] + b[1..];
      LessTotal(a[1..], b[1..]);
    }
  }

  /** Strictly increasing, hence free of duplicates. */
  predicate StrictlySorted(xs: seq<string>) {
    forall i, j :: 0 <= i < j < |xs| ==> Less(xs[i], xs[j])
  }

  function Elems(xs: seq<string>): set<string> {
    set x | x in xs
  }
}

=== FILE: wrappers.dfy ===
/** Option and Result values used throughout the model, standing in for the
    source's `null`/`undefined` results and its HTTP error responses. */
module Wrappers {

  datatype Option<+T> = None | Some(value: T) {

    /** Returns the carried value, or `default` when there is none (the
        source's `x ?? default`). */
    function GetOr(default: T): T {
      match this
      case Some(v) => v
      case None => default
    }
  }

  datatype Result<+R, +E> = Success(value: R) | Failure(error: E)
}
